=== FILE: README.md ===
# Hospital surgery scheduling, modelled in Dafny

This project models the scheduling core of the Hospital repository. At that
core sits an event-driven simulator that builds an operating-theatre
timetable. It repeatedly takes the earliest *vacancy*, meaning a room and the
moment the room becomes free. A gene of a candidate vector picks a free team
there, and that team books its next surgery: the one with the smallest
duration-to-priority ratio among the surgeries it may perform. The penalty of
a finished timetable is the total waiting time, in minutes, counted from time
zero. A genetic search scores candidate vectors by minus that penalty.

The model covers:

- **Store** (`cache.dfy`, module `Cache`). The in-memory tables (Surgery,
  Room, Team, the two capability-link tables, Schedule and EmptySchedule),
  the lookups, the busy tests, the room probe, the registration with its
  guards, and the penalty.
- **Selection** (`selection.dfy`). Team picking by gene, the remaining-surgery
  guard, and `get_next_surgery` with and without the room limiter.
- **Frontier** (`frontier.dfy`). The vacancy computation of the base builder
  and of the fixed-schedules extension, the earliest vacancy, the duplicate
  test, the next-item lookup, and the two "room end" computations used by the
  fallbacks.
- **Builder** (`builder.dfy`). The room step, its fallbacks (other teams,
  global teams, `if_no_teams_for_room`), and the fixed-schedules and
  room-limiter extensions. Every step is tied together by the run invariant
  `Grows`.
- **Execution** (`execute.dfy`). The constructor, the main loop of `execute`
  with its guards, the display probe, and the closing check that every
  surgery got a booking.
- **Search** (`search.dfy`). The mobile-surgery selection of the solver, the
  shape of both gene spaces, and the fitness wrapper.
- **Algoritmo** (`algoritmo.dfy`). The older Portuguese-named simulator in
  `algoritmo.py`: mediator, registration, penalty, next-time choice, the run
  loop, and the best-so-far history.
- **Weighted** (`weighted.dfy`). The single-room weighted-completion model of
  `main.py`: surgery creation and lookup, room numbering, the total penalty,
  the exhaustive order search, and its optimality.
- **Lehmer** (`lehmer.dfy`). The "pop by index" order decoding of `main.py`,
  and the matching encoder that `get_guess` in `MyAlgorithm.py` uses to write
  its ordering seed, with the round trip between them.
- **Ranking** (`ranking.dfy`). The room-distribution model of
  `MyAlgorithm.py`: ratio ranks, the round-robin guess, order genes, per-room
  seed genes, and the room fitness. The room fitness of `MyAlgorithm.py` does
  not decode: it sorts each room by raw gene value (MyAlgorithm.py:285), so the
  pop-index seed is read as something it is not (see "## Findings"). A decoded
  room fitness, which reads each room's genes as pop indexes into the slots
  `0 .. m-1`, is modelled beside it as the corrected score.
- **Repositories** (`repositories.dfy`). The two generic in-memory
  repositories: id assignment, lookups by id and name, and the
  `name - id` labels.

Conventions:

- Times are integers counting seconds. Surgery durations are minutes, so a
  booking ends at `start + 60 * duration`. Zero time is a parameter.
- Ratios and the Lehmer-style codes are exact (`real`, `int`).
- A failure is either `Raised(exc, msg)` or `Exit(msg)`. `Raised` is a
  Python exception, which the fitness wrapper turns into minus infinity.
  `Exit` is a `quit()`, which the wrapper does not catch.
- `OutOfFuel` marks the model's own bound on recursion and loop steps. It is
  never a behaviour of the program.
- The store is an immutable value. A table lookup is a filter over that
  table, and `get_by_id` returns the last row with the id, because the index
  dictionary keeps the last one it sees.
- The builder's mixins are flags in `Builder.Features`. With both flags off
  the builder is the plain one. Each flag switches exactly the methods its
  mixin overrides.
- The guards decorated with `additional_test` are modelled as active.

## Model

| member | source | states |
|---|---|---|
| `Cache.LastWith` | app/services/cache/cache_in_dict.py:48-51 | A row is found exactly when some row has the key; the one found is the last such row. |
| `Cache.GetById` | app/services/cache/cache_in_dict.py:69-78 | `get_by_id` succeeds exactly when some row has the id; the row returned has that id and comes from the table; otherwise ValueError. |
| `Cache.SurgeryById` | app/services/cache/cache_in_dict.py:69-78 | A surgery lookup succeeds exactly when the Surgery table holds that id, and returns a row of the table with it. |
| `Cache.RoomById` | app/services/cache/cache_in_dict.py:69-78 | The same for the Room table. |
| `Cache.EndOf` | app/services/cache/core/cache_manager.py:45 | A booking's end is defined exactly when its surgery is known, and is its start plus the surgery's duration in minutes. |
| `Cache.AnyOccupies` | app/services/cache/core/cache_manager.py:43-48 | When the scan answers, it answers whether some booking covers `t` (start included, end excluded); it always answers when every surgery is known; it fails only with ValueError. |
| `Cache.WhereOccupies` | app/services/cache/cache_in_dict.py:81-88 | Scanning a filtered lookup finds a covering booking exactly when the whole table has one that passes the filter; known surgeries stay known under filtering. |
| `Cache.IsTeamBusy` | app/services/cache/core/cache_manager.py:38-48 | `is_team_busy` is true exactly when a booking of the team covers `t`, and false when the team has no booking. |
| `Cache.IsRoomBusy` | app/services/cache/core/cache_manager.py:51-62 | `is_room_busy` is true exactly when a booking in the room covers `t`. |
| `Cache.FreeTeams` | app/services/cache/core/cache_manager.py:65-72 | Filtering a team list keeps exactly the teams not busy at `t`, in order. |
| `Cache.AvailableTeams` | app/services/cache/core/cache_manager.py:65-72 | A team is available exactly when it is in the Team table and not busy at `t`; table order is kept. |
| `Cache.FreeRooms` | app/services/cache/core/cache_manager.py:75-82 | Filtering a room list keeps exactly the rooms not busy at `t`, in order. |
| `Cache.AvailableRooms` | app/services/cache/core/cache_manager.py:75-82 | A room is available exactly when it is in the Room table and not busy at `t`; table order is kept. |
| `Cache.ScanCover` | app/services/cache/core/cache_manager.py:100-117 | The room probe finds nothing exactly when no booking covers the room at `t`; the booking it returns covers the room; a second covering booking stops the run. |
| `Cache.FirstSlotFrom` | app/services/cache/core/cache_manager.py:119-127 | No empty slot is found exactly when none of the room covers `t`; the one found covers it and is the first such. |
| `Cache.FindByTimeAndRoom` | app/services/cache/core/cache_manager.py:95-132 | The room at `t` is surgical (a booking covers it), idle (an empty slot covers it) or vacant (nothing covers it), and each answer is backed by the tables. |
| `Cache.WaitMinutes` | app/services/cache/core/cache_manager.py:185-187 | A booking waits zero minutes when it starts by time zero, and otherwise the whole minutes elapsed since zero (floor division of seconds by 60). |
| `Cache.CalculatePunishment` | app/services/cache/core/cache_manager.py:172-191 | The penalty raises AssertionError exactly when there is no room; it is zero with no bookings and never negative. |
| `Cache.PunishmentIsTotalWait` | app/services/cache/core/cache_manager.py:179-191 | With distinct room ids and every booking in a known room, the per-room penalty equals the total wait of all bookings. |
| `Cache.PerRoomWaitIsTotal` | app/services/cache/core/cache_manager.py:182-189 | Summing per room counts each booking's wait exactly once. |
| `Cache.CheckSuperposition` | app/services/cache/cache_in_dict.py:158-170 | The overlap check passes when no booking of the room meets the check's own clash test, and stops the run (or raises) otherwise. |
| `Cache.RegisterSurgery` | app/services/cache/cache_in_dict.py:110-129 | Registration succeeds exactly when the surgery has no booking and the overlap check passes; then exactly one booking (start, surgery, room, team, not fixed) is appended and every other table is unchanged; a surgery already booked stops the run. |
| `Cache.RegisteredIsIndexed` | app/services/cache/cache_in_dict.py:131-148 | After a registration, every filtered lookup sees the new booking exactly when the filter accepts it, after the bookings it saw before. |
| `Cache.RegisteredIsOnlyBooking` | app/services/cache/cache_in_dict.py:151-155 | After a registration, the lookup by surgery id holds just the new booking. |
| `Cache.SuperpositionMissesEqualStart` | app/services/cache/cache_in_dict.py:164-165 | The overlap test as written lets a second surgery start at the same time as an existing one in the same room. |
| `Cache.SuperpositionMissesContainment` | app/services/cache/cache_in_dict.py:164-165 | The overlap test as written lets a new surgery strictly contain an existing one. |
| `Selection.PickTeam` | app/services/logic/schedule_builders/algorithm.py:310-324 | A gene picks a free team exactly when the gene exists and there is a free team: a gene in range picks that team, a gene past the end picks the last team, and a negative gene counts from the end; otherwise IndexError. |
| `Selection.FirstBookingOf` | app/services/logic/schedule_builders/algorithm.py:137-138 | The first booking of a surgery is absent exactly when the surgery has none, and is a booking of that surgery otherwise. |
| `Selection.CheckRemaining` | app/services/logic/schedule_builders/algorithm.py:131-141 | The guard passes exactly when no remaining surgery has a booking, and otherwise stops the run. |
| `Selection.Candidates` | app/services/logic/schedule_builders/algorithm.py:143-150 | The candidate rows exist exactly when every linked surgery is in the Surgery table; they come in link order, one per link; otherwise ValueError. |
| `Selection.Choose` | app/services/logic/schedule_builders/algorithm.py:143-158 | The selection goes through exactly when no remaining surgery has a booking and every admissible link names a known surgery; it then chooses nothing exactly when the team has no admissible link, and a chosen surgery is admissible, has the least ratio among the admissible ones and is the first with it. |
| `Selection.GetNextSurgery` | app/services/logic/schedule_builders/algorithm.py:121-158 | Without the room limiter, a team with no links gets nothing. With it, a team or a room with no links fails an assertion (room_limiter.py:18-24). Otherwise the lookup succeeds exactly when the selection's success condition holds, gives nothing exactly when no link is admissible, and gives the first surgery with the least ratio among the team's remaining, unbooked, room-allowed surgeries. |
| `Selection.NoLinksNoneAdmissible` | app/services/logic/schedule_builders/algorithm.py:123-129 | A team with no capability link has no admissible surgery. |
| `Selection.ChosenIsEligible` | app/services/logic/schedule_builders/algorithm.py:157-158 | The first candidate with the least ratio satisfies the selection predicate. |
| `Frontier.BaseRoomFrontier` | app/services/logic/schedule_builders/algorithm.py:94-116 | A room's frontier is zero time when it has no booking, and otherwise the end of one of its bookings, no earlier than any of their ends. |
| `Frontier.RoomEnds` | app/services/logic/schedule_builders/algorithm.py:108-116 | A room's booking ends are empty exactly when it has no booking; their maximum is the end of one of its bookings and bounds all of them. |
| `Frontier.BaseFrontiers` | app/services/logic/schedule_builders/algorithm.py:94-118 | There is one vacancy per room, in room order, each at that room's frontier; it is defined whenever every surgery is known. |
| `Frontier.BaseVacancies` | app/services/logic/schedule_builders/algorithm.py:80-118 | `get_next_vacancies` raises ValueError with no booking or with no room; otherwise it gives each room its frontier. |
| `Frontier.FixedRoomEnds` | app/services/logic/schedule_builders/features/fixed_schedules.py:130-142 | What counts towards a room's frontier is exactly the ends of its mobile bookings, of its considered empty slots and of its considered fixed bookings. |
| `Frontier.FixedRoomFrontier` | app/services/logic/schedule_builders/features/fixed_schedules.py:144-155 | With nothing counting, the frontier is zero time; otherwise it is the latest of the ends that count. |
| `Frontier.NothingCountsIffNoEnds` | app/services/logic/schedule_builders/features/fixed_schedules.py:118-128 | Nothing counts in a room exactly when the room has no end to take the latest of. |
| `Frontier.FixedFrontiers` | app/services/logic/schedule_builders/features/fixed_schedules.py:102-157 | There is one vacancy per room, in room order, at the extension's frontier. |
| `Frontier.FixedVacancies` | app/services/logic/schedule_builders/features/fixed_schedules.py:102-157 | The extension's `get_next_vacancies` fails its assertion with no booking or no room; otherwise each room gets its frontier. |
| `Frontier.FixedFrontiersIgnoreFixed` | app/services/logic/schedule_builders/features/fixed_schedules.py:118-142 | Adding a fixed booking to the Schedule table leaves every extension frontier unchanged. |
| `Frontier.UnconsideredFixedIsIgnored` | app/services/logic/schedule_builders/features/fixed_schedules.py:118-142 | A fixed booking that has not been reached does not move any vacancy. |
| `Frontier.EarliestVacancy` | app/services/logic/schedule_builders/algorithm.py:210-216 | There is an earliest vacancy exactly when the list is non-empty; it has the least time, and it is the first one with that time. |
| `Frontier.CheckDuplicate` | app/services/logic/schedule_builders/algorithm.py:192-200 | The vacancy passes exactly when it differs from the one served last; otherwise ValueError. |
| `Frontier.HowClose` | app/services/logic/schedule_builders/algorithm.py:293-298 | The distance is the wait until the item starts, or the far-away constant for an item already started. |
| `Frontier.RoomItems` | app/services/logic/schedule_builders/features/fixed_schedules.py:15-17 | The room's items are exactly its bookings and its empty slots. |
| `Frontier.NextSchedule` | app/services/logic/schedule_builders/features/fixed_schedules.py:14-25 | There is no next item exactly when every item of the room started before `t`. The next item is one of the room's bookings or slots, starts at or after `t`, and starts no later than any other such item. Among equally early items it is the first in table order, bookings before slots. |
| `Frontier.ClosestIsEarliest` | app/services/logic/schedule_builders/features/fixed_schedules.py:20-33 | The first item of least `how_close_schedule` distance among those starting from `t` is the earliest of them, and every item before it in table order starts later. |
| `Frontier.FirstFutureIsFirstAmongEqual` | app/services/logic/schedule_builders/features/fixed_schedules.py:20-22 | An item that starts strictly earlier than every item filtered before it also starts strictly earlier than every qualifying item before it in the unfiltered list. |
| `Common.WhereIndex` | app/services/logic/schedule_builders/features/fixed_schedules.py:20 | Each element a list comprehension's filter keeps comes from some position of its input, and what was kept before it is what the input's prefix up to that position keeps. |
| `Frontier.LastEnd` | app/services/logic/schedule_builders/algorithm.py:351-361 | A room with no booking and no empty slot raises; otherwise the result is the end of one of its bookings or slots, and no booking or slot of the room ends later. |
| `Frontier.LastEndBounds` | app/services/logic/schedule_builders/algorithm.py:361 | The maximum of the booking ends and slot ends bounds every one of them and is reached by one. |
| `Frontier.LatestStartIndex` | app/services/logic/schedule_builders/features/room_limiter.py:75-77 | The room's booking with the latest start is absent exactly when the room has no booking; otherwise it is the first booking with the latest start. |
| `Frontier.LatestStartEnd` | app/services/logic/schedule_builders/features/room_limiter.py:75-77 | The result is the end of the room's first booking with the latest start; a room with no booking raises. |
| `Builder.NextSurgery` | app/services/logic/schedule_builders/features/room_limiter.py:18-62 | The surgery a team gets is in the Surgery table, linked to the team, still remaining, and allowed in the current room when the room limiter is on. |
| `Builder.Register` | app/services/logic/schedule_builders/algorithm.py:335-338 | Registration in a run succeeds exactly when the store accepts it and the surgery is remaining; the booking is appended, the surgery leaves the remaining list, the step advances, and the run invariant holds. |
| `Builder.RegisterGrows` | app/services/logic/schedule_builders/algorithm.py:335-338 | Appending a well-made booking and removing its surgery from the remaining list is a step allowed by the run invariant. |
| `Builder.ProcessRoom` | app/services/logic/schedule_builders/algorithm.py:301-306 | Every room step, with or without the extensions, keeps the run invariant. |
| `Builder.BaseProcess` | app/services/logic/schedule_builders/algorithm.py:309-332 | A gene that picks no team fails the step; when the picked team has a surgery, exactly that booking at the vacancy is appended; the run invariant holds. |
| `Builder.TryOtherTeams` | app/services/logic/schedule_builders/algorithm.py:341-347 | The first free team from the given position that has a surgery books it at the vacancy; nothing is booked only when no such team has a surgery. |
| `Builder.TryGlobal` | app/services/logic/schedule_builders/algorithm.py:350-382 | The global fallback keeps the run invariant. |
| `Builder.IfNoTeams` | app/services/logic/schedule_builders/features/room_limiter.py:65-83 | Without the room limiter the run stops; with it, finishing the last unfinished room raises ValueError; any success keeps the run invariant. |
| `Builder.ProcessUnfinished` | app/services/logic/schedule_builders/features/room_limiter.py:71-78 | The pass over the unfinished rooms keeps the run invariant. |
| `Builder.FixedProcess` | app/services/logic/schedule_builders/features/fixed_schedules.py:36-99 | When a later booking waits in the room, the step either books exactly one surgery that fits before the next item, or books nothing and records the gap at the vacancy; the run invariant holds. |
| `Builder.TryOtherFixed` | app/services/logic/schedule_builders/features/fixed_schedules.py:160-173 | The first free team whose surgery fits before the next item books it; nothing is booked only when no remaining team's surgery fits. |
| `Builder.LeaveGap` | app/services/logic/schedule_builders/features/fixed_schedules.py:61-93 | Leaving a gap fails with AttributeError exactly when the next item is an empty slot; otherwise it records an empty slot of the gap's whole minutes at the vacancy, marks a fixed next booking as considered, and keeps the run invariant and the store. |
| `Builder.GrowsTrans` | app/services/logic/schedule_builders/algorithm.py:228-244 | Two steps allowed by the run invariant compose into one. |
| `Execution.DisplayRooms` | app/services/cache/core/cache_manager.py:85-90 | When every surgery and team is known, the probe passes exactly when no room holds two bookings at `t`. |
| `Execution.DisplayAt` | app/services/cache/core/cache_manager.py:157-169 | The probe fails its assertion with no booking; otherwise it passes exactly when no room is covered twice at `t`. |
| `Execution.DisplayTimes` | app/services/logic/schedule_builders/algorithm.py:247-257 | The probe at a list of times passes exactly when no room is covered twice at any of them. |
| `Execution.FinalDisplay` | app/services/logic/schedule_builders/algorithm.py:247-257 | The closing rendering passes exactly when no room is covered twice at any booking start or empty-slot start. |
| `Execution.CheckRemainingSurgeries` | app/services/logic/schedule_builders/algorithm.py:266-272 | The closing check passes exactly when every surgery of the table has a booking, and stops the run otherwise. |
| `Execution.New` | app/services/logic/schedule_builders/algorithm.py:20-35 | The constructor succeeds exactly when some room is free at zero time; the first vacancy is the first such room at zero time; nothing is booked, considered or finished; every fixed booking starts disregarded. |
| `Execution.Advance` | app/services/logic/schedule_builders/algorithm.py:184-200 | The current vacancy becomes the earliest one; the run raises when that vacancy equals the one served last. |
| `Execution.ProcessAndShow` | app/services/logic/schedule_builders/algorithm.py:232-237 | The display probe after a room step changes nothing when it passes. |
| `Execution.Step` | app/services/logic/schedule_builders/algorithm.py:228-244 | With no free team, the first pass raises AssertionError and later passes only move to the next vacancy; every pass keeps the run invariant. |
| `Execution.Simulate` | app/services/logic/schedule_builders/algorithm.py:228-245 | A finished loop has booked every remaining surgery, one step per booking, under the run invariant. |
| `Execution.Execute` | app/services/logic/schedule_builders/algorithm.py:219-264 | `execute` raises for no surgery, no team, no room, or a vector of the wrong length. A finished run has one booking per gene and every surgery of the table booked. Each surgery it was asked to schedule has exactly one booking. When every booking's surgery and team are known, no room of the Room table holds two bookings at once. The run invariant holds from the start. |
| `Execution.FinalNoOverlap` | app/services/logic/schedule_builders/algorithm.py:247-257 | If no room is covered twice at any booking's start, which is what the closing rendering needs in order to pass, then no two bookings in a room of the Room table overlap: two overlapping bookings both cover the room at the later of their starts. |
| `Cache.CoverCountTwo` | app/services/cache/core/cache_manager.py:100-117 | Two distinct bookings covering the room at `t` make the covering count at least two. |
| `Builder.GrowsBooksOnce` | app/services/cache/cache_in_dict.py:110-117 | A run that empties its remaining list has booked each of those surgeries exactly once: each booking took its surgery off the list, and registration refuses a surgery that already has a booking. |
| `Builder.RemovedIds` | app/services/logic/schedule_builders/algorithm.py:337 | Removing a surgery from the remaining list removes exactly one copy of its id from the list's ids. |
| `Search.FixedRows` | app/services/logic/schedule_optimizers/solver.py:32-33 | The rows of the fixed bookings' surgeries exist exactly when those surgeries are known, and are exactly those surgeries. |
| `Search.MobileSurgeries` | app/services/logic/schedule_optimizers/solver.py:31-40 | The mobile surgeries are exactly the table's surgeries whose row is not named by a fixed booking; there is at least one, or the run stops. |
| `Search.MobileMeansUnfixed` | app/services/logic/schedule_optimizers/solver.py:32-34 | With distinct surgery ids, a surgery is mobile exactly when no fixed booking names it. |
| `Search.SetSolution` | app/services/logic/schedule_optimizers/solver.py:42-45 | The check passes exactly when the vector has one gene per mobile surgery, and otherwise stops the run. It stores nothing; the model hands the vector back as given. |
| `Search.GeneSpace` | app/services/logic/schedule_optimizers/optimizer.py:25-34 | There are `n` genes, each from 0 to the last free-team index lowered once per earlier gene while a room is still free. |
| `Search.GeneHighShape` | app/services/logic/schedule_optimizers/optimizer.py:25-34 | The first bound is the last team index; the bounds never rise and fall by at most one per gene; they stop falling after `rooms - 1` genes and never go below `teams - rooms`. |
| `Search.GeneHighExamples` | app/services/logic/schedule_optimizers/optimizer.py:25-34 | The bounds for three small configurations, such as 3 teams and 2 rooms giving 2, 1, 1, 1. |
| `Search.OptimizerGeneSpace` | app/services/logic/schedule_optimizers/optimizer.py:25-34 | The optimizer has one gene per surgery of the table, bounded as above. |
| `Search.SolverGeneSpace` | app/services/logic/schedule_optimizers/solver.py:19-28 | The solver has one gene per mobile surgery, bounded as above. |
| `Search.Fitness` | app/services/logic/schedule_optimizers/optimizer.py:51-71 | A Python exception in the run scores minus infinity, and a stop passes through. A finished run scores minus its penalty, never positive, and its bookings extend the original ones under the run invariant. |
| `Algoritmo.OcupadaAppend` | algoritmo.py:47-51 | After one more allocation, a holder is busy at `t` exactly when it was busy before or the new surgery runs at `t`. |
| `Algoritmo.ProximaDesocupacao` | algoritmo.py:73-76 | An empty room has no next free time; otherwise it is the end of one of its surgeries and no earlier than any of them. |
| `Algoritmo.MelhorDesde` | algoritmo.py:99-103 | No surgery is found exactly when the team can perform none; the one found can be performed, has the least ratio among those, and is the first with it. |
| `Algoritmo.MelhorPasso` | algoritmo.py:99-103 | Looking at one more surgery keeps the first-least-ratio choice up to date. |
| `Algoritmo.ProximaCirurgia` | algoritmo.py:99-103 | ZeroDivisionError exactly when some pending surgery has penalty weight 0; otherwise the choice is the first surgery with the least ratio that the team can perform, or none when it can perform none. |
| `Algoritmo.RegistrarCirurgia` | algoritmo.py:112-118 | The allocation is appended to the mediator's list, to the team's list and to the room's list; nothing else changes. |
| `Algoritmo.CalcularPunicao` | algoritmo.py:126-143 | AssertionError exactly when there is no room, no registration or no team; otherwise the penalty is the rooms' sum of start times weighted by penalty. |
| `Algoritmo.PunicaoSalasUpdate` | algoritmo.py:132-141 | Replacing one room changes the total penalty by exactly that room's difference. |
| `Algoritmo.RegistrarAddsPunicao` | algoritmo.py:132-141 | A registration raises the penalty by exactly what the new allocation contributes. |
| `Algoritmo.PunicaoNonNegative` | algoritmo.py:132-141 | With non-negative weights, the total penalty is non-negative. |
| `Algoritmo.PunicaoSalaNonNegative` | algoritmo.py:132-141 | With non-negative weights, one room's penalty is non-negative. |
| `Algoritmo.EquipesLivres` | algoritmo.py:148-151 | AssertionError exactly when there is no team; otherwise the positions of exactly the teams free at `t`, increasing. |
| `Algoritmo.LivresDesde` | algoritmo.py:148-151 | From a given position on, the positions of exactly the free teams, increasing. |
| `Algoritmo.Limpar` | algoritmo.py:153-158 | Clearing drops every registration and every allocation and keeps the teams and rooms. |
| `Algoritmo.SortInts` | algoritmo.py:245-247 | Python's `sorted`: a sorted permutation of the input. |
| `Algoritmo.Desocupacoes` | algoritmo.py:245-248 | The end times are exactly the next free times of the rooms that hold a surgery; none exactly when every room is empty. |
| `Algoritmo.Bump` | algoritmo.py:251-262 | The tie adjustment keeps the length and the first time, and each later time either stays or becomes one past the time before it. |
| `Algoritmo.BumpDistinct` | algoritmo.py:251-262 | Distinct sorted times are left unchanged by the tie adjustment. |
| `Algoritmo.BumpKeepsThirdRepeat` | algoritmo.py:255-260 | Three rooms freeing at the same time: the third time is not moved, so the adjusted list still repeats a time. |
| `Algoritmo.ProximaVez` | algoritmo.py:243-273 | AssertionError exactly when every room is empty. Otherwise, when the current time is not an end time, the next time is the least end time. With distinct end times, it is the least end time above the current one, wrapping to the least. |
| `Algoritmo.ProximaVezEscolha` | algoritmo.py:264-273 | The choice among the sorted, adjusted end times, stated in terms of the end times themselves. |
| `Algoritmo.NextAfterDistinct` | algoritmo.py:264-273 | On distinct sorted times, the element after the current time is the least one above it, or the least one when none is above. |
| `Algoritmo.Registrar` | algoritmo.py:207-213 | A run registration succeeds exactly when the surgery is pending; it keeps the run invariant (registered plus pending is the initial multiset, every allocation capable) and the clock. |
| `Algoritmo.RegistrarMantem` | algoritmo.py:207-213 | Registering a pending surgery with a capable team keeps the run invariant. |
| `Algoritmo.RegistrarCapaz` | algoritmo.py:112-118 | A registration by a capable team keeps every allocation in a real room, by a real team able to perform it. |
| `Algoritmo.Substituta` | algoritmo.py:229-233 | The replacement surgery is pending and can be performed by a free team that is returned with it. |
| `Algoritmo.ProcessarSalas` | algoritmo.py:215-238 | A pass over the rooms keeps the run invariant and the clock. |
| `Algoritmo.Executar` | algoritmo.py:278-298 | AssertionError when the vector's length differs from the surgery count. A finished run registers every surgery exactly once, as a multiset, with capable teams, within the clock limit, keeping the teams and rooms. |
| `Algoritmo.GeneSpace` | algoritmo.py:354-365 | `Otimizador.gene_space` has one gene per surgery with the same decreasing bounds as the service optimizer. |
| `Algoritmo.Aptidao` | algoritmo.py:367-389 | A Python exception scores minus infinity and leaves the history alone; a finished run registers every surgery and is scored by minus its penalty, which the history records when it is a new best. |
| `Algoritmo.MinPunicao` | algoritmo.py:332 | The least recorded penalty is one of the records and bounds all of them. |
| `Algoritmo.Analise` | algoritmo.py:331-333 | A penalty is recorded exactly when the history is empty or the penalty is below every record; otherwise the history is unchanged. |
| `Algoritmo.AnaliseKeepsDecrescente` | algoritmo.py:331-333 | The recorded penalties keep strictly decreasing, whatever is analysed. |
| `Weighted.GetPunishment` | main.py:47-48 | No waiting costs nothing, and a non-negative weight over non-negative time is non-negative. |
| `Weighted.PunishmentAdditive` | main.py:47-48 | The waiting punishment is additive in the waiting time. |
| `Weighted.CalculateTotalPunishment` | main.py:159-166 | The loop computes the weighted completion penalty of the order (each surgery's weight times the durations before it); it is zero for at most one surgery. |
| `Weighted.TotalShift` | main.py:159-166 | Appending the same surgeries to two orders of equal total duration keeps the difference of their penalties. |
| `Weighted.Exchange` | main.py:159-166 | Swapping two adjacent surgeries changes the penalty by the cross product of weights and durations; the earlier one should go first exactly when its duration-to-weight ratio is not larger. |
| `Weighted.TotalNonNegative` | main.py:159-166 | Non-negative durations and weights give a non-negative penalty. |
| `Weighted.IntValue` | main.py:54-68 | A setter accepts exactly integers and booleans (as 0 and 1), and otherwise raises TypeError with its message. |
| `Weighted.Create` | main.py:27-31 | Creation succeeds exactly when both values are integers; the new surgery takes the counter as its id and joins the class list, and the counter advances; punishment is checked first. |
| `Weighted.CreateKeepsNumbered` | main.py:38-42 | Since the last reset, the k-th surgery created has id k. |
| `Weighted.CirurgyById` | main.py:74-76 | The lookup finds nothing exactly when no surgery has the id, and otherwise the first one that does. |
| `Weighted.NumberedLookup` | main.py:74-76 | In a numbered class list, id `i` finds the i-th surgery created, and any other id finds nothing. |
| `Weighted.NumberRooms` | main.py:83-86 | The room list renumbers each room by its position. |
| `Weighted.RoomById` | main.py:88-92 | ValueError exactly when no room has the id; otherwise the first room with it. |
| `Weighted.NumberedRoomLookup` | main.py:83-92 | After numbering, exactly the ids 0 to n-1 are found, each at its own position. |
| `Weighted.FirstMinFrom` | main.py:169-180 | The scan returns the first order with the least penalty. |
| `Weighted.GetOrderByPermutation` | main.py:169-180 | AssertionError exactly when there is no order; otherwise the first order with the least penalty, together with that penalty. |
| `Weighted.PermutationSearchIsOptimal` | main.py:169-180 | When every reordering is offered, the chosen penalty is at most that of any reordering. |
| `Weighted.GetBestOrder` | main.py:183-185 | Exhaustive search is used exactly for at most five surgeries. |
| `Weighted.RoomFitness` | main.py:223-225 | The fitness is defined exactly when every gene is a valid pop index; it is then minus the penalty of the order the genes decode to, a reordering of the room's surgeries. |
| `Weighted.ZeroGenesScoreListed` | main.py:223-232 | All-zero genes score the surgeries in their listed order. |
| `Weighted.FitnessBoundedByOptimum` | main.py:223-225 | No genes score better than minus the penalty the exhaustive search finds. |
| `Lehmer.Pop` | main.py:231 | `list.pop(i)` succeeds exactly for an index in range, counting negative ones from the end; it returns the element and the rest, a permutation of the list. |
| `Lehmer.OrderByIndexes` | main.py:228-232 | Decoding succeeds exactly when each index fits the list as it is when used; the result is a permutation of the list. |
| `Lehmer.LimitsDecode` | main.py:189 | Genes within the genetic search's limits always decode to a full-length order. |
| `Lehmer.ZerosDecodeToIdentity` | main.py:228-232 | All-zero genes decode to the list unchanged. |
| `Lehmer.Encode` | MyAlgorithm.py:258-265 | The encoding has one index per wanted element, each within the choices still left; a missing element raises ValueError. |
| `Lehmer.EncodeDefined` | MyAlgorithm.py:258-265 | Distinct wanted elements that are all among the choices always encode. |
| `Lehmer.DecodeEncode` | MyAlgorithm.py:258-265 | Decoding an encoding yields the wanted elements first, then the leftovers. |
| `Lehmer.PermutationRoundTrip` | MyAlgorithm.py:258-265 | When every choice is wanted, decoding the encoding gives back exactly the wanted order. |
| `Ranking.RankFacts` | MyAlgorithm.py:90 | Ratio ranks are positions of a permutation: below the length, distinct, and ordered as the ratios are, with ties in position order. |
| `Ranking.GetGuess` | MyAlgorithm.py:89-98 | The guess exists exactly when no weight is zero and, for a non-empty list, there is a room; it sends each surgery to its ratio rank modulo the room count; otherwise ZeroDivisionError. |
| `Ranking.GuessRoundRobin` | MyAlgorithm.py:92-96 | The surgeries ranked below the room count go one to a room, each to the room of its rank. |
| `Ranking.DistributingGenes` | MyAlgorithm.py:64-66 | One gene per surgery, from 0 to the room count. |
| `Ranking.GuessWithinGenes` | MyAlgorithm.py:64-66 | Every seed lies within the distribution genes. |
| `Ranking.OrderingGenes` | MyAlgorithm.py:211-222 | The order gene of each position ranges from 0 to the number of later positions sent to the same room. |
| `Ranking.RoomRanks` | MyAlgorithm.py:253-256 | A room's ranks, in position order, are distinct and form a permutation of 0 to m-1. |
| `Ranking.RoomCodes` | MyAlgorithm.py:258-265 | A room's seed genes are valid pop indexes for a list shrinking from m. |
| `Ranking.RoomCodesDecode` | MyAlgorithm.py:258-265 | The seed genes are pop indexes: decoding them the way main.py:228-232 does gives back the room's ranks. |
| `Ranking.OrderingGuess` | MyAlgorithm.py:245-267 | The ordering seed exists exactly when the distribution fits the surgeries and no weight is zero; each gene is within its order gene's range. |
| `Ranking.GuessAt` | MyAlgorithm.py:245-267 | Each seed gene lies within its order gene's range. |
| `Ranking.SortByKey` | MyAlgorithm.py:285 | The sort by order gene is sorted and a permutation of its input. |
| `Ranking.SortByKeyStable` | MyAlgorithm.py:285 | The sort is stable: for every key, the entries with that key keep their relative order. |
| `Ranking.KeyRunsDetermine` | MyAlgorithm.py:285 | Two key-sorted lists with the same entries per key, in the same relative order, are equal. |
| `Ranking.StableSortUnique` | MyAlgorithm.py:285 | Any key-sorted list that keeps each key's entries in input order is the sort's result, so the sort is exactly Python's stable sort. |
| `Ranking.InsertKeyRun` | MyAlgorithm.py:285 | Inserting one entry keeps every key's entries in arrival order, the new one last among its equals. |
| `Ranking.SortSortedIsIdentity` | MyAlgorithm.py:285 | Entries already in key order are left as they are. |
| `Ranking.RoomEntries` | MyAlgorithm.py:272-277 | A room gets one entry per surgery sent to it. |
| `Ranking.RoomsOf` | MyAlgorithm.py:284 | The rooms of a distribution, each exactly once. |
| `Ranking.RoomFitness` | MyAlgorithm.py:269-298 | With the team assignment taken as succeeding (see "## Left out"), the fitness raises IndexError exactly when the distribution is longer than the surgery list or than the order vector. Otherwise the score is minus the sum of the penalties of the distribution's rooms, each room counted once. The best so far is replaced only on a strict improvement and never rises. |
| `Ranking.RoomPenalty` | MyAlgorithm.py:280-292 | A room's penalty is the weighted total of its surgeries run in an order that is sorted by order gene, is a reordering of the room's surgeries, and keeps surgeries of equal gene in position order. |
| `Ranking.RoomPenaltyOfStableOrder` | MyAlgorithm.py:280-292 | Any order that is sorted by gene and keeps equal genes in position order gives the room's penalty, so ties are settled as the stable sort settles them. |
| `Ranking.PenaltySumInPositionOrder` | MyAlgorithm.py:280-292 | With order genes that never decrease, the summed penalty equals the sum of each room's weighted total with its surgeries in position order. |
| `Ranking.RoomFitnessInPositionOrder` | MyAlgorithm.py:269-298 | With order genes that never decrease, the fitness is defined and is minus the sum of the rooms' weighted totals in position order, whatever the gene values. |
| `Ranking.NondecreasingOrderKeepsPositions` | MyAlgorithm.py:284-288 | Order genes that never decrease run every room in position order, so its penalty is that of its surgeries as listed. |
| `Ranking.SeedCodesExample` | MyAlgorithm.py:245-267 | For one room with surgeries of durations 2, 1 and 3 and punishment 1, the ordering seed is [1, 0, 0]. |
| `Ranking.SeedMisorders` | MyAlgorithm.py:269-292 | The room fitness, sorting that room by the seed [1, 0, 0], does not run it in ascending ratio. |
| `Ranking.SeedPenalty` | MyAlgorithm.py:280-292 | Under that seed the room's penalty is 5. |
| `Ranking.RoomGenes` | MyAlgorithm.py:276-277 | A room's order genes, one per member, in position order. |
| `Ranking.DecodedRoomOrder` | MyAlgorithm.py:258-265 | Corrected room order: defined exactly when the room's genes are valid pop indexes for a list shrinking from the room's size, IndexError otherwise; the result is a reordering of the room's surgeries. |
| `Ranking.DecodedPenaltySum` | MyAlgorithm.py:284-288 | The decoded penalties of several rooms are defined exactly when every one of those rooms decodes; otherwise IndexError. |
| `Ranking.DecodedRoomFitness` | MyAlgorithm.py:269-298 | Corrected fitness: defined exactly when the distribution fits the surgeries and the order vector and every room decodes; otherwise IndexError. |
| `Ranking.LaterOfMember` | MyAlgorithm.py:211-222 | The i-th member of a room of m has m-1-i later members, the bound of its order gene. |
| `Ranking.GenesDecode` | MyAlgorithm.py:211-222 | Every individual of the ordering gene space has a defined decoded fitness. |
| `Ranking.DecodedGuessRunsByRatio` | MyAlgorithm.py:245-267 | Decoded, the seed of `get_guess` runs every room in ascending duration-to-punishment ratio. |
| `Ranking.JobsOfPermutation` | MyAlgorithm.py:285-286 | Reordering the keyed entries reorders their surgeries alike. |
| `Ranking.DecodedSeedOrder` | MyAlgorithm.py:245-267 | Decoded, the seed [1, 0, 0] runs the first example room as durations 1, 2, 3. |
| `Ranking.DecodedSeedPenalty` | MyAlgorithm.py:280-292 | Decoded, that seed gives the room the penalty 4, against 5 as written. |
| `Ranking.RotatedSeed` | MyAlgorithm.py:245-267 | For a room with durations 3, 1, 2 and punishment 1, the seed is [2, 0, 0]. |
| `Ranking.DecodeRelabel` | main.py:228-232 | Decoding a list of surgeries is decoding their positions and reading the surgeries there. |
| `Ranking.ListDecodeReadsRanks` | main.py:228-232 | Decoding a room's seed straight onto its surgeries puts at slot t the surgery whose position is member t's rank, the inverse of ratio order. |
| `Ranking.ListDecodeRotates` | main.py:228-232 | A room of three with ranks 2, 0, 1 is decoded onto its surgeries as the third, first, second. |
| `Ranking.ListDecodeMisorders` | main.py:228-232 | For the room with durations 3, 1, 2, that decoding of the seed does not run the room in ratio order. |
| `Repositories.Add` | src/backend/repositories/generic_repository.py:16-19 | `add` gives the entity the counter as its id, appends it, and advances the counter. |
| `Repositories.AddAll` | src/backend/repositories/generic_repository.py:21-23 | `add_all` keeps the existing entities and appends the new ones with consecutive ids from the counter. |
| `Repositories.NewRepo` | src/backend/repositories/generic_repository.py:10-14 | A new repository holds one entity per input and its counter equals their number. |
| `Repositories.FreshIds` | src/backend/repositories/generic_repository.py:10-19 | A fresh repository numbers its entities 0, 1, 2 and so on, in order. |
| `Repositories.NewRepoIds` | src/backend/repositories/generic_repository.py:10-19 | A fresh repository finds each entity by its position as id, and nothing for any other id. |
| `Repositories.Names` | src/backend/repositories/generic_repository.py:28-29 | The names of the entities, in order. |
| `Repositories.ById` | src/backend/repositories/generic_repository.py:31-32 | Nothing is found exactly when no entity has the id; otherwise the first entity with it. |
| `Repositories.ByName` | src/backend/repositories/generic_repository.py:34-35 | Nothing is found exactly when no entity has the name; otherwise the first entity with it. |
| `Repositories.LabelsOf` | src/backend/repositories/generic_repository.py:37-38 | One label per entity, in order, each splitting back into that entity's name and id. |
| `Repositories.LabelsForIds` | src/backend/repositories/generic_repository.py:40-41 | Labels for ids exist exactly when every id is found, one per id in order; otherwise AttributeError. |
| `Repositories.FreshLabelsAgree` | src/backend/repositories/generic_repository.py:37-41 | Asking a fresh repository for the labels of ids 0, 1, ... gives its own label list. |
| `Repositories.FreshPairLabels` | tests/test_repositories.py:79-93 | A fresh two-entity repository labels them with ids 0 and 1, whatever ids they came with. |
| `Repositories.AddAllExample` | tests/test_repositories.py:49-59 | Adding two entities to a two-entity repository leaves four, with the last one added at the end. |
| `Repositories.UnlabelLabel` | src/backend/repositories/generic_repository.py:38 | Every label splits back into its name and id, whatever the name holds. |
| `Repositories.IntStringRoundTrip` | src/backend/repositories/generic_repository.py:38 | Reading back the decimal text of an integer gives the integer. |

## Left out

- User interfaces, pages, controllers and views, session state, logging and the log viewers: presentation only.
- Loading the tables from the database, persistence and the entity and model layer: the store is given as a value.
- The genetic loops (`pygad` runs, mutation, crossover): outside code. Only the gene spaces, seeds and fitness functions they call are modelled.
- Floating point: ratios and penalties are exact rationals and integers, so float rounding and `math.inf` beyond a marker are not modelled.
- Datetimes: they are integer seconds, and `datetime.now()` defaults become an explicit zero-time parameter.
- The store's index cache and its sharing between copies: lookups are filters over the tables, and a copy is a value, so the isolation promised by `__copy__` holds by construction.
- The `get_table` ValueError for a table that was never loaded, the integer `isinstance` assertion of `get_by_id`, and the attribute assertion of `get_by_attribute`: every table exists and ids are integers by typing.
- The `check_non_creation_sch` and `check_non_use_of_time` guards only log. Their own lookups could raise for a booking whose surgery is missing from the Surgery table; that error path is not modelled.
- The `check_agreement` guard (room_limiter.py:87-92) calls `quit()`, but it cannot fire: it tests an integer room id for membership in a list of SurgeryPossibleRooms rows, which never holds.
- `apply_features` and the mixin machinery: the two extensions are the flags of `Builder.Features`.
- The shared mutable default remembering the last vacancy across runs: it is the explicit `lastVacancy` field, passed in by the caller.
- The base `get_next_vacancies` extending the live Schedule table in place: the model reads the tables without changing them.
- Termination of the simulators: the loops and the room limiter's recursion are bounded by a `fuel` parameter, and running out yields `OutOfFuel`. A run that needs more steps than the fuel is not modelled.
- The Equipe class of `algoritmo.py` has no `id` field; the model gives each team one for the `int(equipe.id)` comparison the selection makes.
- The pre-sort of the surgeries in `Otimizador` (algoritmo.py:351): the surgery list is taken as given.
- The team assignment at MyAlgorithm.py:278. Every `Cirurgy` gets `possible_teams = None` from its base class (MyAlgorithm.py:27, through `super().__init__()` at MyAlgorithm.py:37), and nothing in `MyAlgorithm.py` sets it. So `min(None, ...)` raises TypeError at the first surgery of any non-empty distribution, before any scoring. With a list of teams, the assignment only writes a field nothing reads, and an empty list would raise ValueError.
- Repositories.Add: it treats the entity as a value. The source writes the id into the shared entity object (generic_repository.py:17), so an object added twice carries its last id in both places; the model assumes each added entity is a distinct object.
- Repositories.AddAll: it assumes distinct entity objects, as for `Repositories.Add`; `add_all([e, e])` gives both entries the last id, so id 0 finds nothing and the labels repeat.
- Weighted.NumberRooms: it assumes distinct room objects. `room.id = i` (main.py:86) mutates shared rooms, so a room listed twice keeps its last index and `get_by_id(0)` raises ValueError.
- Ranking.RoomFitness: it scores the ordering as if the team assignment at MyAlgorithm.py:278 had succeeded. It does not return the TypeError that the default `possible_teams = None` gives for a non-empty distribution.
- The genetic branch of `get_best_order` for more than five surgeries: `Weighted.GetBestOrder` returns None there.
- `itertools.permutations`: the enumeration is the `perms` parameter, and `Weighted.PermutationSearchIsOptimal` assumes it offers every reordering.
- The lazy `Room.total_punishment` cache, `RoomList.best_rooms_organization`, `Logic.best_distribution` and `roomlist_fitness_func`: they drive the genetic search.
- The repositories read `entity.model.name.value` and `entity.model.id.value`. The shipped entity classes store their model only as `_model` (src/backend/entities/generic_entity.py:9-10), so with them `add` (generic_repository.py:17) raises AttributeError. The model assumes entities that expose `model`, as the repository code expects, and does not model that AttributeError.
- String ids and other non-integer ids in the repositories: ids are integers, and booleans count as 0 and 1 where the source accepts them.
- Builder.BaseProcess: when the picked team has no surgery, the contract states only the run invariant for the other-teams and global fallbacks. Those fallbacks have their own contracts.
- Builder.TryGlobal: it states only the run invariant; the start time it uses is the subject of `Frontier.LastEnd`.
- Builder.ProcessUnfinished: it states only the run invariant, not which room restarts.
- Builder.ProcessRoom: it states only the run invariant; the per-extension steps carry the detail.
- Execution.Simulate: it says nothing when the fuel runs out before every surgery is booked.
- Algoritmo.ProcessarSalas: it states the run invariant and the clock, not which team each room takes.
- Cache.ScanCover: it assumes the `additional_test` guards are on; with them off, a second covering booking would not stop the run.

## Findings

| source | as written | input that shows it | evidently intended | confidence | as-written member | corrected member |
|---|---|---|---|---|---|---|
| MyAlgorithm.py:258-265, read at MyAlgorithm.py:285 | `get_guess` writes each surgery's pop index into a shrinking list of ranks, but the room fitness sorts each room by the raw gene value and never decodes it | one room holding surgeries (duration 2, punishment 1), (1, 1), (3, 1): the seed is [1, 0, 0], the fitness runs durations 1, 3, 2, and the penalty is 5 | the fitness decodes each room's genes as pop indexes into the slots 0 to m-1 and runs the room in slot order, so the seed runs each room in ascending duration-to-punishment ratio (the ratio sort at MyAlgorithm.py:253), here durations 1, 2, 3 with penalty 4 | medium, not executed | `Ranking.SeedMisorders` (with `Ranking.SeedCodesExample`, `Ranking.SeedPenalty`) | `Ranking.DecodedRoomFitness` with `Ranking.DecodedGuessRunsByRatio` (and `Ranking.DecodedSeedPenalty`) |

=== FILE: algoritmo.dfy ===
/*
 * The first, integer-time simulator: teams and rooms hold the surgeries
 * allocated to them, every free room takes a surgery of a free team at the
 * current time, and the clock moves to the next time a room empties.
 * Times and durations are plain integers (minutes from the start).
 */
module Algoritmo {
  import opened Common
  import Search

  /** A surgery; `possiveis` are the ids of the teams able to perform it. */
  datatype Cirurgia = Cirurgia(nome: string, duracao: int, punicao: int, possiveis: seq<int>)

  /** A surgery allocated at `inicio` to a team and a room (positions in the mediator's lists). */
  datatype Alocada = Alocada(cirurgia: Cirurgia, inicio: int, equipe: nat, sala: nat)

  datatype Equipe = Equipe(nome: string, id: int, cirurgias: seq<Alocada>)

  datatype Sala = Sala(nome: string, cirurgias: seq<Alocada>)

  /** The mediator: every registration, and the teams and rooms with their own allocations. */
  datatype Mediador = Mediador(registradas: seq<Alocada>, equipes: seq<Equipe>, salas: seq<Sala>)

  /** `esta_ocupada` of a team or a room: some allocation covers `t`, start included and end excluded. */
  predicate EstaOcupada(cs: seq<Alocada>, t: int) {
    exists i | 0 <= i < |cs| :: cs[i].inicio <= t < cs[i].inicio + cs[i].cirurgia.duracao
  }

  /** Allocating one more surgery makes the holder busy exactly where it was busy or the new surgery runs. */
  lemma OcupadaAppend(cs: seq<Alocada>, a: Alocada, t: int)
    ensures EstaOcupada(cs + [a], t) <==> EstaOcupada(cs, t) || a.inicio <= t < a.inicio + a.cirurgia.duracao
  {
    if EstaOcupada(cs, t) {
      var i :| 0 <= i < |cs| && cs[i].inicio <= t < cs[i].inicio + cs[i].cirurgia.duracao;
      assert (cs + [a])[i] == cs[i];
    }
    assert (cs + [a])[|cs|] == a;
  }

  function Fim(a: Alocada): int {
    a.inicio + a.cirurgia.duracao
  }

  /** `proxima_desocupacao`: None for an empty room, else the latest end of its surgeries. */
  function ProximaDesocupacao(s: Sala): (r: Option<int>)
    ensures r.None? <==> s.cirurgias == []
    ensures r.Some? ==> (exists i :: 0 <= i < |s.cirurgias| && Fim(s.cirurgias[i]) == r.value) &&
                        forall i :: 0 <= i < |s.cirurgias| ==> Fim(s.cirurgias[i]) <= r.value
  {
    if s.cirurgias == [] then None
    else Some(MaxOf(Fins(s.cirurgias)))
  }

  function Fins(cs: seq<Alocada>): (r: seq<int>)
    ensures |r| == |cs| && forall i :: 0 <= i < |cs| ==> r[i] == Fim(cs[i])
  {
    if cs == [] then [] else [Fim(cs[0])] + Fins(cs[1..])
  }

  /*
   * Choosing a surgery for a team.
   */

  function Razao(c: Cirurgia): real
    requires c.punicao != 0
  {
    c.duracao as real / c.punicao as real
  }

  predicate Apta(c: Cirurgia, teamId: int) {
    teamId in c.possiveis
  }

  /** `best` is the first position before `k` with the least ratio among the surgeries the team can do, if any. */
  predicate MelhorAte(cs: seq<Cirurgia>, teamId: int, k: nat, best: Option<nat>)
    requires k <= |cs|
    requires forall i :: 0 <= i < |cs| ==> cs[i].punicao != 0
  {
    (best.Some? ==> best.value < k && Apta(cs[best.value], teamId) &&
                    (forall j :: 0 <= j < k && Apta(cs[j], teamId) ==> Razao(cs[best.value]) <= Razao(cs[j])) &&
                    (forall j :: 0 <= j < best.value && Apta(cs[j], teamId) ==> Razao(cs[j]) > Razao(cs[best.value]))) &&
    (best.None? ==> forall j :: 0 <= j < k ==> !Apta(cs[j], teamId))
  }

  /** The position of the first surgery with the least ratio among those the team can do, from position `k` on. */
  function MelhorDesde(cs: seq<Cirurgia>, teamId: int, k: nat, best: Option<nat>): (r: Option<nat>)
    requires k <= |cs|
    requires forall i :: 0 <= i < |cs| ==> cs[i].punicao != 0
    requires MelhorAte(cs, teamId, k, best)
    ensures r.None? <==> forall j :: 0 <= j < |cs| ==> !Apta(cs[j], teamId)
    ensures r.Some? ==> r.value < |cs| && Apta(cs[r.value], teamId) &&
                        (forall j :: 0 <= j < |cs| && Apta(cs[j], teamId) ==> Razao(cs[r.value]) <= Razao(cs[j])) &&
                        (forall j :: 0 <= j < r.value && Apta(cs[j], teamId) ==> Razao(cs[j]) > Razao(cs[r.value]))
    decreases |cs| - k
  {
    if k == |cs| then best
    else
      var next := if Apta(cs[k], teamId) && (best.None? || Razao(cs[k]) < Razao(cs[best.value])) then Some(k) else best;
      MelhorPasso(cs, teamId, k, best, next);
      MelhorDesde(cs, teamId, k + 1, next)
  }

  /** Looking at position `k` keeps the first least ratio up to date. */
  lemma MelhorPasso(cs: seq<Cirurgia>, teamId: int, k: nat, best: Option<nat>, next: Option<nat>)
    requires k < |cs|
    requires forall i :: 0 <= i < |cs| ==> cs[i].punicao != 0
    requires MelhorAte(cs, teamId, k, best)
    requires next == if Apta(cs[k], teamId) && (best.None? || Razao(cs[k]) < Razao(cs[best.value])) then Some(k) else best
    ensures MelhorAte(cs, teamId, k + 1, next)
  {
    if next.Some? && next.value == k && best.Some? {
      var rk := Razao(cs[k]);
      var rb := Razao(cs[best.value]);
      assert forall j :: 0 <= j < k && Apta(cs[j], teamId) ==> rb <= Razao(cs[j]);
      assert rk < rb;
    }
  }

  /**
   * `proxima_cirurgia`: going through the surgeries in ascending
   * duration/weight (a stable sort), the first the team can do. Sorting
   * computes every ratio first, so a zero weight anywhere raises.
   */
  function ProximaCirurgia(cs: seq<Cirurgia>, teamId: int): (r: Result<Option<Cirurgia>>)
    ensures r.Err? <==> exists i :: 0 <= i < |cs| && cs[i].punicao == 0
    ensures r.Err? ==> r.failure.Raised? && r.failure.exc == ZeroDivisionError
    ensures r.Ok? && r.value.None? ==> forall j :: 0 <= j < |cs| ==> !Apta(cs[j], teamId)
    ensures r.Ok? && r.value.Some? ==>
              exists i :: 0 <= i < |cs| && cs[i] == r.value.value && Apta(cs[i], teamId) &&
                (forall j :: 0 <= j < |cs| && Apta(cs[j], teamId) ==> Razao(cs[i]) <= Razao(cs[j])) &&
                (forall j :: 0 <= j < i && Apta(cs[j], teamId) ==> Razao(cs[j]) > Razao(cs[i]))
  {
    if exists i | 0 <= i < |cs| :: cs[i].punicao == 0 then Err(Raised(ZeroDivisionError, "division by zero"))
    else
      match MelhorDesde(cs, teamId, 0, None)
      case None => Ok(None)
      case Some(i) => Ok(Some(cs[i]))
  }

  /*
   * The mediator.
   */

  /** `registrar_cirurgia`: the allocation is recorded by the mediator, the team and the room. */
  function RegistrarCirurgia(m: Mediador, c: Cirurgia, equipe: nat, sala: nat, t: int): (r: Mediador)
    requires equipe < |m.equipes| && sala < |m.salas|
    ensures var a := Alocada(c, t, equipe, sala);
            r.registradas == m.registradas + [a] &&
            |r.equipes| == |m.equipes| && |r.salas| == |m.salas| &&
            (forall i :: 0 <= i < |m.equipes| ==>
               r.equipes[i].nome == m.equipes[i].nome && r.equipes[i].id == m.equipes[i].id &&
               r.equipes[i].cirurgias == m.equipes[i].cirurgias + (if i == equipe then [a] else [])) &&
            (forall i :: 0 <= i < |m.salas| ==>
               r.salas[i].nome == m.salas[i].nome &&
               r.salas[i].cirurgias == m.salas[i].cirurgias + (if i == sala then [a] else []))
  {
    var a := Alocada(c, t, equipe, sala);
    var e := m.equipes[equipe];
    var s := m.salas[sala];
    Mediador(m.registradas + [a], m.equipes[equipe := e.(cirurgias := e.cirurgias + [a])],
             m.salas[sala := s.(cirurgias := s.cirurgias + [a])])
  }

  /** What an allocation adds to the penalty: its start times its weight, when it starts after time 0. */
  function Contribuicao(a: Alocada): int {
    if a.inicio > 0 then a.inicio * a.cirurgia.punicao else 0
  }

  function PunicaoSala(cs: seq<Alocada>): int {
    if cs == [] then 0 else PunicaoSala(cs[..|cs| - 1]) + Contribuicao(cs[|cs| - 1])
  }

  function PunicaoSalas(salas: seq<Sala>): int {
    if salas == [] then 0 else PunicaoSalas(salas[..|salas| - 1]) + PunicaoSala(salas[|salas| - 1].cirurgias)
  }

  /**
   * `calcular_punicao`: the sum over rooms of each room's start-times-weight
   * total; it asserts rooms, registrations and teams exist.
   */
  function CalcularPunicao(m: Mediador): (r: Result<int>)
    ensures r.Err? <==> m.salas == [] || m.registradas == [] || m.equipes == []
    ensures r.Err? ==> r.failure.Raised? && r.failure.exc == AssertionError
    ensures r.Ok? ==> r.value == PunicaoSalas(m.salas)
  {
    if m.salas == [] || m.registradas == [] || m.equipes == [] then
      Err(Raised(AssertionError, "Não há salas, cirurgias ou equipes"))
    else Ok(PunicaoSalas(m.salas))
  }

  lemma {:induction false} PunicaoSalasUpdate(salas: seq<Sala>, k: nat, s: Sala)
    requires k < |salas|
    ensures PunicaoSalas(salas[k := s]) == PunicaoSalas(salas) - PunicaoSala(salas[k].cirurgias) + PunicaoSala(s.cirurgias)
    decreases |salas|
  {
    var n := |salas| - 1;
    assert salas[k := s][..n] == (if k == n then salas[..n] else salas[..n][k := s]);
    if k < n {
      PunicaoSalasUpdate(salas[..n], k, s);
    }
  }

  /** A registration raises the penalty by exactly what the new allocation contributes. */
  lemma RegistrarAddsPunicao(m: Mediador, c: Cirurgia, equipe: nat, sala: nat, t: int)
    requires equipe < |m.equipes| && sala < |m.salas|
    ensures PunicaoSalas(RegistrarCirurgia(m, c, equipe, sala, t).salas) ==
            PunicaoSalas(m.salas) + Contribuicao(Alocada(c, t, equipe, sala))
  {
    var a := Alocada(c, t, equipe, sala);
    var s := m.salas[sala];
    var s' := s.(cirurgias := s.cirurgias + [a]);
    PunicaoSalasUpdate(m.salas, sala, s');
    assert (s.cirurgias + [a])[..|s.cirurgias|] == s.cirurgias;
  }

  /** With non-negative weights in every room, the penalty is non-negative. */
  lemma {:induction false} PunicaoNonNegative(salas: seq<Sala>)
    requires forall i, j :: 0 <= i < |salas| && 0 <= j < |salas[i].cirurgias| ==> salas[i].cirurgias[j].cirurgia.punicao >= 0
    ensures PunicaoSalas(salas) >= 0
  {
    if salas != [] {
      PunicaoNonNegative(salas[..|salas| - 1]);
      PunicaoSalaNonNegative(salas[|salas| - 1].cirurgias);
    }
  }

  lemma {:induction false} PunicaoSalaNonNegative(cs: seq<Alocada>)
    requires forall j :: 0 <= j < |cs| ==> cs[j].cirurgia.punicao >= 0
    ensures PunicaoSala(cs) >= 0
  {
    if cs != [] {
      PunicaoSalaNonNegative(cs[..|cs| - 1]);
    }
  }

  /** `pegar_equipes_livres`: the positions of the teams free at `t`, in order; it asserts a team exists. */
  function EquipesLivres(m: Mediador, t: int): (r: Result<seq<nat>>)
    ensures r.Err? <==> m.equipes == []
    ensures r.Err? ==> r.failure.Raised? && r.failure.exc == AssertionError
    ensures r.Ok? ==> forall x: nat :: x in r.value <==> x < |m.equipes| && !EstaOcupada(m.equipes[x].cirurgias, t)
    ensures r.Ok? ==> forall i, j :: 0 <= i < j < |r.value| ==> r.value[i] < r.value[j]
  {
    if m.equipes == [] then Err(Raised(AssertionError, "Não há equipes")) else Ok(LivresDesde(m, t, 0))
  }

  function LivresDesde(m: Mediador, t: int, k: nat): (r: seq<nat>)
    requires k <= |m.equipes|
    ensures forall x: nat :: x in r <==> k <= x < |m.equipes| && !EstaOcupada(m.equipes[x].cirurgias, t)
    ensures forall i, j :: 0 <= i < j < |r| ==> r[i] < r[j]
    decreases |m.equipes| - k
  {
    if k == |m.equipes| then []
    else
      var rest := LivresDesde(m, t, k + 1);
      assert forall j :: 0 <= j < |rest| ==> rest[j] in rest;
      if !EstaOcupada(m.equipes[k].cirurgias, t) then [k] + rest else rest
  }

  /** `limpar_registros`: no registration and no allocation anywhere. */
  function Limpar(m: Mediador): (r: Mediador)
    ensures r.registradas == [] && |r.equipes| == |m.equipes| && |r.salas| == |m.salas|
    ensures forall i :: 0 <= i < |r.equipes| ==> r.equipes[i] == m.equipes[i].(cirurgias := [])
    ensures forall i :: 0 <= i < |r.salas| ==> r.salas[i] == m.salas[i].(cirurgias := [])
  {
    Mediador([], seq(|m.equipes|, i requires 0 <= i < |m.equipes| => m.equipes[i].(cirurgias := [])),
                 seq(|m.salas|, i requires 0 <= i < |m.salas| => m.salas[i].(cirurgias := [])))
  }

  /*
   * The next time.
   */

  predicate Sorted(s: seq<int>) {
    forall i, j :: 0 <= i < j < |s| ==> s[i] <= s[j]
  }

  function Insert(x: int, s: seq<int>): (r: seq<int>)
    requires Sorted(s)
    ensures Sorted(r) && multiset(r) == multiset(s) + multiset{x}
  {
    if s == [] then [x]
    else if x <= s[0] then [x] + s
    else
      var rest := Insert(x, s[1..]);
      InsertStep(x, s, rest);
      [s[0]] + rest
  }

  /** Putting the head back in front of the insertion into the tail keeps the list sorted and complete. */
  lemma InsertStep(x: int, s: seq<int>, rest: seq<int>)
    requires Sorted(s) && s != [] && s[0] < x
    requires Sorted(rest) && multiset(rest) == multiset(s[1..]) + multiset{x}
    ensures Sorted([s[0]] + rest) && multiset([s[0]] + rest) == multiset(s) + multiset{x}
  {
    assert s == [s[0]] + s[1..];
    InsertBound(s[0], x, s[1..], rest);
    var r := [s[0]] + rest;
    forall i, j | 0 <= i < j < |r| ensures r[i] <= r[j] {
      if i > 0 {
        assert r[i] == rest[i - 1] && r[j] == rest[j - 1];
      } else {
        assert r[j] == rest[j - 1];
      }
    }
  }

  lemma InsertBound(lo: int, x: int, s: seq<int>, rest: seq<int>)
    requires lo <= x && forall i :: 0 <= i < |s| ==> lo <= s[i]
    requires multiset(rest) == multiset(s) + multiset{x}
    ensures forall i :: 0 <= i < |rest| ==> lo <= rest[i]
  {
    forall i | 0 <= i < |rest| ensures lo <= rest[i] {
      assert rest[i] in multiset(rest);
      if rest[i] != x {
        assert rest[i] in multiset(s);
      }
    }
  }

  /** Python's `sorted` on integers. */
  function SortInts(s: seq<int>): (r: seq<int>)
    ensures Sorted(r) && multiset(r) == multiset(s)
  {
    if s == [] then []
    else
      assert s == [s[0]] + s[1..];
      Insert(s[0], SortInts(s[1..]))
  }

  /** The end times of the rooms that hold a surgery, in room order. */
  function Desocupacoes(salas: seq<Sala>): (r: seq<int>)
    ensures forall x :: x in r <==> exists i :: 0 <= i < |salas| && ProximaDesocupacao(salas[i]) == Some(x)
    ensures r == [] <==> forall i :: 0 <= i < |salas| ==> salas[i].cirurgias == []
  {
    if salas == [] then []
    else
      assert forall i :: 1 <= i < |salas| ==> salas[1..][i - 1] == salas[i];
      match ProximaDesocupacao(salas[0])
      case Some(x) => [x] + Desocupacoes(salas[1..])
      case None => Desocupacoes(salas[1..])
  }

  /**
   * The adjustment of repeated times: an element equal to the previous
   * ADJUSTED element becomes that element plus one. The first stays.
   */
  function Bump(d: seq<int>): (r: seq<int>)
    ensures |r| == |d|
    ensures d != [] ==> r[0] == d[0]
  {
    if d == [] then [] else [d[0]] + BumpAfter(d[1..], d[0])
  }

  function BumpAfter(d: seq<int>, prev: int): (r: seq<int>)
    ensures |r| == |d|
    ensures forall i :: 0 <= i < |d| ==> r[i] == d[i] || r[i] == (if i == 0 then prev else r[i - 1]) + 1
  {
    if d == [] then []
    else
      var v := if d[0] == prev then prev + 1 else d[0];
      [v] + BumpAfter(d[1..], v)
  }

  /** Distinct sorted times need no adjustment. */
  lemma {:induction false} BumpAfterDistinct(d: seq<int>, prev: int)
    requires NoTies(d) && (d != [] ==> prev < d[0])
    ensures BumpAfter(d, prev) == d
  {
    if d != [] {
      BumpAfterDistinct(d[1..], d[0]);
    }
  }

  lemma BumpDistinct(d: seq<int>)
    requires NoTies(d)
    ensures Bump(d) == d
  {
    if d != [] {
      BumpAfterDistinct(d[1..], d[0]);
    }
  }

  /** Three rooms freeing at the same time: the third is not moved, so the adjusted list repeats a time. */
  lemma BumpKeepsThirdRepeat()
    ensures Bump([5, 5, 5]) == [5, 6, 5]
  {
    assert BumpAfter([5], 6) == [5] + BumpAfter([], 5);
    assert BumpAfter([5, 5], 5) == [6] + BumpAfter([5], 6);
  }

  /**
   * `calcular_proxima_desocupacao`: the sorted end times (adjusted when the
   * current time is among them); the one after the current time's first
   * occurrence, or else the smallest. It asserts some room holds a surgery.
   */
  function ProximaVez(salas: seq<Sala>, agora: int): (r: Result<int>)
    ensures r.Err? <==> forall i :: 0 <= i < |salas| ==> salas[i].cirurgias == []
    ensures r.Err? ==> r.failure.Raised? && r.failure.exc == AssertionError
    ensures r.Ok? && agora !in Desocupacoes(salas) ==> Least(Desocupacoes(salas), r.value)
    ensures r.Ok? && NoTies(SortInts(Desocupacoes(salas))) && agora in Desocupacoes(salas) ==>
              if exists x :: x in Desocupacoes(salas) && x > agora then LeastAbove(Desocupacoes(salas), agora, r.value)
              else Least(Desocupacoes(salas), r.value)
  {
    var ends := Desocupacoes(salas);
    var d := SortInts(ends);
    SameElements(d, ends);
    if d == [] then
      Err(Raised(AssertionError, "Não há desocupações disponíveis"))
    else
      ProximaVezEscolha(ends, agora);
      Ok(NextAfter(if agora in d then Bump(d) else d, agora))
  }

  /** The time `ProximaVez` picks from the end times, in terms of the end times themselves. */
  lemma ProximaVezEscolha(ends: seq<int>, agora: int)
    requires ends != []
    ensures var d := SortInts(ends);
            d != [] &&
            var r := NextAfter(if agora in d then Bump(d) else d, agora);
            (agora !in ends ==> Least(ends, r)) &&
            (NoTies(d) && agora in ends ==>
               if exists x :: x in ends && x > agora then LeastAbove(ends, agora, r) else Least(ends, r))
  {
    var d := SortInts(ends);
    SameElements(d, ends);
    SortedLeast(d);
    var e := if agora in d then Bump(d) else d;
    if NoTies(d) {
      BumpDistinct(d);
      assert e == d;
      if agora in d {
        NextAfterDistinct(d, agora);
      }
    }
  }

  /** `x` is the smallest element of `s`. */
  predicate Least(s: seq<int>, x: int) {
    x in s && forall y :: y in s ==> x <= y
  }

  /** `x` is the smallest element of `s` above `t`. */
  predicate LeastAbove(s: seq<int>, t: int, x: int) {
    x in s && x > t && forall y :: y in s && y > t ==> x <= y
  }

  /** A sorted list with no repeated time. */
  predicate NoTies(s: seq<int>) {
    forall i, j :: 0 <= i < j < |s| ==> s[i] < s[j]
  }

  lemma SameElements(d: seq<int>, ends: seq<int>)
    requires multiset(d) == multiset(ends)
    ensures forall x :: x in d <==> x in ends
    ensures d == [] <==> ends == []
  {
    forall x ensures x in d <==> x in ends {
      assert x in d <==> x in multiset(d);
      assert x in ends <==> x in multiset(ends);
    }
    assert |d| == |multiset(d)| == |multiset(ends)| == |ends|;
  }

  lemma SortedLeast(d: seq<int>)
    requires Sorted(d) && d != []
    ensures Least(d, d[0])
  {
    forall y | y in d ensures d[0] <= y {
      var j :| 0 <= j < |d| && d[j] == y;
    }
  }

  /** The element after the first occurrence of `agora`, when there is one; else the first element. */
  function NextAfter(e: seq<int>, agora: int): (r: int)
    requires e != []
    ensures r in e
    ensures agora !in e ==> r == e[0]
    ensures agora in e && IndexOf(e, agora) + 1 < |e| ==> r == e[IndexOf(e, agora) + 1]
    ensures agora in e && IndexOf(e, agora) + 1 == |e| ==> r == e[0]
  {
    if agora in e then
      var i := IndexOf(e, agora);
      if i + 1 < |e| then e[i + 1] else e[0]
    else e[0]
  }

  /** On distinct sorted times, the element after `agora` is the least one above it, wrapping to the least one. */
  lemma NextAfterDistinct(d: seq<int>, agora: int)
    requires NoTies(d) && agora in d
    ensures if exists x :: x in d && x > agora then LeastAbove(d, agora, NextAfter(d, agora))
            else Least(d, NextAfter(d, agora))
  {
    var i := IndexOf(d, agora);
    assert forall j :: 0 <= j <= i ==> d[j] <= agora by {
      forall j | 0 <= j <= i ensures d[j] <= agora {
        if j < i { assert d[j] < d[i]; }
      }
    }
    assert forall j :: i < j < |d| ==> d[j] > agora && d[j] in d;
    if exists x :: x in d && x > agora {
      var x :| x in d && x > agora;
      var k :| 0 <= k < |d| && d[k] == x;
      assert k > i;
      assert NextAfter(d, agora) == d[i + 1];
      forall y | y in d && y > agora ensures d[i + 1] <= y {
        var j :| 0 <= j < |d| && d[j] == y;
        assert j > i;
        if j > i + 1 { assert d[i + 1] < d[j]; }
      }
    } else {
      assert forall j :: 0 <= j < |d| ==> d[j] <= agora by {
        forall j | 0 <= j < |d| ensures d[j] <= agora {
          assert d[j] in d;
        }
      }
      assert i + 1 == |d|;
      assert NextAfter(d, agora) == d[0];
      forall y | y in d ensures d[0] <= y {
        var j :| 0 <= j < |d| && d[j] == y;
        if j > 0 { assert d[0] < d[j]; }
      }
    }
  }

  /*
   * The run.
   */

  datatype Estado = Estado(m: Mediador, restantes: seq<Cirurgia>, agora: int, passo: nat)

  /** Every allocation is in a room of the mediator and by one of its teams, able to perform the surgery. */
  predicate Capaz(m: Mediador) {
    forall i :: 0 <= i < |m.registradas| ==>
      m.registradas[i].sala < |m.salas| && m.registradas[i].equipe < |m.equipes| &&
      Apta(m.registradas[i].cirurgia, m.equipes[m.registradas[i].equipe].id)
  }

  function Registradas(rs: seq<Alocada>): (r: seq<Cirurgia>)
    ensures |r| == |rs|
  {
    if rs == [] then [] else Registradas(rs[..|rs| - 1]) + [rs[|rs| - 1].cirurgia]
  }

  /** The surgeries registered so far together with those remaining are the surgeries the run started with. */
  predicate Conserva(e: Estado, iniciais: seq<Cirurgia>) {
    multiset(Registradas(e.m.registradas)) + multiset(e.restantes) == multiset(iniciais)
  }

  predicate Invariante(e: Estado, iniciais: seq<Cirurgia>, equipes: nat, salas: nat) {
    Conserva(e, iniciais) && Capaz(e.m) && |e.m.equipes| == equipes && |e.m.salas| == salas
  }

  /** `registrar_cirurgia` of the run: registration at the current time, and the surgery leaves the pending list. */
  function Registrar(e: Estado, c: Cirurgia, equipe: nat, sala: nat, ghost iniciais: seq<Cirurgia>): (r: Result<Estado>)
    requires equipe < |e.m.equipes| && sala < |e.m.salas|
    requires Apta(c, e.m.equipes[equipe].id)
    requires Invariante(e, iniciais, |e.m.equipes|, |e.m.salas|)
    ensures r.Ok? <==> c in e.restantes
    ensures r.Ok? ==> Invariante(r.value, iniciais, |e.m.equipes|, |e.m.salas|) && r.value.agora == e.agora &&
                      r.value.passo == e.passo && |r.value.restantes| == |e.restantes| - 1
  {
    var rest :- RemoveFirst(e.restantes, c);
    RegistrarMantem(e, c, equipe, sala, iniciais, rest);
    Ok(Estado(RegistrarCirurgia(e.m, c, equipe, sala, e.agora), rest, e.agora, e.passo))
  }

  /** Registering a pending surgery with a team able to do it keeps the invariant. */
  lemma RegistrarMantem(e: Estado, c: Cirurgia, equipe: nat, sala: nat, iniciais: seq<Cirurgia>, rest: seq<Cirurgia>)
    requires equipe < |e.m.equipes| && sala < |e.m.salas|
    requires Apta(c, e.m.equipes[equipe].id)
    requires Invariante(e, iniciais, |e.m.equipes|, |e.m.salas|)
    requires RemoveFirst(e.restantes, c) == Ok(rest)
    ensures Invariante(Estado(RegistrarCirurgia(e.m, c, equipe, sala, e.agora), rest, e.agora, e.passo),
                       iniciais, |e.m.equipes|, |e.m.salas|)
  {
    var m' := RegistrarCirurgia(e.m, c, equipe, sala, e.agora);
    RegistrarCapaz(e.m, c, equipe, sala, e.agora);
    assert m'.registradas[..|m'.registradas| - 1] == e.m.registradas;
    assert Registradas(m'.registradas) == Registradas(e.m.registradas) + [c];
    assert multiset(rest) == multiset(e.restantes) - multiset{c};
  }

  /** A registration by a team able to do the surgery keeps every registration capable. */
  lemma RegistrarCapaz(m: Mediador, c: Cirurgia, equipe: nat, sala: nat, t: int)
    requires equipe < |m.equipes| && sala < |m.salas|
    requires Apta(c, m.equipes[equipe].id)
    requires Capaz(m)
    ensures Capaz(RegistrarCirurgia(m, c, equipe, sala, t))
  {
    var m' := RegistrarCirurgia(m, c, equipe, sala, t);
    forall i | 0 <= i < |m'.registradas|
      ensures m'.registradas[i].sala < |m'.salas| && m'.registradas[i].equipe < |m'.equipes| &&
              Apta(m'.registradas[i].cirurgia, m'.equipes[m'.registradas[i].equipe].id)
    {
      if i < |m.registradas| {
        assert m'.registradas[i] == m.registradas[i];
      }
    }
  }

  /** The fallback of a room step: the free teams in order, until one has a surgery; IndexError past the last. */
  function Substituta(e: Estado, livres: seq<nat>, i: nat): (r: Result<(Cirurgia, nat)>)
    requires forall x :: x in livres ==> x < |e.m.equipes|
    ensures r.Ok? ==> r.value.1 in livres && r.value.0 in e.restantes && Apta(r.value.0, e.m.equipes[r.value.1].id)
    decreases |livres| - i
  {
    if i >= |livres| then Err(Raised(IndexError, "list index out of range"))
    else
      assert livres[i] in livres;
      var c :- ProximaCirurgia(e.restantes, e.m.equipes[livres[i]].id);
      if c.Some? then Ok((c.value, livres[i])) else Substituta(e, livres, i + 1)
  }

  /**
   * `processar_salas`, from room `k` on: each room free at the current time
   * takes, while surgeries and free teams remain, the next surgery of the
   * team the ordering designates (or of the first free team that has one);
   * that team is then no longer free.
   */
  function ProcessarSalas(e: Estado, livres: seq<nat>, ordering: seq<int>, k: nat, ghost iniciais: seq<Cirurgia>)
    : (r: Result<Estado>)
    requires k <= |e.m.salas|
    requires forall x :: x in livres ==> x < |e.m.equipes|
    requires Invariante(e, iniciais, |e.m.equipes|, |e.m.salas|)
    ensures r.Ok? ==> Invariante(r.value, iniciais, |e.m.equipes|, |e.m.salas|) && r.value.agora == e.agora
    decreases |e.m.salas| - k
  {
    if k == |e.m.salas| then Ok(e)
    else if !EstaOcupada(e.m.salas[k].cirurgias, e.agora) && e.restantes != [] && livres != [] then
      var n :- PyIndex(ordering, e.passo);
      var equipe :- PyIndex(livres, n);
      assert equipe in livres;
      var first :- ProximaCirurgia(e.restantes, e.m.equipes[equipe].id);
      var pick :- if first.Some? then Ok((first.value, equipe)) else Substituta(e, livres, 0);
      var e1 :- Registrar(e, pick.0, pick.1, k, iniciais);
      var livres' := RemoveFirst(livres, pick.1).value;
      RemoveFirstKeeps(livres, pick.1);
      ProcessarSalas(e1.(passo := e1.passo + 1), livres', ordering, k + 1, iniciais)
    else ProcessarSalas(e, livres, ordering, k + 1, iniciais)
  }

  /** The clock limit of a run. */
  const Limite := 5000

  /**
   * `executar`: checks the ordering has one entry per surgery, clears the
   * mediator, then repeats room steps and clock moves until every surgery is
   * registered; past time 5000 it raises. Bounded by `fuel` passes.
   */
  method Executar(m0: Mediador, cirurgias: seq<Cirurgia>, ordering: seq<int>, fuel: nat) returns (r: Result<Estado>)
    ensures |ordering| != |cirurgias| ==> r == Err(Raised(AssertionError, "len(ordering) != len(cirurgias)"))
    ensures r.Ok? ==> r.value.restantes == [] && multiset(Registradas(r.value.m.registradas)) == multiset(cirurgias)
    ensures r.Ok? ==> |r.value.m.registradas| == |cirurgias| && Capaz(r.value.m) && r.value.agora <= Limite
    ensures r.Ok? ==> |r.value.m.equipes| == |m0.equipes| && |r.value.m.salas| == |m0.salas|
  {
    if |ordering| != |cirurgias| {
      return Err(Raised(AssertionError, "len(ordering) != len(cirurgias)"));
    }
    var e := Estado(Limpar(m0), cirurgias, 0, 0);
    var passos := 0;
    var left := fuel;
    while e.restantes != []
      invariant Invariante(e, cirurgias, |m0.equipes|, |m0.salas|)
      invariant e.agora <= Limite
      decreases left
    {
      if left == 0 {
        return Err(OutOfFuel);
      }
      var livres :- EquipesLivres(e.m, e.agora);
      if livres == [] && passos == 0 {
        return Err(Raised(AssertionError, "Sem equipes."));
      }
      if livres != [] {
        e :- ProcessarSalas(e, livres, ordering, 0, cirurgias);
      }
      var t :- ProximaVez(e.m.salas, e.agora);
      e := e.(agora := t);
      passos := passos + 1;
      if t > Limite {
        return Err(Raised(Exception, "Tempo limite excedido"));
      }
      left := left - 1;
    }
    return Ok(e);
  }

  /*
   * The optimizer's pieces.
   */

  /** `Otimizador.gene_space`: the same decreasing bounds, one gene per surgery. */
  method GeneSpace(m: Mediador, cirurgias: seq<Cirurgia>) returns (genes: seq<Search.Gene>)
    ensures |genes| == |cirurgias|
    ensures forall i :: 0 <= i < |genes| ==> genes[i] == Search.Gene(0, Search.GeneHigh(i, |m.equipes|, |m.salas|))
  {
    genes := Search.GeneSpace(|cirurgias|, |m.equipes|, |m.salas|);
  }

  datatype Registro = Registro(punicao: int, geracao: int)

  /**
   * The optimizer's fitness: a fresh run over the surgeries. Any Python
   * exception of the run scores minus infinity and leaves the history alone;
   * otherwise the penalty is computed (outside the guard, so an empty list of
   * surgeries raises), analysed, and its negation is the score.
   */
  method Aptidao(m: Mediador, cirurgias: seq<Cirurgia>, solution: seq<int>, fuel: nat, h: seq<Registro>, geracao: int)
    returns (r: Result<Search.Score>, outcome: Result<Estado>, h2: seq<Registro>)
    ensures outcome.Err? ==> h2 == h
    ensures outcome.Err? && outcome.failure.Raised? ==> r == Ok(Search.NegInf)
    ensures outcome.Err? && !outcome.failure.Raised? ==> r == Err(outcome.failure)
    ensures outcome.Ok? ==> multiset(Registradas(outcome.value.m.registradas)) == multiset(cirurgias)
    ensures outcome.Ok? && cirurgias == [] ==> r == Err(Raised(AssertionError, "Não há salas, cirurgias ou equipes")) && h2 == h
    ensures outcome.Ok? && cirurgias != [] ==>
              var p := PunicaoSalas(outcome.value.m.salas);
              r == Ok(Search.Finite(-p)) && h2 == Analise(h, p, geracao)
  {
    h2 := h;
    outcome := Executar(m, cirurgias, solution, fuel);
    if outcome.Err? {
      if outcome.failure.Raised? {
        return Ok(Search.NegInf), outcome, h2;
      }
      return Err(outcome.failure), outcome, h2;
    }
    var p := CalcularPunicao(outcome.value.m);
    if p.Err? {
      return Err(p.failure), outcome, h2;
    }
    h2 := Analise(h, p.value, geracao);
    r := Ok(Search.Finite(-p.value));
  }

  /** The history keeps a record only when it beats every earlier one. */
  predicate Decrescente(h: seq<Registro>) {
    forall i, j :: 0 <= i < j < |h| ==> h[j].punicao < h[i].punicao
  }

  function MinPunicao(h: seq<Registro>): (m: int)
    requires h != []
    ensures (exists i :: 0 <= i < |h| && h[i].punicao == m) && forall i :: 0 <= i < |h| ==> m <= h[i].punicao
  {
    if |h| == 1 then h[0].punicao
    else
      var rest := MinPunicao(h[1..]);
      assert forall i :: 1 <= i < |h| ==> h[1..][i - 1] == h[i];
      if h[0].punicao <= rest then h[0].punicao else rest
  }

  /** `AnalisadorModel.analise`: record the penalty when the history is empty or it is below its minimum. */
  function Analise(h: seq<Registro>, punicao: int, geracao: int): (r: seq<Registro>)
    ensures (h == [] || forall i :: 0 <= i < |h| ==> punicao < h[i].punicao) ==> r == h + [Registro(punicao, geracao)]
    ensures !(h == [] || forall i :: 0 <= i < |h| ==> punicao < h[i].punicao) ==> r == h
  {
    if h == [] || punicao < MinPunicao(h) then h + [Registro(punicao, geracao)] else h
  }

  /** The recorded penalties strictly decrease, whatever is analysed. */
  lemma AnaliseKeepsDecrescente(h: seq<Registro>, punicao: int, geracao: int)
    requires Decrescente(h)
    ensures Decrescente(Analise(h, punicao, geracao))
  {
  }
}

=== FILE: builder.dfy ===
/*
 * The event-driven timetable builder: the run state, one room step with the
 * fallbacks of the base builder and of its two extensions (fixed bookings
 * kept in place, and the room limiter), and the loop that serves the
 * earliest vacancy until every surgery is booked.
 *
 * The extensions are flags of the run: each one overrides a few steps of the
 * base builder, and no step is overridden by both.
 */
module Builder {
  import opened Common
  import opened Cache
  import opened Selection
  import opened Frontier

  /** Which extensions the builder runs with. */
  datatype Features = Features(fixedSchedules: bool, roomLimiter: bool)

  /** The state of one simulation run. */
  datatype Run = Run(
    st: Store,                         // the run's own copy of the store
    features: Features,
    zero: int,                         // zero_time
    remaining: seq<Surgery>,           // the surgeries still to book
    step: nat,                         // bookings made so far: the position in the candidate vector
    solution: seq<int>,                // the candidate vector, one gene per booking
    nextTime: int,                     // the current vacancy: a time ...
    nextRoom: Room,                    // ... and a room
    available: seq<Team>,              // the teams free at the current vacancy
    fixedConsidered: seq<Booking>,     // fixed bookings the frontier has reached
    emptyConsidered: seq<EmptySlot>,   // gaps left in front of later bookings
    fixedDisregarded: seq<Booking>,    // fixed bookings not reached yet
    finished: seq<Room>,               // rooms the room limiter gave up on
    lastVacancy: Option<Vacancy>)      // the vacancy served last, for the duplicate test

  /** The room filter of `get_next_surgery`: the current room, with the room limiter on. */
  function RoomFilter(run: Run): Option<int> {
    if run.features.roomLimiter then Some(run.nextRoom.id) else None
  }

  function NextSurgery(run: Run, team: Team): (r: Result<Option<Surgery>>)
    ensures r.Ok? && r.value.Some? ==>
              var s := r.value.value;
              s in run.st.surgeries && TeamLinked(run.st, s.id, team.id) && InRemaining(run.remaining, s.id) &&
              (run.features.roomLimiter ==> RoomAllows(run.st, Some(run.nextRoom.id), s.id))
  {
    GetNextSurgery(run.st, run.remaining, team, RoomFilter(run))
  }

  /** A booking the builder may make: not fixed, by a capable team, in an allowed room when rooms are limited. */
  predicate WellBooked(st: Store, roomLimiter: bool, b: Booking) {
    !b.fixed && TeamLinked(st, b.surgeryId, b.teamId) && (roomLimiter ==> RoomAllows(st, Some(b.roomId), b.surgeryId))
  }

  /** The ids of a list of surgeries, in order. */
  function Ids(ss: seq<Surgery>): (r: seq<int>)
    ensures |r| == |ss| && forall i :: 0 <= i < |ss| ==> r[i] == ss[i].id
  {
    seq(|ss|, i requires 0 <= i < |ss| => ss[i].id)
  }

  /** The surgery ids of a list of bookings, in order. */
  function BookedIds(bs: seq<Booking>): (r: seq<int>)
    ensures |r| == |bs| && forall i :: 0 <= i < |bs| ==> r[i] == bs[i].surgeryId
  {
    seq(|bs|, i requires 0 <= i < |bs| => bs[i].surgeryId)
  }

  /**
   * What a run may do between two of its states: append bookings (each one
   * well made, for a surgery that was remaining and had no booking yet, and
   * counted by `step`), take exactly the booked surgeries off the remaining
   * list, and extend the considered lists; every other table and the run's
   * parameters stay.
   */
  predicate Grows(a: Run, b: Run) {
    Extends(a, b) && Accounted(a, b) && NewWellBooked(a, b) && NewFresh(a, b)
  }

  /** The tables other than the bookings and the run's parameters stay; the lists only grow, in step. */
  predicate Extends(a: Run, b: Run) {
    b.st == a.st.(bookings := b.st.bookings) &&
    a.st.bookings <= b.st.bookings &&
    b.step == a.step + (|b.st.bookings| - |a.st.bookings|) &&
    b.step + |b.remaining| == a.step + |a.remaining| &&
    multiset(b.remaining) <= multiset(a.remaining) &&
    b.solution == a.solution && b.features == a.features && b.zero == a.zero &&
    a.fixedConsidered <= b.fixedConsidered &&
    a.emptyConsidered <= b.emptyConsidered
  }

  /** The surgeries that left the remaining list are exactly those of the new bookings. */
  predicate Accounted(a: Run, b: Run) {
    |a.st.bookings| <= |b.st.bookings| &&
    multiset(Ids(a.remaining)) == multiset(Ids(b.remaining)) + multiset(BookedIds(b.st.bookings[|a.st.bookings|..]))
  }

  /** Each new booking is well made, for a surgery that was remaining. */
  predicate NewWellBooked(a: Run, b: Run) {
    forall j :: |a.st.bookings| <= j < |b.st.bookings| ==>
                  WellBooked(a.st, a.features.roomLimiter, b.st.bookings[j]) &&
                  InRemaining(a.remaining, b.st.bookings[j].surgeryId)
  }

  /** No new booking is for a surgery booked before it. */
  predicate NewFresh(a: Run, b: Run) {
    forall j, k :: |a.st.bookings| <= j < |b.st.bookings| && 0 <= k < j ==>
                     b.st.bookings[k].surgeryId != b.st.bookings[j].surgeryId
  }

  lemma GrowsRefl(a: Run, b: Run)
    requires b == a.(nextTime := b.nextTime, nextRoom := b.nextRoom, available := b.available,
                     finished := b.finished, lastVacancy := b.lastVacancy)
    ensures Grows(a, b)
  {
    assert a.st.bookings[..|a.st.bookings|] == a.st.bookings;
    assert b.st.bookings[|a.st.bookings|..] == [];
    assert a.fixedConsidered[..|a.fixedConsidered|] == a.fixedConsidered;
    assert a.emptyConsidered[..|a.emptyConsidered|] == a.emptyConsidered;
  }

  lemma GrowsTrans(a: Run, b: Run, c: Run)
    requires Grows(a, b) && Grows(b, c)
    ensures Grows(a, c)
  {
    ExtendsTrans(a, b, c);
    AccountedTrans(a, b, c);
    FreshTrans(a, b, c);
    WellBookedTrans(a, b, c);
  }

  lemma ExtendsTrans(a: Run, b: Run, c: Run)
    requires Extends(a, b) && Extends(b, c)
    ensures Extends(a, c)
  {
    assert c.st.bookings[..|a.st.bookings|] == c.st.bookings[..|b.st.bookings|][..|a.st.bookings|];
    assert c.fixedConsidered[..|a.fixedConsidered|] == c.fixedConsidered[..|b.fixedConsidered|][..|a.fixedConsidered|];
    assert c.emptyConsidered[..|a.emptyConsidered|] == c.emptyConsidered[..|b.emptyConsidered|][..|a.emptyConsidered|];
  }

  lemma AccountedTrans(a: Run, b: Run, c: Run)
    requires a.st.bookings <= b.st.bookings <= c.st.bookings
    requires Accounted(a, b) && Accounted(b, c)
    ensures Accounted(a, c)
  {
    var ab, bb, cb := a.st.bookings, b.st.bookings, c.st.bookings;
    assert cb[|ab|..] == bb[|ab|..] + cb[|bb|..];
    assert BookedIds(cb[|ab|..]) == BookedIds(bb[|ab|..]) + BookedIds(cb[|bb|..]);
  }

  lemma FreshTrans(a: Run, b: Run, c: Run)
    requires a.st.bookings <= b.st.bookings <= c.st.bookings
    requires NewFresh(a, b) && NewFresh(b, c)
    ensures NewFresh(a, c)
  {
    var ab, bb, cb := a.st.bookings, b.st.bookings, c.st.bookings;
    forall j, k | |ab| <= j < |cb| && 0 <= k < j ensures cb[k].surgeryId != cb[j].surgeryId {
      if j < |bb| {
        assert cb[j] == bb[j] && cb[k] == bb[k];
      }
    }
  }

  lemma WellBookedTrans(a: Run, b: Run, c: Run)
    requires Extends(a, b) && NewWellBooked(a, b) && NewWellBooked(b, c) && |b.st.bookings| <= |c.st.bookings|
    requires c.st.bookings[..|b.st.bookings|] == b.st.bookings
    ensures NewWellBooked(a, c)
  {
    var ab, bb, cb := a.st.bookings, b.st.bookings, c.st.bookings;
    forall j | |ab| <= j < |cb|
      ensures WellBooked(a.st, a.features.roomLimiter, cb[j]) && InRemaining(a.remaining, cb[j].surgeryId)
    {
      if j < |bb| {
        assert cb[j] == bb[j];
      } else {
        var id := cb[j].surgeryId;
        assert InRemaining(b.remaining, id);
        var i :| 0 <= i < |b.remaining| && b.remaining[i].id == id;
        assert b.remaining[i] in multiset(b.remaining);
        assert b.remaining[i] in a.remaining;
      }
    }
  }

  /**
   * `_register_surgery_and_update`: book the surgery, drop it from the
   * remaining list (ValueError when it is not there) and advance `step`.
   */
  function Register(run: Run, s: Surgery, team: Team, room: Room, start: int): (r: Result<Run>)
    requires TeamLinked(run.st, s.id, team.id)
    requires run.features.roomLimiter ==> RoomAllows(run.st, Some(room.id), s.id)
    ensures r.Ok? <==> RegisterSurgery(run.st, s, team, room, start).Ok? && s in run.remaining
    ensures r.Ok? ==> Grows(run, r.value)
    ensures r.Ok? ==> r.value.st.bookings == run.st.bookings + [NewBooking(s, team, room, start)] &&
                      r.value.step == run.step + 1 &&
                      multiset(r.value.remaining) == multiset(run.remaining) - multiset{s}
    ensures r.Ok? ==> r.value == run.(st := r.value.st, remaining := r.value.remaining, step := r.value.step)
  {
    var st' :- RegisterSurgery(run.st, s, team, room, start);
    var rem :- RemoveFirst(run.remaining, s);
    RegisterGrows(run, s, team, room, start, st', rem);
    Ok(run.(st := st', remaining := rem, step := run.step + 1))
  }

  lemma RegisterGrows(run: Run, s: Surgery, team: Team, room: Room, start: int, st': Store, rem: seq<Surgery>)
    requires TeamLinked(run.st, s.id, team.id)
    requires run.features.roomLimiter ==> RoomAllows(run.st, Some(room.id), s.id)
    requires st' == run.st.(bookings := run.st.bookings + [NewBooking(s, team, room, start)])
    requires RemoveFirst(run.remaining, s) == Ok(rem)
    requires !AlreadyBooked(run.st, s.id)
    ensures Grows(run, run.(st := st', remaining := rem, step := run.step + 1))
  {
    var r := run.(st := st', remaining := rem, step := run.step + 1);
    var n := |run.st.bookings|;
    var b := NewBooking(s, team, room, start);
    assert st'.bookings[n] == b && b.surgeryId == s.id;
    assert st'.bookings[..n] == run.st.bookings;
    assert Extends(run, r) by {
      assert run.fixedConsidered[..|run.fixedConsidered|] == run.fixedConsidered;
      assert run.emptyConsidered[..|run.emptyConsidered|] == run.emptyConsidered;
    }
    assert Accounted(run, r) by {
      RemovedIds(run.remaining, s, rem);
      assert st'.bookings[n..] == [b];
      assert BookedIds(st'.bookings[n..]) == [s.id];
    }
    assert NewWellBooked(run, r) by {
      var i := IndexOf(run.remaining, s);
      assert InRemaining(run.remaining, s.id);
    }
    assert NewFresh(run, r) by {
      forall j, k | n <= j < |st'.bookings| && 0 <= k < j ensures st'.bookings[k].surgeryId != st'.bookings[j].surgeryId {
        assert st'.bookings[k] == run.st.bookings[k];
      }
    }
  }

  /** Dropping a surgery from a list drops its id from the list's ids. */
  lemma RemovedIds(xs: seq<Surgery>, s: Surgery, rem: seq<Surgery>)
    requires RemoveFirst(xs, s) == Ok(rem)
    ensures multiset(Ids(xs)) == multiset(Ids(rem)) + multiset{s.id}
  {
    var i := IndexOf(xs, s);
    var before, after := xs[..i], xs[i + 1..];
    assert xs == before + [s] + after;
    assert rem == before + after;
    IdsAppend(before + [s], after);
    IdsAppend(before, [s]);
    IdsAppend(before, after);
    assert Ids([s]) == [s.id];
    assert Ids(xs) == Ids(before) + [s.id] + Ids(after);
    assert Ids(rem) == Ids(before) + Ids(after);
    assert multiset(Ids(xs)) == multiset(Ids(before)) + multiset{s.id} + multiset(Ids(after));
  }

  lemma IdsAppend(xs: seq<Surgery>, ys: seq<Surgery>)
    ensures Ids(xs + ys) == Ids(xs) + Ids(ys)
  {
  }

  /*
   * One room step. Each function's decreases clause is (fuel, rank, count):
   * only the room limiter's restart of the unfinished rooms spends fuel.
   */

  /** `_process_room_with_teams` of the builder, or of the fixed-bookings extension when that is on. */
  function ProcessRoom(run: Run, fuel: nat): (r: Result<Run>)
    ensures r.Ok? ==> Grows(run, r.value)
    decreases fuel, 5, 0
  {
    if run.features.fixedSchedules then FixedProcess(run, fuel) else BaseProcess(run, fuel)
  }

  /**
   * The base room step: the gene picks a free team, which books its next
   * surgery at the vacancy; otherwise the first other free team that has
   * one; otherwise the global fallback.
   */
  function BaseProcess(run: Run, fuel: nat): (r: Result<Run>)
    ensures r.Ok? ==> Grows(run, r.value)
    ensures (PickTeam(run.solution, run.step, run.available).Err? ==> r.Err?)
    ensures r.Ok? ==>
              var team := PickTeam(run.solution, run.step, run.available).value;
              match NextSurgery(run, team)
              case Ok(Some(s)) => r.value.st.bookings == run.st.bookings + [NewBooking(s, team, run.nextRoom, run.nextTime)]
              case _ => true
    decreases fuel, 4, 0
  {
    var team :- PickTeam(run.solution, run.step, run.available);
    var s :- NextSurgery(run, team);
    if s.Some? then Register(run, s.value, team, run.nextRoom, run.nextTime)
    else
      var o :- TryOtherTeams(run, 0);
      if o.Some? then Ok(o.value) else TryGlobal(run, 0, fuel)
  }

  /** Team `i` is the first free team from position `k` on with a surgery, and that surgery is `s`. */
  predicate FirstTaker(run: Run, k: nat, i: nat, s: Surgery) {
    k <= i < |run.available| &&
    NextSurgery(run, run.available[i]) == Ok(Some(s)) &&
    forall j :: k <= j < i ==> NextSurgery(run, run.available[j]) == Ok(None)
  }

  /** `b` books, at the vacancy, the surgery of the first free team from position `k` on that has one. */
  ghost predicate TakenBy(run: Run, k: nat, b: Run) {
    exists i: nat, s :: FirstTaker(run, k, i, s) &&
      b.st.bookings == run.st.bookings + [NewBooking(s, run.available[i], run.nextRoom, run.nextTime)]
  }

  /** The first team of `run.available` from position `k` on with a surgery, booked at the vacancy. */
  function TryOtherTeams(run: Run, k: nat): (r: Result<Option<Run>>)
    requires k <= |run.available|
    ensures r.Ok? && r.value.Some? ==> Grows(run, r.value.value) && TakenBy(run, k, r.value.value)
    ensures r.Ok? && r.value.None? ==> forall j :: k <= j < |run.available| ==> NextSurgery(run, run.available[j]) == Ok(None)
    decreases |run.available| - k
  {
    if k == |run.available| then Ok(None)
    else
      var team := run.available[k];
      var s :- NextSurgery(run, team);
      if s.Some? then
        var r :- Register(run, s.value, team, run.nextRoom, run.nextTime);
        assert FirstTaker(run, k, k, s.value);
        Ok(Some(r))
      else
        var o :- TryOtherTeams(run, k + 1);
        TakenByLater(run, k, o);
        Ok(o)
  }

  /** When team `k` has no surgery, what holds from `k + 1` on holds from `k` on. */
  lemma TakenByLater(run: Run, k: nat, o: Option<Run>)
    requires k < |run.available| && NextSurgery(run, run.available[k]) == Ok(None)
    requires o.Some? ==> TakenBy(run, k + 1, o.value)
    requires o.None? ==> forall j :: k + 1 <= j < |run.available| ==> NextSurgery(run, run.available[j]) == Ok(None)
    ensures o.Some? ==> TakenBy(run, k, o.value)
    ensures o.None? ==> forall j :: k <= j < |run.available| ==> NextSurgery(run, run.available[j]) == Ok(None)
  {
    if o.Some? {
      var i: nat, s :| FirstTaker(run, k + 1, i, s) &&
        o.value.st.bookings == run.st.bookings + [NewBooking(s, run.available[i], run.nextRoom, run.nextTime)];
      assert FirstTaker(run, k, i, s);
    }
  }

  /**
   * `_try_global_teams`: the first team of the Team table (from position `k`
   * on) with a surgery books it in the room at the end of the room's latest
   * booking or empty slot, whatever that team is doing then; with no such
   * team, `if_no_teams_for_room`.
   */
  function TryGlobal(run: Run, k: nat, fuel: nat): (r: Result<Run>)
    requires k <= |run.st.teams|
    ensures r.Ok? ==> Grows(run, r.value)
    decreases fuel, 3, |run.st.teams| - k
  {
    if k == |run.st.teams| then IfNoTeams(run, fuel)
    else
      var team := run.st.teams[k];
      var s :- NextSurgery(run, team);
      if s.Some? then
        var start :- LastEnd(run.st, run.nextRoom.id);
        var room :- RoomById(run.st, run.nextRoom.id);
        Register(run, s.value, team, room, start)
      else TryGlobal(run, k + 1, fuel)
  }

  /**
   * `if_no_teams_for_room`. The base builder stops the run. The room limiter
   * marks the room finished and, while some room is not, restarts every
   * unfinished room from the end of its booking with the latest start; once
   * all rooms are finished it raises ValueError.
   */
  function IfNoTeams(run: Run, fuel: nat): (r: Result<Run>)
    ensures !run.features.roomLimiter ==> r == Err(Exit("No surgery found for any team."))
    ensures run.features.roomLimiter && |run.finished| + 1 == |run.st.rooms| ==>
              r == Err(Raised(ValueError, "No surgery found for any team."))
    ensures r.Ok? ==> Grows(run, r.value)
    decreases fuel, 2, 0
  {
    if !run.features.roomLimiter then Err(Exit("No surgery found for any team."))
    else
      var run' := run.(finished := run.finished + [run.nextRoom]);
      GrowsRefl(run, run');
      if |run'.finished| != |run.st.rooms| then
        var r :- ProcessUnfinished(run', 0, fuel);
        GrowsTrans(run, run', r);
        Ok(r)
      else Err(Raised(ValueError, "No surgery found for any team."))
  }

  /** The room limiter's pass over the Room table from position `k`, re-reading the finished list each time. */
  function ProcessUnfinished(run: Run, k: nat, fuel: nat): (r: Result<Run>)
    requires k <= |run.st.rooms|
    ensures r.Ok? ==> Grows(run, r.value)
    decreases fuel, 1, |run.st.rooms| - k
  {
    if k == |run.st.rooms| then
      GrowsRefl(run, run);
      Ok(run)
    else
      var room := run.st.rooms[k];
      if room in run.finished then ProcessUnfinished(run, k + 1, fuel)
      else if fuel == 0 then Err(OutOfFuel)
      else
        var t :- LatestStartEnd(run.st, room.id);
        var run1 := run.(nextRoom := room, nextTime := t);
        GrowsRefl(run, run1);
        var run2 :- ProcessRoom(run1, fuel - 1);
        GrowsTrans(run, run1, run2);
        var r :- ProcessUnfinished(run2, k + 1, fuel);
        GrowsTrans(run, run2, r);
        Ok(r)
  }

  /*
   * The fixed-bookings extension.
   */

  /** Some booking of the room starts strictly after `t`. */
  predicate LaterBooking(st: Store, roomId: int, t: int) {
    exists j | 0 <= j < |st.bookings| :: st.bookings[j].roomId == roomId && st.bookings[j].start > t
  }

  /** A surgery of `duration` minutes fits at `t`: it is not empty and ends by the start of what comes next, if anything. */
  predicate FitsBefore(st: Store, roomId: int, t: int, duration: int) {
    match NextSchedule(st, roomId, t)
    case None => true
    case Some(it) => 0 < SecondsPerMinute * duration <= ItemStart(it) - t
  }

  /** The booking is the one surgery of the table with that id booked at the vacancy and fitting there. */
  predicate BookedFitting(run: Run, b: Booking) {
    b.start == run.nextTime && b.roomId == run.nextRoom.id &&
    exists s :: s in run.st.surgeries && s.id == b.surgeryId && FitsBefore(run.st, run.nextRoom.id, run.nextTime, s.duration)
  }

  /**
   * The fixed-bookings room step. When a booking of the room starts after
   * the vacancy, a surgery is placed only where it fits before whatever
   * comes next; when nothing fits, the gap is recorded instead. Otherwise
   * the step is the base one, with the extension's other-teams fallback.
   */
  function FixedProcess(run: Run, fuel: nat): (r: Result<Run>)
    ensures r.Ok? ==> Grows(run, r.value)
    ensures r.Ok? && LaterBooking(run.st, run.nextRoom.id, run.nextTime) ==>
              (|r.value.st.bookings| == |run.st.bookings| + 1 &&
               BookedFitting(run, r.value.st.bookings[|run.st.bookings|])) ||
              (r.value.st.bookings == run.st.bookings &&
               |r.value.emptyConsidered| == |run.emptyConsidered| + 1 &&
               var e := r.value.emptyConsidered[|run.emptyConsidered|];
               e.roomId == run.nextRoom.id && e.start == run.nextTime)
    decreases fuel, 4, 0
  {
    var team :- PickTeam(run.solution, run.step, run.available);
    var s :- NextSurgery(run, team);
    var room := run.nextRoom;
    var t := run.nextTime;
    if LaterBooking(run.st, room.id, t) then
      match NextSchedule(run.st, room.id, t)
      case None => Err(Raised(AttributeError, "'NoneType' object has no attribute 'start_time'"))
      case Some(next) =>
        var gap := ItemStart(next) - t;
        if s.Some? && gap >= SecondsPerMinute * s.value.duration > 0 then
          var r :- Register(run, s.value, team, room, t);
          assert BookedFitting(run, r.st.bookings[|run.st.bookings|]);
          Ok(r)
        else
          var o :- TryOtherFixed(run, 0);
          if o.Some? then Ok(o.value)
          else LeaveGap(run, next, gap)
    else if s.Some? then Register(run, s.value, team, room, t)
    else
      var o :- TryOtherFixed(run, 0);
      if o.Some? then Ok(o.value) else TryGlobal(run, 0, fuel)
  }

  /** The team has no surgery, or one that does not fit before the room's next item; a lookup error does not count. */
  predicate NothingFits(run: Run, team: Team) {
    match NextSurgery(run, team)
    case Ok(Some(s)) => !FitsBefore(run.st, run.nextRoom.id, run.nextTime, s.duration)
    case Ok(None) => true
    case Err(_) => false
  }

  /**
   * The extension's `_try_other_teams`: the first free team (from position
   * `k`) with a surgery that fits before the room's next item books it at
   * the vacancy; a team whose surgery does not fit is passed over.
   */
  function TryOtherFixed(run: Run, k: nat): (r: Result<Option<Run>>)
    requires k <= |run.available|
    ensures r.Ok? && r.value.Some? ==>
              Grows(run, r.value.value) && |r.value.value.st.bookings| == |run.st.bookings| + 1 &&
              BookedFitting(run, r.value.value.st.bookings[|run.st.bookings|])
    ensures r.Ok? && r.value.None? ==> forall j :: k <= j < |run.available| ==> NothingFits(run, run.available[j])
    decreases |run.available| - k
  {
    if k == |run.available| then Ok(None)
    else
      var team := run.available[k];
      var s :- NextSurgery(run, team);
      if s.Some? && FitsBefore(run.st, run.nextRoom.id, run.nextTime, s.value.duration) then
        var r :- Register(run, s.value, team, run.nextRoom, run.nextTime);
        assert r.st.bookings[|run.st.bookings|] == NewBooking(s.value, team, run.nextRoom, run.nextTime);
        assert BookedFitting(run, r.st.bookings[|run.st.bookings|]) by {
          assert s.value in run.st.surgeries;
        }
        Ok(Some(r))
      else
        assert NothingFits(run, team);
        TryOtherFixed(run, k + 1)
  }

  /**
   * Nothing fits in front of `next`: record the gap up to it, in whole
   * minutes, as a considered empty slot, and when `next` is a fixed booking
   * mark it considered (once) and no longer disregarded. An empty slot has
   * no `fixed` attribute, so meeting one here raises AttributeError.
   */
  function LeaveGap(run: Run, next: Item, gap: int): (r: Result<Run>)
    ensures next.ItemSlot? <==> r.Err?
    ensures r.Err? ==> r.failure.Raised? && r.failure.exc == AttributeError
    ensures r.Ok? ==> Grows(run, r.value) && r.value.st == run.st
    ensures r.Ok? ==> r.value.emptyConsidered == run.emptyConsidered + [EmptySlot(run.nextRoom.id, run.nextTime, gap / SecondsPerMinute)]
    ensures r.Ok? && next.booking.fixed ==>
              next.booking in r.value.fixedConsidered &&
              multiset(r.value.fixedConsidered)[next.booking] == 1 + multiset(run.fixedConsidered)[next.booking] - (if next.booking in run.fixedConsidered then 1 else 0) &&
              multiset(r.value.fixedDisregarded) == multiset(run.fixedDisregarded) - multiset{next.booking}
    ensures r.Ok? && !next.booking.fixed ==>
              r.value.fixedConsidered == run.fixedConsidered && r.value.fixedDisregarded == run.fixedDisregarded
  {
    var slot := EmptySlot(run.nextRoom.id, run.nextTime, gap / SecondsPerMinute);
    match next
    case ItemSlot(_) => Err(Raised(AttributeError, "'EmptySchedule' object has no attribute 'fixed'"))
    case ItemBooking(b) =>
      var fc := if b.fixed && b !in run.fixedConsidered then run.fixedConsidered + [b] else run.fixedConsidered;
      var fd := if b.fixed && b in run.fixedDisregarded then RemoveFirst(run.fixedDisregarded, b).value
                else run.fixedDisregarded;
      var r := run.(fixedConsidered := fc, fixedDisregarded := fd, emptyConsidered := run.emptyConsidered + [slot]);
      GrowsPrefixes(run, r);
      Ok(r)
  }

  lemma GrowsPrefixes(a: Run, b: Run)
    requires b == a.(fixedConsidered := b.fixedConsidered, fixedDisregarded := b.fixedDisregarded,
                     emptyConsidered := b.emptyConsidered)
    requires a.fixedConsidered <= b.fixedConsidered && a.emptyConsidered <= b.emptyConsidered
    ensures Grows(a, b)
  {
    assert a.st.bookings[..|a.st.bookings|] == a.st.bookings;
    assert b.st.bookings[|a.st.bookings|..] == [];
  }

  /** Exactly one booking of `bs` is for surgery `id`. */
  predicate BookedOnce(bs: seq<Booking>, id: int) {
    exists k :: 0 <= k < |bs| && bs[k].surgeryId == id &&
                forall j :: 0 <= j < |bs| && j != k ==> bs[j].surgeryId != id
  }

  /** A run that empties its remaining list has booked each of those surgeries exactly once. */
  lemma GrowsBooksOnce(a: Run, b: Run)
    requires Grows(a, b) && b.remaining == []
    ensures forall s :: s in a.remaining ==> BookedOnce(b.st.bookings, s.id)
  {
    var ab, bb := a.st.bookings, b.st.bookings;
    var added := BookedIds(bb[|ab|..]);
    assert multiset(Ids(a.remaining)) == multiset(added);
    forall s | s in a.remaining ensures BookedOnce(bb, s.id) {
      var i :| 0 <= i < |a.remaining| && a.remaining[i] == s;
      assert Ids(a.remaining)[i] == s.id;
      assert s.id in multiset(added);
      var m :| 0 <= m < |added| && added[m] == s.id;
      var k := |ab| + m;
      assert bb[k].surgeryId == s.id;
      forall j | 0 <= j < |bb| && j != k ensures bb[j].surgeryId != s.id {
        if j > k {
          assert bb[k].surgeryId != bb[j].surgeryId;
        }
      }
    }
  }
}

=== FILE: cache.dfy ===
/*
 * The in-memory store the simulator works on: its tables, lookups by id and
 * by attribute, the half-open busy tests, the booking operation with its two
 * consistency checks, and the canonical penalty.
 *
 * Times are whole seconds on an absolute clock; a surgery's duration is in
 * minutes, so a booking starting at `start` ends at `start + 60 * duration`.
 * Attribute lookups are filters over the tables (`Where`), which is what the
 * store's lazily built indexes return.
 */
module Cache {
  import opened Common

  const SecondsPerMinute := 60

  datatype Team = Team(id: int, name: string)
  datatype Room = Room(id: int, name: string)
  datatype Surgery = Surgery(id: int, name: string, duration: int, priority: int)

  /** A capability link: `teamId` may perform `surgeryId`. */
  datatype TeamLink = TeamLink(surgeryId: int, teamId: int)

  /** A capability link: `surgeryId` may take place in `roomId`. */
  datatype RoomLink = RoomLink(surgeryId: int, roomId: int)

  /** A row of the Schedule table. */
  datatype Booking = Booking(start: int, surgeryId: int, roomId: int, teamId: int, fixed: bool)

  /** A row of the EmptySchedule table: a gap left on purpose, `duration` minutes long. */
  datatype EmptySlot = EmptySlot(roomId: int, start: int, duration: int)

  datatype Store = Store(
    teams: seq<Team>,
    rooms: seq<Room>,
    surgeries: seq<Surgery>,
    teamLinks: seq<TeamLink>,
    roomLinks: seq<RoomLink>,
    bookings: seq<Booking>,
    emptySlots: seq<EmptySlot>)

  /*
   * Lookup by id. The store indexes a table with a dictionary built from the
   * rows in order, so when two rows share an id the later one wins.
   */

  /** The last row whose key is `id`, if any. */
  function LastWith<T>(rows: seq<T>, key: T -> int, id: int): (r: Option<T>)
    ensures r.Some? <==> exists i :: 0 <= i < |rows| && key(rows[i]) == id
    ensures r.Some? ==> exists i :: 0 <= i < |rows| && rows[i] == r.value && key(rows[i]) == id &&
                          forall j :: i < j < |rows| ==> key(rows[j]) != id
  {
    if rows == [] then None
    else if key(rows[|rows| - 1]) == id then Some(rows[|rows| - 1])
    else
      var r := LastWith(rows[..|rows| - 1], key, id);
      assert forall i :: 0 <= i < |rows| - 1 ==> rows[..|rows| - 1][i] == rows[i];
      r
  }

  /** `get_by_id` on a table: the row with that id, or ValueError. */
  function GetById<T>(rows: seq<T>, key: T -> int, id: int): (r: Result<T>)
    ensures r.Ok? <==> exists i :: 0 <= i < |rows| && key(rows[i]) == id
    ensures r.Ok? ==> key(r.value) == id && r.value in rows
    ensures r.Err? ==> r.failure.Raised? && r.failure.exc == ValueError
  {
    match LastWith(rows, key, id)
    case Some(row) => Ok(row)
    case None => Err(Raised(ValueError, "ID not found in table"))
  }

  function SurgeryById(st: Store, id: int): (r: Result<Surgery>)
    ensures r.Ok? <==> exists s :: s in st.surgeries && s.id == id
    ensures r.Ok? ==> r.value in st.surgeries && r.value.id == id
  {
    GetById(st.surgeries, (s: Surgery) => s.id, id)
  }

  function RoomById(st: Store, id: int): (r: Result<Room>)
    ensures r.Ok? <==> exists x :: x in st.rooms && x.id == id
    ensures r.Ok? ==> r.value in st.rooms && r.value.id == id
  {
    GetById(st.rooms, (x: Room) => x.id, id)
  }

  /** True when the booking's surgery can be looked up, so its end is known. */
  predicate Known(st: Store, b: Booking) {
    exists s :: s in st.surgeries && s.id == b.surgeryId
  }

  /** The end of a booking, from its surgery's duration; ValueError if the surgery is missing. */
  function EndOf(st: Store, b: Booking): (r: Result<int>)
    ensures r.Ok? <==> Known(st, b)
    ensures r.Ok? ==> exists s :: s in st.surgeries && s.id == b.surgeryId &&
                        r.value == b.start + SecondsPerMinute * s.duration
  {
    var s :- SurgeryById(st, b.surgeryId);
    Ok(b.start + SecondsPerMinute * s.duration)
  }

  /** The booking holds its room and team at `t`: start <= t < end (half-open). */
  predicate Occupies(st: Store, b: Booking, t: int) {
    var e := EndOf(st, b);
    e.Ok? && b.start <= t < e.value
  }

  predicate TeamBusy(st: Store, teamId: int, t: int) {
    exists i :: 0 <= i < |st.bookings| && st.bookings[i].teamId == teamId && Occupies(st, st.bookings[i], t)
  }

  predicate RoomBusy(st: Store, roomId: int, t: int) {
    exists i :: 0 <= i < |st.bookings| && st.bookings[i].roomId == roomId && Occupies(st, st.bookings[i], t)
  }

  predicate AllKnown(st: Store) {
    forall i :: 0 <= i < |st.bookings| ==> Known(st, st.bookings[i])
  }

  /** Scans bookings in order, computing each end before testing it, and stops at the first hit. */
  function AnyOccupies(st: Store, bs: seq<Booking>, t: int): (r: Result<bool>)
    ensures r.Ok? ==> (r.value <==> exists i :: 0 <= i < |bs| && Occupies(st, bs[i], t))
    ensures (forall i :: 0 <= i < |bs| ==> Known(st, bs[i])) ==> r.Ok?
    ensures r.Err? ==> r.failure.Raised? && r.failure.exc == ValueError
  {
    if bs == [] then Ok(false)
    else
      var e :- EndOf(st, bs[0]);
      if bs[0].start <= t < e then Ok(true)
      else
        var r := AnyOccupies(st, bs[1..], t);
        assert forall i :: 1 <= i < |bs| ==> bs[1..][i - 1] == bs[i];
        r
  }

  /** Looking at the filtered bookings finds an occupying one exactly when the whole table has a matching one. */
  lemma WhereOccupies(st: Store, t: int, p: Booking -> bool)
    ensures var bs := Where(st.bookings, p);
            (exists i :: 0 <= i < |bs| && Occupies(st, bs[i], t)) <==>
            (exists i :: 0 <= i < |st.bookings| && p(st.bookings[i]) && Occupies(st, st.bookings[i], t))
    ensures AllKnown(st) ==> var bs := Where(st.bookings, p); forall i :: 0 <= i < |bs| ==> Known(st, bs[i])
  {
    WhereExists(st.bookings, p, (b: Booking) => Occupies(st, b, t));
    if AllKnown(st) {
      WhereAll(st.bookings, p, (b: Booking) => Known(st, b));
    }
  }

  /** `is_team_busy`: some booking of the team covers `t`; false when the team has none. */
  function IsTeamBusy(st: Store, teamId: int, t: int): (r: Result<bool>)
    ensures r.Ok? ==> (r.value <==> TeamBusy(st, teamId, t))
    ensures AllKnown(st) ==> r.Ok?
    ensures r.Err? ==> r.failure.Raised? && r.failure.exc == ValueError
  {
    WhereOccupies(st, t, (b: Booking) => b.teamId == teamId);
    AnyOccupies(st, Where(st.bookings, (b: Booking) => b.teamId == teamId), t)
  }

  /** `is_room_busy`: the same half-open rule, per room. */
  function IsRoomBusy(st: Store, roomId: int, t: int): (r: Result<bool>)
    ensures r.Ok? ==> (r.value <==> RoomBusy(st, roomId, t))
    ensures AllKnown(st) ==> r.Ok?
    ensures r.Err? ==> r.failure.Raised? && r.failure.exc == ValueError
  {
    WhereOccupies(st, t, (b: Booking) => b.roomId == roomId);
    AnyOccupies(st, Where(st.bookings, (b: Booking) => b.roomId == roomId), t)
  }

  function FreeTeams(st: Store, teams: seq<Team>, t: int): (r: Result<seq<Team>>)
    ensures r.Ok? ==> r.value == Where(teams, (x: Team) => !TeamBusy(st, x.id, t))
    ensures AllKnown(st) ==> r.Ok?
    ensures r.Err? ==> r.failure.Raised? && r.failure.exc == ValueError
  {
    if teams == [] then Ok([])
    else
      var busy :- IsTeamBusy(st, teams[0].id, t);
      var rest :- FreeTeams(st, teams[1..], t);
      Ok(if busy then rest else [teams[0]] + rest)
  }

  /** `get_available_teams`: exactly the teams not busy at `t`, in table order. */
  function AvailableTeams(st: Store, t: int): (r: Result<seq<Team>>)
    ensures r.Ok? ==> r.value == Where(st.teams, (x: Team) => !TeamBusy(st, x.id, t))
    ensures r.Ok? ==> forall x :: x in r.value <==> x in st.teams && !TeamBusy(st, x.id, t)
    ensures AllKnown(st) ==> r.Ok?
    ensures r.Err? ==> r.failure.Raised? && r.failure.exc == ValueError
  {
    FreeTeams(st, st.teams, t)
  }

  function FreeRooms(st: Store, rooms: seq<Room>, t: int): (r: Result<seq<Room>>)
    ensures r.Ok? ==> r.value == Where(rooms, (x: Room) => !RoomBusy(st, x.id, t))
    ensures AllKnown(st) ==> r.Ok?
    ensures r.Err? ==> r.failure.Raised? && r.failure.exc == ValueError
  {
    if rooms == [] then Ok([])
    else
      var busy :- IsRoomBusy(st, rooms[0].id, t);
      var rest :- FreeRooms(st, rooms[1..], t);
      Ok(if busy then rest else [rooms[0]] + rest)
  }

  /** `get_available_rooms`: exactly the rooms not busy at `t`, in table order. */
  function AvailableRooms(st: Store, t: int): (r: Result<seq<Room>>)
    ensures r.Ok? ==> r.value == Where(st.rooms, (x: Room) => !RoomBusy(st, x.id, t))
    ensures r.Ok? ==> forall x :: x in r.value <==> x in st.rooms && !RoomBusy(st, x.id, t)
    ensures AllKnown(st) ==> r.Ok?
    ensures r.Err? ==> r.failure.Raised? && r.failure.exc == ValueError
  {
    FreeRooms(st, st.rooms, t)
  }

  /*
   * `_find_surgery_by_time_and_room`, with the store's additional tests on.
   */

  /** What occupies a room at a given time. */
  datatype Found = Surgical(surgery: Surgery, booking: Booking) | Idle(slot: EmptySlot) | Vacant

  predicate Covers(st: Store, b: Booking, roomId: int, t: int) {
    b.roomId == roomId && Occupies(st, b, t)
  }

  predicate SlotCovers(e: EmptySlot, roomId: int, t: int) {
    e.roomId == roomId && e.start <= t < e.start + SecondsPerMinute * e.duration
  }

  /** How many bookings of `bs` cover `t` in the room. */
  function CoverCount(st: Store, bs: seq<Booking>, roomId: int, t: int): nat {
    if bs == [] then 0
    else (if Covers(st, bs[0], roomId, t) then 1 else 0) + CoverCount(st, bs[1..], roomId, t)
  }

  lemma {:induction false} CoverCountZero(st: Store, bs: seq<Booking>, roomId: int, t: int)
    ensures CoverCount(st, bs, roomId, t) == 0 <==> forall i :: 0 <= i < |bs| ==> !Covers(st, bs[i], roomId, t)
  {
    if bs != [] {
      CoverCountZero(st, bs[1..], roomId, t);
      assert forall i :: 1 <= i < |bs| ==> bs[1..][i - 1] == bs[i];
    }
  }

  /** Two bookings that both cover the room at `t` are counted twice. */
  lemma {:induction false} CoverCountTwo(st: Store, bs: seq<Booking>, roomId: int, t: int, i: nat, j: nat)
    requires i < j < |bs| && Covers(st, bs[i], roomId, t) && Covers(st, bs[j], roomId, t)
    ensures CoverCount(st, bs, roomId, t) >= 2
  {
    assert bs[1..][j - 1] == bs[j];
    if i == 0 {
      CoverCountZero(st, bs[1..], roomId, t);
    } else {
      assert bs[1..][i - 1] == bs[i];
      CoverCountTwo(st, bs[1..], roomId, t, i - 1, j - 1);
    }
  }

  predicate RoomKnown(st: Store, bs: seq<Booking>, roomId: int) {
    forall i :: 0 <= i < |bs| ==> bs[i].roomId == roomId ==> Known(st, bs[i])
  }

  /** The booking scan: remembers the first cover and stops the run at a second one. */
  function ScanCover(st: Store, bs: seq<Booking>, roomId: int, t: int, prev: Option<(Surgery, Booking)>)
    : (r: Result<Option<(Surgery, Booking)>>)
    ensures RoomKnown(st, bs, roomId) ==>
              (r.Err? <==> (if prev.Some? then 1 else 0) + CoverCount(st, bs, roomId, t) >= 2)
    ensures r.Err? ==> r.failure.Exit? || r.failure == Raised(ValueError, "ID not found in table")
    ensures r.Ok? ==> (r.value.None? <==> prev.None? && CoverCount(st, bs, roomId, t) == 0)
    ensures r.Ok? && prev.Some? ==> r.value == prev && CoverCount(st, bs, roomId, t) == 0
    ensures r.Ok? && prev.None? && r.value.Some? ==>
              CoverCount(st, bs, roomId, t) == 1 && r.value.value.1 in bs &&
              Covers(st, r.value.value.1, roomId, t) && r.value.value.0.id == r.value.value.1.surgeryId &&
              r.value.value.0 in st.surgeries
  {
    if bs == [] then Ok(prev)
    else
      var b := bs[0];
      assert forall i :: 1 <= i < |bs| ==> bs[1..][i - 1] == bs[i];
      if b.roomId != roomId then ScanCover(st, bs[1..], roomId, t, prev)
      else
        var s :- SurgeryById(st, b.surgeryId);
        if b.start <= t < b.start + SecondsPerMinute * s.duration then
          if prev.Some? then Err(Exit("More than one surgery found for the room at that time"))
          else ScanCover(st, bs[1..], roomId, t, Some((s, b)))
        else ScanCover(st, bs[1..], roomId, t, prev)
  }

  /** The first empty slot of the room at or after position `k` that covers `t`. */
  function FirstSlotFrom(slots: seq<EmptySlot>, roomId: int, t: int, k: nat): (r: Option<EmptySlot>)
    requires k <= |slots|
    ensures r.None? <==> forall i :: k <= i < |slots| ==> !SlotCovers(slots[i], roomId, t)
    ensures r.Some? ==> exists i :: k <= i < |slots| && slots[i] == r.value && SlotCovers(r.value, roomId, t) &&
                          forall j :: k <= j < i ==> !SlotCovers(slots[j], roomId, t)
    decreases |slots| - k
  {
    if k == |slots| then None
    else if SlotCovers(slots[k], roomId, t) then Some(slots[k])
    else FirstSlotFrom(slots, roomId, t, k + 1)
  }

  /**
   * What occupies `room` at `t`: the one covering booking, else the first
   * covering empty slot, else nothing. Two covering bookings stop the run.
   */
  function FindByTimeAndRoom(st: Store, t: int, room: Room): (r: Result<Found>)
    ensures RoomKnown(st, st.bookings, room.id) ==>
              (r.Err? <==> CoverCount(st, st.bookings, room.id, t) >= 2)
    ensures r.Err? ==> r.failure.Exit? || r.failure.Raised?
    ensures r.Ok? && r.value.Surgical? ==>
              CoverCount(st, st.bookings, room.id, t) == 1 && r.value.booking in st.bookings &&
              Covers(st, r.value.booking, room.id, t) && r.value.surgery.id == r.value.booking.surgeryId
    ensures r.Ok? && !r.value.Surgical? ==>
              forall i :: 0 <= i < |st.bookings| ==> !Covers(st, st.bookings[i], room.id, t)
    ensures r.Ok? && r.value.Idle? ==>
              exists i :: 0 <= i < |st.emptySlots| && st.emptySlots[i] == r.value.slot &&
                SlotCovers(r.value.slot, room.id, t) &&
                forall j :: 0 <= j < i ==> !SlotCovers(st.emptySlots[j], room.id, t)
    ensures r.Ok? && r.value.Vacant? ==>
              forall i :: 0 <= i < |st.emptySlots| ==> !SlotCovers(st.emptySlots[i], room.id, t)
  {
    var hit :- ScanCover(st, st.bookings, room.id, t, None);
    match hit
    case Some((s, b)) => Ok(Surgical(s, b))
    case None =>
      CoverCountZero(st, st.bookings, room.id, t);
      match FirstSlotFrom(st.emptySlots, room.id, t, 0)
      case Some(e) => Ok(Idle(e))
      case None => Ok(Vacant)
  }

  /*
   * The canonical penalty.
   */

  /** Whole minutes waited by a booking starting at `start`; zero unless it starts after `zero`. */
  function WaitMinutes(start: int, zero: int): (w: nat)
    ensures start <= zero ==> w == 0
    ensures start > zero ==> SecondsPerMinute * w <= start - zero < SecondsPerMinute * (w + 1)
  {
    if start - zero > 0 then (start - zero) / SecondsPerMinute else 0
  }

  /** The waiting minutes of a list of bookings. */
  function TotalWait(bs: seq<Booking>, zero: int): nat {
    if bs == [] then 0 else WaitMinutes(bs[0].start, zero) + TotalWait(bs[1..], zero)
  }

  /** The per-room subtotals, summed over the given rooms. */
  function PerRoomWait(rooms: seq<Room>, bs: seq<Booking>, zero: int): nat {
    if rooms == [] then 0
    else TotalWait(Where(bs, (b: Booking) => b.roomId == rooms[0].id), zero) + PerRoomWait(rooms[1..], bs, zero)
  }

  /** `calculate_punishment`: there must be a room; no bookings means no penalty. */
  function CalculatePunishment(st: Store, zero: int): (r: Result<int>)
    ensures r.Err? <==> st.rooms == []
    ensures r.Err? ==> r.failure.Raised? && r.failure.exc == AssertionError
    ensures st.rooms != [] && st.bookings == [] ==> r == Ok(0)
    ensures r.Ok? ==> r.value >= 0
  {
    if st.rooms == [] then Err(Raised(AssertionError, "No rooms found in cache."))
    else if st.bookings == [] then Ok(0)
    else Ok(PerRoomWait(st.rooms, st.bookings, zero))
  }

  predicate DistinctRoomIds(rooms: seq<Room>) {
    forall i, j :: 0 <= i < j < |rooms| ==> rooms[i].id != rooms[j].id
  }

  predicate HasRoom(rooms: seq<Room>, id: int) {
    exists i :: 0 <= i < |rooms| && rooms[i].id == id
  }

  lemma {:induction false} TotalWaitAppend(a: seq<Booking>, b: seq<Booking>, zero: int)
    ensures TotalWait(a + b, zero) == TotalWait(a, zero) + TotalWait(b, zero)
  {
    if a == [] {
      assert a + b == b;
    } else {
      assert (a + b)[1..] == a[1..] + b;
      TotalWaitAppend(a[1..], b, zero);
    }
  }

  /** Adding one booking adds its wait to exactly the room that carries its id. */
  lemma {:induction false} PerRoomWaitSnoc(rooms: seq<Room>, bs: seq<Booking>, b: Booking, zero: int)
    requires DistinctRoomIds(rooms)
    ensures PerRoomWait(rooms, bs + [b], zero) ==
              PerRoomWait(rooms, bs, zero) + (if HasRoom(rooms, b.roomId) then WaitMinutes(b.start, zero) else 0)
  {
    if rooms != [] {
      var p := (x: Booking) => x.roomId == rooms[0].id;
      WhereAppend(bs, [b], p);
      TotalWaitAppend(Where(bs, p), Where([b], p), zero);
      assert Where([b], p) == (if p(b) then [b] else []) + Where([b][1..], p);
      PerRoomWaitSnoc(rooms[1..], bs, b, zero);
      if rooms[0].id == b.roomId {
        assert !HasRoom(rooms[1..], b.roomId) by {
          forall i | 0 <= i < |rooms[1..]| ensures rooms[1..][i].id != b.roomId {
            assert rooms[1..][i] == rooms[i + 1];
          }
        }
      } else {
        assert HasRoom(rooms, b.roomId) <==> HasRoom(rooms[1..], b.roomId) by {
          if HasRoom(rooms, b.roomId) {
            var i :| 0 <= i < |rooms| && rooms[i].id == b.roomId;
            assert rooms[1..][i - 1] == rooms[i];
          }
          if HasRoom(rooms[1..], b.roomId) {
            var i :| 0 <= i < |rooms[1..]| && rooms[1..][i].id == b.roomId;
            assert rooms[i + 1] == rooms[1..][i];
          }
        }
      }
    }
  }

  /**
   * With distinct room ids and every booking in a known room, the penalty is
   * the plain sum of waiting minutes over all bookings.
   */
  lemma {:induction false} PunishmentIsTotalWait(st: Store, zero: int)
    requires st.rooms != []
    requires DistinctRoomIds(st.rooms)
    requires forall i :: 0 <= i < |st.bookings| ==> HasRoom(st.rooms, st.bookings[i].roomId)
    ensures CalculatePunishment(st, zero) == Ok(TotalWait(st.bookings, zero))
  {
    PerRoomWaitIsTotal(st.rooms, st.bookings, zero);
  }

  lemma {:induction false} PerRoomWaitIsTotal(rooms: seq<Room>, bs: seq<Booking>, zero: int)
    requires DistinctRoomIds(rooms)
    requires forall i :: 0 <= i < |bs| ==> HasRoom(rooms, bs[i].roomId)
    ensures PerRoomWait(rooms, bs, zero) == TotalWait(bs, zero)
  {
    if bs == [] {
      PerRoomWaitEmpty(rooms, zero);
    } else {
      var init := bs[..|bs| - 1];
      var last := bs[|bs| - 1];
      assert bs == init + [last];
      assert forall i :: 0 <= i < |init| ==> init[i] == bs[i];
      PerRoomWaitIsTotal(rooms, init, zero);
      PerRoomWaitSnoc(rooms, init, last, zero);
      TotalWaitAppend(init, [last], zero);
    }
  }

  lemma {:induction false} PerRoomWaitEmpty(rooms: seq<Room>, zero: int)
    ensures PerRoomWait(rooms, [], zero) == 0
  {
    if rooms != [] {
      PerRoomWaitEmpty(rooms[1..], zero);
    }
  }

  /*
   * `register_surgery` and its two checks.
   */

  predicate AlreadyBooked(st: Store, surgeryId: int) {
    exists i :: 0 <= i < |st.bookings| && st.bookings[i].surgeryId == surgeryId
  }

  /** The overlap test as the store writes it: the new start, or the new end, strictly inside `b`. */
  predicate WeakClash(st: Store, b: Booking, start: int, duration: int) {
    var e := EndOf(st, b);
    e.Ok? && ((b.start < start < e.value) || (b.start < start + SecondsPerMinute * duration < e.value))
  }

  /** `check_superposition`: scans the room's bookings in order and stops the run at the first clash. */
  function CheckSuperposition(st: Store, bs: seq<Booking>, roomId: int, start: int, duration: int): (r: Result<()>)
    ensures (forall i :: 0 <= i < |bs| ==> bs[i].roomId == roomId ==> Known(st, bs[i]) && !WeakClash(st, bs[i], start, duration))
            <==> r.Ok?
    ensures r.Err? ==> r.failure.Exit? || r.failure.Raised?
  {
    if bs == [] then Ok(())
    else
      assert forall i :: 1 <= i < |bs| ==> bs[1..][i - 1] == bs[i];
      if bs[0].roomId != roomId then CheckSuperposition(st, bs[1..], roomId, start, duration)
      else
        var e :- EndOf(st, bs[0]);
        if (bs[0].start < start < e) || (bs[0].start < start + SecondsPerMinute * duration < e) then
          Err(Exit("this surgery overlaps with another surgery"))
        else CheckSuperposition(st, bs[1..], roomId, start, duration)
  }

  /** The booking `register_surgery` appends. */
  function NewBooking(s: Surgery, team: Team, room: Room, start: int): Booking {
    Booking(start, s.id, room.id, team.id, false)
  }

  /**
   * `register_surgery`: stops the run if the surgery already has a booking or
   * the weak overlap test fires; otherwise appends exactly one non-fixed
   * booking and changes nothing else.
   */
  function RegisterSurgery(st: Store, s: Surgery, team: Team, room: Room, start: int): (r: Result<Store>)
    ensures AlreadyBooked(st, s.id) ==> r.Err? && r.failure.Exit?
    ensures r.Ok? <==>
              !AlreadyBooked(st, s.id) &&
              forall i :: 0 <= i < |st.bookings| ==> st.bookings[i].roomId == room.id ==>
                Known(st, st.bookings[i]) && !WeakClash(st, st.bookings[i], start, s.duration)
    ensures r.Ok? ==> r.value.bookings == st.bookings + [Booking(start, s.id, room.id, team.id, false)]
    ensures r.Ok? ==> r.value == st.(bookings := r.value.bookings)
  {
    if AlreadyBooked(st, s.id) then Err(Exit("this surgery is already scheduled"))
    else
      var _ :- CheckSuperposition(st, st.bookings, room.id, start, s.duration);
      Ok(st.(bookings := st.bookings + [NewBooking(s, team, room, start)]))
  }

  /**
   * After a booking, every attribute lookup of the Schedule table returns
   * what it returned before followed by the new booking when it matches.
   */
  lemma RegisteredIsIndexed(st: Store, s: Surgery, team: Team, room: Room, start: int, p: Booking -> bool)
    requires RegisterSurgery(st, s, team, room, start).Ok?
    ensures var st' := RegisterSurgery(st, s, team, room, start).value;
            var nb := NewBooking(s, team, room, start);
            Where(st'.bookings, p) == Where(st.bookings, p) + (if p(nb) then [nb] else [])
  {
    var nb := NewBooking(s, team, room, start);
    WhereAppend(st.bookings, [nb], p);
    assert Where([nb], p) == (if p(nb) then [nb] else []) + Where([nb][1..], p);
  }

  /** The surgery's lookup by `surgery_id` holds just the new booking afterwards. */
  lemma RegisteredIsOnlyBooking(st: Store, s: Surgery, team: Team, room: Room, start: int)
    requires RegisterSurgery(st, s, team, room, start).Ok?
    ensures Where(RegisterSurgery(st, s, team, room, start).value.bookings, (b: Booking) => b.surgeryId == s.id)
            == [NewBooking(s, team, room, start)]
  {
    var p := (b: Booking) => b.surgeryId == s.id;
    RegisteredIsIndexed(st, s, team, room, start, p);
    WhereNone(st.bookings, p);
  }

  /**
   * The overlap test misses a longer booking with the same start: the room
   * then holds two bookings covering the same instant.
   */
  lemma SuperpositionMissesEqualStart()
    ensures var a := Surgery(0, "A", 30, 1);
            var b := Surgery(1, "B", 60, 1);
            var st := Store([Team(0, "T")], [Room(0, "R")], [a, b], [], [], [Booking(0, 0, 0, 0, false)], []);
            var r := RegisterSurgery(st, b, Team(0, "T"), Room(0, "R"), 0);
            r.Ok? && CoverCount(r.value, r.value.bookings, 0, 0) == 2
  {
    var a := Surgery(0, "A", 30, 1);
    var b := Surgery(1, "B", 60, 1);
    var st := Store([Team(0, "T")], [Room(0, "R")], [a, b], [], [], [Booking(0, 0, 0, 0, false)], []);
    assert SurgeryById(st, 0) == Ok(a);
    assert SurgeryById(st, 1) == Ok(b);
    assert EndOf(st, st.bookings[0]) == Ok(st.bookings[0].start + SecondsPerMinute * a.duration);
    assert !WeakClash(st, st.bookings[0], 0, b.duration);
    assert !AlreadyBooked(st, b.id);
    assert Known(st, st.bookings[0]) by { assert a in st.surgeries; }
    var r := RegisterSurgery(st, b, Team(0, "T"), Room(0, "R"), 0);
    assert r.value.bookings == [Booking(0, 0, 0, 0, false), Booking(0, 1, 0, 0, false)];
    assert r.value.surgeries == st.surgeries;
    assert Occupies(r.value, r.value.bookings[0], 0);
    assert Occupies(r.value, r.value.bookings[1], 0);
    assert r.value.bookings[1..][1..] == [];
    assert Covers(r.value, r.value.bookings[1..][0], 0, 0);
    assert CoverCount(r.value, r.value.bookings[1..], 0, 0) == 1;
  }

  /** The overlap test also misses a new booking that strictly contains an existing one. */
  lemma SuperpositionMissesContainment()
    ensures var a := Surgery(0, "A", 10, 1);
            var b := Surgery(1, "B", 60, 1);
            var st := Store([Team(0, "T")], [Room(0, "R")], [a, b], [], [], [Booking(600, 0, 0, 0, false)], []);
            var r := RegisterSurgery(st, b, Team(0, "T"), Room(0, "R"), 0);
            r.Ok? && CoverCount(r.value, r.value.bookings, 0, 600) == 2
  {
    var a := Surgery(0, "A", 10, 1);
    var b := Surgery(1, "B", 60, 1);
    var st := Store([Team(0, "T")], [Room(0, "R")], [a, b], [], [], [Booking(600, 0, 0, 0, false)], []);
    assert SurgeryById(st, 0) == Ok(a);
    assert SurgeryById(st, 1) == Ok(b);
    assert EndOf(st, st.bookings[0]) == Ok(st.bookings[0].start + SecondsPerMinute * a.duration);
    assert !WeakClash(st, st.bookings[0], 0, b.duration);
    assert !AlreadyBooked(st, b.id);
    assert Known(st, st.bookings[0]) by { assert a in st.surgeries; }
    var r := RegisterSurgery(st, b, Team(0, "T"), Room(0, "R"), 0);
    assert r.value.bookings == [Booking(600, 0, 0, 0, false), Booking(0, 1, 0, 0, false)];
    assert r.value.surgeries == st.surgeries;
    assert Occupies(r.value, r.value.bookings[0], 600);
    assert Occupies(r.value, r.value.bookings[1], 600);
    assert r.value.bookings[1..][1..] == [];
    assert Covers(r.value, r.value.bookings[1..][0], 0, 600);
    assert CoverCount(r.value, r.value.bookings[1..], 0, 600) == 1;
  }
}

=== FILE: common.dfy ===
/*
 * Failure-carrying results and small sequence helpers shared by every module
 * of the scheduling model.
 */
module Common {

  /** The conventional Some/None datatype. */
  datatype Option<+T> = None | Some(value: T)

  /** The Python exception classes the modelled code can raise. */
  datatype Exc =
    | AssertionError
    | ValueError
    | IndexError
    | AttributeError
    | TypeError
    | ZeroDivisionError
    | Exception           // a bare `raise Exception(...)`

  /** How a modelled call can fail. */
  datatype Failure =
    | Raised(exc: Exc, msg: string)   // an exception that `except Exception` catches
    | Exit(msg: string)               // quit(): SystemExit, which `except Exception` lets through
    | OutOfFuel                       // the model's bound on simulation steps ran out

  /** A value or the failure that stopped its computation. */
  datatype Result<+T> = Ok(value: T) | Err(failure: Failure) {
    predicate IsFailure() {
      Err?
    }

    function PropagateFailure<U>(): Result<U>
      requires Err?
    {
      Err(failure)
    }

    function Extract(): T
      requires Ok?
    {
      value
    }
  }

  /** True when the failure is one that `except Exception` would catch. */
  predicate IsException(f: Failure) {
    f.Raised?
  }

  /** The elements of `xs` that satisfy `p`, in their original order. */
  function Where<T(!new)>(xs: seq<T>, p: T -> bool): (r: seq<T>)
    ensures |r| <= |xs|
    ensures forall x :: x in r <==> x in xs && p(x)
  {
    if xs == [] then []
    else (if p(xs[0]) then [xs[0]] else []) + Where(xs[1..], p)
  }

  /** Filtering distributes over concatenation, so `Where` keeps the order of its input. */
  lemma {:induction false} WhereAppend<T(!new)>(a: seq<T>, b: seq<T>, p: T -> bool)
    ensures Where(a + b, p) == Where(a, p) + Where(b, p)
  {
    if a == [] {
      assert a + b == b;
    } else {
      assert (a + b)[1..] == a[1..] + b;
      WhereAppend(a[1..], b, p);
    }
  }

  /**
   * Each element `Where` keeps comes from some position of its input, and
   * what it kept before that element is exactly what the input's prefix up
   * to that position keeps.
   */
  lemma {:induction false} WhereIndex<T(!new)>(xs: seq<T>, p: T -> bool, i: nat)
    requires i < |Where(xs, p)|
    ensures exists k :: 0 <= k < |xs| && xs[k] == Where(xs, p)[i] && Where(xs[..k], p) == Where(xs, p)[..i]
  {
    var n := |xs|;
    var init := xs[..n - 1];
    assert xs == init + [xs[n - 1]];
    WhereAppend(init, [xs[n - 1]], p);
    var w, w0 := Where(xs, p), Where(init, p);
    assert w[..|w0|] == w0;
    if i < |w0| {
      WhereIndex(init, p, i);
      var k :| 0 <= k < |init| && init[k] == w0[i] && Where(init[..k], p) == w0[..i];
      assert init[..k] == xs[..k] && w[i] == w0[i] && w0[..i] == w[..i];
      assert 0 <= k < |xs| && xs[k] == w[i] && Where(xs[..k], p) == w[..i];
    } else {
      assert xs[..n - 1] == init && w[i] == xs[n - 1];
      assert 0 <= n - 1 < |xs| && xs[n - 1] == w[i] && Where(xs[..n - 1], p) == w[..i];
    }
  }

  /** Nothing passes the filter when no element satisfies the predicate. */
  lemma {:induction false} WhereNone<T(!new)>(xs: seq<T>, p: T -> bool)
    requires forall i :: 0 <= i < |xs| ==> !p(xs[i])
    ensures Where(xs, p) == []
  {
    if xs != [] {
      WhereNone(xs[1..], p);
    }
  }

  /** The head of a filter is the first element that passes it. */
  lemma {:induction false} WhereHead<T(!new)>(xs: seq<T>, p: T -> bool)
    requires Where(xs, p) != []
    ensures exists i :: 0 <= i < |xs| && xs[i] == Where(xs, p)[0] && p(xs[i]) && forall j :: 0 <= j < i ==> !p(xs[j])
  {
    if !p(xs[0]) {
      WhereHead(xs[1..], p);
      var i :| 0 <= i < |xs[1..]| && xs[1..][i] == Where(xs[1..], p)[0] && p(xs[1..][i]) &&
               forall j :: 0 <= j < i ==> !p(xs[1..][j]);
      assert xs[i + 1] == Where(xs, p)[0];
    }
  }

  /** Some element of the filter satisfies `q` exactly when some element of the input satisfies both `p` and `q`. */
  lemma WhereExists<T(!new)>(xs: seq<T>, p: T -> bool, q: T -> bool)
    ensures (exists i :: 0 <= i < |Where(xs, p)| && q(Where(xs, p)[i])) <==>
            (exists i :: 0 <= i < |xs| && p(xs[i]) && q(xs[i]))
  {
    var bs := Where(xs, p);
    if exists i :: 0 <= i < |bs| && q(bs[i]) {
      var i :| 0 <= i < |bs| && q(bs[i]);
      assert bs[i] in xs && p(bs[i]);
      var j :| 0 <= j < |xs| && xs[j] == bs[i];
      assert p(xs[j]) && q(xs[j]);
    }
    if exists i :: 0 <= i < |xs| && p(xs[i]) && q(xs[i]) {
      var i :| 0 <= i < |xs| && p(xs[i]) && q(xs[i]);
      assert xs[i] in bs;
      var j :| 0 <= j < |bs| && bs[j] == xs[i];
      assert 0 <= j < |Where(xs, p)| && q(Where(xs, p)[j]);
    }
  }

  /** What holds of every element of the input holds of every element of the filter. */
  lemma WhereAll<T(!new)>(xs: seq<T>, p: T -> bool, q: T -> bool)
    requires forall i :: 0 <= i < |xs| ==> q(xs[i])
    ensures forall i :: 0 <= i < |Where(xs, p)| ==> q(Where(xs, p)[i])
  {
    var bs := Where(xs, p);
    forall i | 0 <= i < |bs| ensures q(bs[i]) {
      assert bs[i] in xs;
      var j :| 0 <= j < |xs| && xs[j] == bs[i];
    }
  }

  /** The index of the first occurrence of `x` in `xs`. */
  function IndexOf<T(==)>(xs: seq<T>, x: T): (i: nat)
    requires x in xs
    ensures i < |xs| && xs[i] == x
    ensures forall j :: 0 <= j < i ==> xs[j] != x
  {
    if xs[0] == x then 0 else 1 + IndexOf(xs[1..], x)
  }

  /** Python's `list.remove(x)`: drops the first occurrence, or raises ValueError. */
  function RemoveFirst<T(==)>(xs: seq<T>, x: T): (r: Result<seq<T>>)
    ensures r.Ok? <==> x in xs
    ensures r.Err? ==> r.failure.Raised? && r.failure.exc == ValueError
    ensures r.Ok? ==> |r.value| == |xs| - 1 && multiset(r.value) == multiset(xs) - multiset{x}
  {
    if x !in xs then Err(Raised(ValueError, "list.remove(x): x not in list"))
    else
      var i := IndexOf(xs, x);
      assert xs == xs[..i] + [xs[i]] + xs[i + 1..];
      Ok(xs[..i] + xs[i + 1..])
  }

  /** What is left after `list.remove` was all in the list before. */
  lemma RemoveFirstKeeps<T>(xs: seq<T>, x: T)
    requires x in xs
    ensures forall y :: y in RemoveFirst(xs, x).value ==> y in xs
  {
    var ys := RemoveFirst(xs, x).value;
    forall y | y in ys ensures y in xs {
      assert y in multiset(ys);
    }
  }

  /** Python's subscript `xs[i]`, where a negative index counts from the end. */
  function PyIndex<T>(xs: seq<T>, i: int): (r: Result<T>)
    ensures r.Ok? <==> -|xs| <= i < |xs|
    ensures 0 <= i < |xs| ==> r == Ok(xs[i])
    ensures -|xs| <= i < 0 ==> r == Ok(xs[|xs| + i])
    ensures r.Err? ==> r.failure == Raised(IndexError, "list index out of range")
  {
    if 0 <= i < |xs| then Ok(xs[i])
    else if -|xs| <= i < 0 then Ok(xs[|xs| + i])
    else Err(Raised(IndexError, "list index out of range"))
  }

  /** The largest element of a non-empty sequence. */
  function MaxOf(xs: seq<int>): (m: int)
    requires |xs| > 0
    ensures m in xs
    ensures forall i :: 0 <= i < |xs| ==> xs[i] <= m
  {
    if |xs| == 1 then xs[0]
    else
      var rest := MaxOf(xs[1..]);
      if xs[0] >= rest then xs[0] else rest
  }

  /**
   * The position of the first element with the smallest key: what
   * `sorted(xs, key=key)[0]` picks, since Python's sort is stable.
   */
  function FirstMinIndex<T>(xs: seq<T>, key: T -> real): (i: nat)
    requires |xs| > 0
    ensures i < |xs|
    ensures forall j :: 0 <= j < |xs| ==> key(xs[i]) <= key(xs[j])
    ensures forall j :: 0 <= j < i ==> key(xs[j]) > key(xs[i])
  {
    if |xs| == 1 then 0
    else
      var k := FirstMinIndex(xs[..|xs| - 1], key);
      assert forall j :: 0 <= j < |xs| - 1 ==> xs[..|xs| - 1][j] == xs[j];
      if key(xs[|xs| - 1]) < key(xs[k]) then |xs| - 1 else k
  }

  /** The sum of a sequence of integers. */
  function SumOf(xs: seq<int>): int {
    if xs == [] then 0 else xs[0] + SumOf(xs[1..])
  }

  lemma {:induction false} SumOfAppend(a: seq<int>, b: seq<int>)
    ensures SumOf(a + b) == SumOf(a) + SumOf(b)
  {
    if a == [] {
      assert a + b == b;
    } else {
      assert (a + b)[1..] == a[1..] + b;
      SumOfAppend(a[1..], b);
    }
  }
}

=== FILE: execute.dfy ===
/*
 * A whole simulation run: the builder's construction, the loop over
 * vacancies with its per-step display probe and duplicate test, and the
 * checks that close the run.
 */
module Execution {
  import opened Common
  import opened Cache
  import opened Selection
  import opened Frontier
  import opened Builder

  /*
   * The display probe. The run renders what every room holds at a time; the
   * rendering is not modelled, but the lookups behind it can stop the run.
   */

  /** Every booking's team is in the Team table. */
  predicate TeamsKnown(st: Store) {
    forall i :: 0 <= i < |st.bookings| ==> exists x :: x in st.teams && x.id == st.bookings[i].teamId
  }

  /** No room of `rooms` holds two bookings at `t`. */
  predicate SingleCover(st: Store, rooms: seq<Room>, t: int) {
    forall i :: 0 <= i < |rooms| ==> CoverCount(st, st.bookings, rooms[i].id, t) <= 1
  }

  function DisplayRooms(st: Store, rooms: seq<Room>, t: int): (r: Result<()>)
    ensures AllKnown(st) && TeamsKnown(st) ==> (r.Ok? <==> SingleCover(st, rooms, t))
  {
    if rooms == [] then Ok(())
    else
      assert forall i :: 1 <= i < |rooms| ==> rooms[1..][i - 1] == rooms[i];
      var found :- FindByTimeAndRoom(st, t, rooms[0]);
      var _ :- match found
               case Surgical(_, b) =>
                 var team :- GetById(st.teams, (x: Team) => x.id, b.teamId);
                 Ok(())
               case _ => Ok(());
      DisplayRooms(st, rooms[1..], t)
  }

  /**
   * `get_dict_surgeries_by_time` as a probe: it needs a booking to exist,
   * and it stops the run when a room holds two bookings at `t`.
   */
  function DisplayAt(st: Store, t: int): (r: Result<()>)
    ensures st.bookings == [] ==> r == Err(Raised(AssertionError, "No schedules found in cache."))
    ensures st.bookings != [] && AllKnown(st) && TeamsKnown(st) ==> (r.Ok? <==> SingleCover(st, st.rooms, t))
  {
    if st.bookings == [] then Err(Raised(AssertionError, "No schedules found in cache."))
    else DisplayRooms(st, st.rooms, t)
  }

  /** The probe at each of the times `ts`, in order. */
  function DisplayTimes(st: Store, ts: seq<int>): (r: Result<()>)
    ensures st.bookings != [] && AllKnown(st) && TeamsKnown(st) ==>
              (r.Ok? <==> forall i :: 0 <= i < |ts| ==> SingleCover(st, st.rooms, ts[i]))
  {
    if ts == [] then Ok(())
    else
      assert forall i :: 1 <= i < |ts| ==> ts[1..][i - 1] == ts[i];
      var _ :- DisplayAt(st, ts[0]);
      DisplayTimes(st, ts[1..])
  }

  /** The closing rendering: the probe at every booking's start, then at every empty slot's start. */
  function FinalDisplay(st: Store): (r: Result<()>)
    ensures st.bookings != [] && AllKnown(st) && TeamsKnown(st) ==>
              (r.Ok? <==> (forall i :: 0 <= i < |st.bookings| ==> SingleCover(st, st.rooms, st.bookings[i].start)) &&
                          (forall i :: 0 <= i < |st.emptySlots| ==> SingleCover(st, st.rooms, st.emptySlots[i].start)))
  {
    var bs := seq(|st.bookings|, i requires 0 <= i < |st.bookings| => st.bookings[i].start);
    var es := seq(|st.emptySlots|, i requires 0 <= i < |st.emptySlots| => st.emptySlots[i].start);
    assert forall i :: 0 <= i < |bs| ==> bs[i] == st.bookings[i].start;
    assert forall i :: 0 <= i < |es| ==> es[i] == st.emptySlots[i].start;
    var _ :- DisplayTimes(st, bs);
    DisplayTimes(st, es)
  }

  /** No two bookings in a room of the Room table occupy it at the same time. */
  ghost predicate NoOverlap(st: Store) {
    forall i, j, t :: 0 <= i < j < |st.bookings| && st.bookings[i].roomId == st.bookings[j].roomId &&
                      HasRoom(st.rooms, st.bookings[i].roomId) && Occupies(st, st.bookings[i], t) ==>
                        !Occupies(st, st.bookings[j], t)
  }

  /**
   * The closing rendering passes only if no room is double-booked: two
   * bookings overlapping in a room both cover it at the later of their two
   * starts, and the rendering probes every booking's start.
   */
  lemma FinalNoOverlap(st: Store)
    requires forall i :: 0 <= i < |st.bookings| ==> SingleCover(st, st.rooms, st.bookings[i].start)
    ensures NoOverlap(st)
  {
    var bs := st.bookings;
    forall i, j, t | 0 <= i < j < |bs| && bs[i].roomId == bs[j].roomId && HasRoom(st.rooms, bs[i].roomId) &&
                     Occupies(st, bs[i], t)
      ensures !Occupies(st, bs[j], t)
    {
      if Occupies(st, bs[j], t) {
        var m := if bs[i].start <= bs[j].start then bs[j].start else bs[i].start;
        var q :| 0 <= q < |st.rooms| && st.rooms[q].id == bs[i].roomId;
        assert Covers(st, bs[i], st.rooms[q].id, m) && Covers(st, bs[j], st.rooms[q].id, m);
        CoverCountTwo(st, bs, st.rooms[q].id, m, i, j);
        assert false;
      }
    }
  }

  /** `check_remaining_surgeries`: every surgery of the Surgery table must have a booking. */
  function CheckRemainingSurgeries(st: Store): (r: Result<()>)
    ensures r.Ok? <==> forall i :: 0 <= i < |st.surgeries| ==> HasBooking(st, st.surgeries[i].id)
    ensures r.Err? ==> r.failure.Exit?
  {
    if forall i | 0 <= i < |st.surgeries| :: HasBooking(st, st.surgeries[i].id) then Ok(())
    else Err(Exit("this surgery wasn't scheduled"))
  }

  /*
   * Construction and the loop.
   */

  /**
   * The builder's constructor, with the extensions' own initialisation: the
   * first vacancy is the first room free at `zero` at time `zero`; nothing is
   * considered or finished yet; every fixed booking starts out disregarded.
   * `lastVacancy` is the vacancy the previous run served last.
   */
  function New(st: Store, surgeries: seq<Surgery>, zero: int, features: Features, lastVacancy: Option<Vacancy>)
    : (r: Result<Run>)
    ensures AllKnown(st) ==> (r.Ok? <==> exists x :: x in st.rooms && !RoomBusy(st, x.id, zero))
    ensures r.Err? ==> r.failure.Raised? && r.failure.exc == ValueError
    ensures r.Ok? ==>
              var run := r.value;
              run.st == st && run.remaining == surgeries && run.step == 0 && run.zero == zero &&
              run.features == features && run.nextTime == zero && run.lastVacancy == lastVacancy &&
              (exists i :: 0 <= i < |st.rooms| && st.rooms[i] == run.nextRoom && !RoomBusy(st, run.nextRoom.id, zero) &&
                 forall j :: 0 <= j < i ==> RoomBusy(st, st.rooms[j].id, zero)) &&
              run.fixedConsidered == [] && run.emptyConsidered == [] && run.finished == [] &&
              (forall b :: b in run.fixedDisregarded <==> b in st.bookings && b.fixed)
  {
    var free :- AvailableRooms(st, zero);
    if free == [] then Err(Raised(ValueError, "No rooms available at the start time"))
    else
      WhereHead(st.rooms, (x: Room) => !RoomBusy(st, x.id, zero));
      Ok(Run(st, features, zero, surgeries, 0, [], zero, free[0], [], [], [], Where(st.bookings, (b: Booking) => b.fixed), [],
             lastVacancy))
  }

  /** `get_next_vacancies` of the builder or of the fixed-bookings extension. */
  function Vacancies(run: Run): Result<seq<Vacancy>> {
    if run.features.fixedSchedules then FixedVacancies(run.st, run.zero, run.fixedConsidered, run.emptyConsidered)
    else BaseVacancies(run.st, run.zero)
  }

  /**
   * `get_next_vacany`: the earliest vacancy becomes the current one; the
   * run stops when it equals the one served last.
   */
  function Advance(run: Run): (r: Result<Run>)
    ensures r.Ok? <==> Vacancies(run).Ok? && EarliestVacancy(Vacancies(run).value).Ok? &&
                       run.lastVacancy != Some(EarliestVacancy(Vacancies(run).value).value)
    ensures Vacancies(run).Ok? && EarliestVacancy(Vacancies(run).value).Ok? &&
            run.lastVacancy == Some(EarliestVacancy(Vacancies(run).value).value) ==>
              r == Err(Raised(ValueError, "Duplicate vacancy"))
    ensures r.Ok? ==>
              var v := EarliestVacancy(Vacancies(run).value).value;
              r.value == run.(nextRoom := v.room, nextTime := v.time, lastVacancy := Some(v)) && Grows(run, r.value)
  {
    var vacs :- Vacancies(run);
    var v :- EarliestVacancy(vacs);
    var v' :- CheckDuplicate(run.lastVacancy, v);
    var r := run.(nextRoom := v.room, nextTime := v.time, lastVacancy := Some(v));
    GrowsRefl(run, r);
    Ok(r)
  }

  /** A room step followed by the display probe at the (possibly moved) vacancy. */
  function ProcessAndShow(run: Run, fuel: nat): (r: Result<Run>)
    ensures r.Ok? ==> Grows(run, r.value) && ProcessRoom(run, fuel) == Ok(r.value)
  {
    var p :- ProcessRoom(run, fuel);
    var _ :- DisplayAt(p.st, p.nextTime);
    Ok(p)
  }

  /**
   * One pass of the loop: the free teams at the vacancy (AssertionError if
   * there are none before the first booking), a room step when there are
   * some, then the next vacancy.
   */
  function Step(run: Run, fuel: nat): (r: Result<Run>)
    ensures AvailableTeams(run.st, run.nextTime) == Ok([]) && run.step == 0 ==>
              r == Err(Raised(AssertionError, "Sem equipes."))
    ensures AvailableTeams(run.st, run.nextTime) == Ok([]) && run.step != 0 ==>
              r == Advance(run.(available := []))
    ensures r.Ok? ==> Grows(run, r.value)
  {
    var free :- AvailableTeams(run.st, run.nextTime);
    if free == [] && run.step == 0 then Err(Raised(AssertionError, "Sem equipes."))
    else
      var run1 := run.(available := free);
      GrowsRefl(run, run1);
      var p :- if free != [] then ProcessAndShow(run1, fuel) else Ok(run1);
      GrowsTrans(run, run1, p);
      var r :- Advance(p);
      GrowsTrans(run, p, r);
      Ok(r)
  }

  /** The loop of `execute`: a step while surgeries remain, at most `fuel` steps. */
  method Simulate(run0: Run, fuel: nat) returns (r: Result<Run>)
    ensures r.Ok? ==> Grows(run0, r.value) && r.value.remaining == []
    ensures r.Ok? ==> r.value.step == run0.step + |run0.remaining|
  {
    var run := run0;
    GrowsRefl(run0, run);
    var left := fuel;
    while run.remaining != []
      invariant Grows(run0, run)
      decreases left
    {
      if left == 0 {
        return Err(OutOfFuel);
      }
      var next := Step(run, left);
      if next.Err? {
        return Err(next.failure);
      }
      GrowsTrans(run0, run, next.value);
      run := next.value;
      left := left - 1;
    }
    return Ok(run);
  }

  /**
   * `execute`: refuses to start without surgeries, teams and rooms or with a
   * candidate vector of the wrong length; then runs the loop, renders the
   * result and checks that every surgery of the Surgery table got booked.
   */
  method Execute(run0: Run, solution: seq<int>, fuel: nat) returns (r: Result<Run>)
    ensures run0.remaining == [] ==> r == Err(Raised(AssertionError, "Sem cirurgias."))
    ensures run0.remaining != [] && run0.st.teams == [] ==> r == Err(Raised(AssertionError, "Sem equipes."))
    ensures run0.remaining != [] && run0.st.teams != [] && run0.st.rooms == [] ==>
              r == Err(Raised(AssertionError, "Sem salas."))
    ensures run0.remaining != [] && run0.st.teams != [] && run0.st.rooms != [] && |solution| != |run0.remaining| ==>
              r == Err(Raised(AssertionError, "Solução inválida."))
    ensures r.Ok? ==> Grows(run0.(step := 0, solution := solution), r.value)
    ensures r.Ok? ==> r.value.remaining == [] && r.value.step == |solution| && r.value.solution == solution
    ensures r.Ok? ==> forall i :: 0 <= i < |run0.st.surgeries| ==> HasBooking(r.value.st, run0.st.surgeries[i].id)
    ensures r.Ok? ==> forall s :: s in run0.remaining ==> BookedOnce(r.value.st.bookings, s.id)
    ensures r.Ok? && AllKnown(r.value.st) && TeamsKnown(r.value.st) ==> NoOverlap(r.value.st)
  {
    var run := run0.(step := 0);
    if run.remaining == [] {
      return Err(Raised(AssertionError, "Sem cirurgias."));
    }
    if run.st.teams == [] {
      return Err(Raised(AssertionError, "Sem equipes."));
    }
    if run.st.rooms == [] {
      return Err(Raised(AssertionError, "Sem salas."));
    }
    if |solution| != |run.remaining| {
      return Err(Raised(AssertionError, "Solução inválida."));
    }
    run := run.(solution := solution);
    var done :- Simulate(run, fuel);
    GrowsBooksOnce(run, done);
    var _ :- FinalDisplay(done.st);
    if AllKnown(done.st) && TeamsKnown(done.st) {
      FinalNoOverlap(done.st);
    }
    var _ :- CheckRemainingSurgeries(done.st);
    return Ok(done);
  }
}

=== FILE: frontier.dfy ===
/*
 * Room frontiers and the next vacancy: when each room becomes free, which
 * room the simulator serves next, and what lies ahead of a time in a room.
 */
module Frontier {
  import opened Common
  import opened Cache

  /** A room together with the time it becomes free. */
  datatype Vacancy = Vacancy(room: Room, time: int)

  /** The end of an empty slot. */
  function SlotEnd(e: EmptySlot): int {
    e.start + SecondsPerMinute * e.duration
  }

  /** The ends of the bookings of `bs` that `keep` selects, in order; ValueError on an unknown surgery. */
  function Ends(st: Store, bs: seq<Booking>, keep: Booking -> bool): (r: Result<seq<int>>)
    ensures r.Ok? <==> forall i :: 0 <= i < |bs| ==> keep(bs[i]) ==> Known(st, bs[i])
    ensures r.Ok? ==> forall e :: e in r.value <==> exists i :: 0 <= i < |bs| && keep(bs[i]) && EndOf(st, bs[i]) == Ok(e)
    ensures r.Err? ==> r.failure.Raised? && r.failure.exc == ValueError
  {
    if bs == [] then Ok([])
    else
      assert forall i :: 1 <= i < |bs| ==> bs[1..][i - 1] == bs[i];
      var rest :- Ends(st, bs[1..], keep);
      if keep(bs[0]) then
        var e :- EndOf(st, bs[0]);
        Ok([e] + rest)
      else Ok(rest)
  }

  /** No end is collected when `keep` selects nothing. */
  lemma {:induction false} EndsNone(st: Store, bs: seq<Booking>, keep: Booking -> bool)
    requires forall i :: 0 <= i < |bs| ==> !keep(bs[i])
    ensures Ends(st, bs, keep) == Ok([])
  {
    if bs != [] {
      EndsNone(st, bs[1..], keep);
    }
  }

  /** The ends of the empty slots of a room, in order. */
  function SlotEnds(slots: seq<EmptySlot>, roomId: int): (r: seq<int>)
    ensures forall e :: e in r <==> exists i :: 0 <= i < |slots| && slots[i].roomId == roomId && SlotEnd(slots[i]) == e
  {
    if slots == [] then []
    else
      assert forall i :: 1 <= i < |slots| ==> slots[1..][i - 1] == slots[i];
      (if slots[0].roomId == roomId then [SlotEnd(slots[0])] else []) + SlotEnds(slots[1..], roomId)
  }

  /** A frontier: `zero` when nothing counts, else the latest of the ends that count. */
  function Latest(zero: int, ends: seq<int>): (t: int)
    ensures ends == [] ==> t == zero
    ensures ends != [] ==> t in ends && forall i :: 0 <= i < |ends| ==> ends[i] <= t
  {
    if ends == [] then zero else MaxOf(ends)
  }

  /*
   * The base frontier: every booking of the room counts.
   */

  predicate InRoomBooking(st: Store, roomId: int, j: int) {
    0 <= j < |st.bookings| && st.bookings[j].roomId == roomId
  }

  function BaseRoomFrontier(st: Store, zero: int, room: Room): (r: Result<int>)
    ensures r.Ok? <==> forall j :: InRoomBooking(st, room.id, j) ==> Known(st, st.bookings[j])
    ensures r.Ok? && (forall j :: !InRoomBooking(st, room.id, j)) ==> r.value == zero
    ensures r.Ok? && (exists j :: InRoomBooking(st, room.id, j)) ==>
              (exists j :: InRoomBooking(st, room.id, j) && EndOf(st, st.bookings[j]) == Ok(r.value)) &&
              forall j :: InRoomBooking(st, room.id, j) ==> EndOf(st, st.bookings[j]).Ok? && EndOf(st, st.bookings[j]).value <= r.value
    ensures r.Err? ==> r.failure.Raised? && r.failure.exc == ValueError
  {
    var ends :- Ends(st, st.bookings, (b: Booking) => b.roomId == room.id);
    RoomEnds(st, room, ends);
    Ok(Latest(zero, ends))
  }

  /** Selected ends: none when nothing is selected, and otherwise the latest is a selected booking's end and bounds all. */
  lemma EndsLatest(st: Store, bs: seq<Booking>, keep: Booking -> bool, ends: seq<int>)
    requires Ends(st, bs, keep) == Ok(ends)
    ensures (forall i :: 0 <= i < |bs| ==> !keep(bs[i])) ==> ends == []
    ensures (exists i :: 0 <= i < |bs| && keep(bs[i])) ==>
              ends != [] &&
              (exists i :: 0 <= i < |bs| && keep(bs[i]) && EndOf(st, bs[i]) == Ok(MaxOf(ends))) &&
              forall i :: 0 <= i < |bs| && keep(bs[i]) ==> EndOf(st, bs[i]).Ok? && EndOf(st, bs[i]).value <= MaxOf(ends)
  {
    if forall i :: 0 <= i < |bs| ==> !keep(bs[i]) {
      EndsNone(st, bs, keep);
    }
    if exists i :: 0 <= i < |bs| && keep(bs[i]) {
      var i0 :| 0 <= i0 < |bs| && keep(bs[i0]);
      assert EndOf(st, bs[i0]).value in ends;
      var m := MaxOf(ends);
      assert m in ends;
      forall i | 0 <= i < |bs| && keep(bs[i]) ensures EndOf(st, bs[i]).Ok? && EndOf(st, bs[i]).value <= m {
        var e := EndOf(st, bs[i]).value;
        assert e in ends;
        var k :| 0 <= k < |ends| && ends[k] == e;
      }
    }
  }

  /** The same facts for the bookings of one room. */
  lemma RoomEnds(st: Store, room: Room, ends: seq<int>)
    requires Ends(st, st.bookings, (b: Booking) => b.roomId == room.id) == Ok(ends)
    ensures (forall j :: !InRoomBooking(st, room.id, j)) ==> ends == []
    ensures (exists j :: InRoomBooking(st, room.id, j)) ==>
              ends != [] &&
              (exists j :: InRoomBooking(st, room.id, j) && EndOf(st, st.bookings[j]) == Ok(MaxOf(ends))) &&
              forall j :: InRoomBooking(st, room.id, j) ==> EndOf(st, st.bookings[j]).Ok? && EndOf(st, st.bookings[j]).value <= MaxOf(ends)
  {
    var keep := (b: Booking) => b.roomId == room.id;
    EndsLatest(st, st.bookings, keep, ends);
    assert forall j :: InRoomBooking(st, room.id, j) <==> 0 <= j < |st.bookings| && keep(st.bookings[j]);
    if exists j :: InRoomBooking(st, room.id, j) {
      var j0 :| InRoomBooking(st, room.id, j0);
      assert 0 <= j0 < |st.bookings| && keep(st.bookings[j0]);
      var i :| 0 <= i < |st.bookings| && keep(st.bookings[i]) && EndOf(st, st.bookings[i]) == Ok(MaxOf(ends));
      assert InRoomBooking(st, room.id, i);
    }
  }

  function BaseFrontiers(st: Store, zero: int, rooms: seq<Room>): (r: Result<seq<Vacancy>>)
    ensures r.Ok? ==> |r.value| == |rooms| &&
                      forall i :: 0 <= i < |rooms| ==> r.value[i].room == rooms[i] &&
                                                        BaseRoomFrontier(st, zero, rooms[i]) == Ok(r.value[i].time)
    ensures AllKnown(st) ==> r.Ok?
    ensures r.Err? ==> r.failure.Raised? && r.failure.exc == ValueError
  {
    if rooms == [] then Ok([])
    else
      var t :- BaseRoomFrontier(st, zero, rooms[0]);
      var rest :- BaseFrontiers(st, zero, rooms[1..]);
      Ok([Vacancy(rooms[0], t)] + rest)
  }

  /**
   * `get_next_vacancies` of the base simulator: one vacancy per room, in
   * table order; a room with no booking is free at `zero`, any other room at
   * the latest end of its bookings. It needs a booking and a room to exist.
   */
  function BaseVacancies(st: Store, zero: int): (r: Result<seq<Vacancy>>)
    ensures st.bookings == [] ==> r == Err(Raised(ValueError, "No schedules found in cache"))
    ensures st.bookings != [] && st.rooms == [] ==> r == Err(Raised(ValueError, "No rooms found in cache."))
    ensures st.bookings != [] && st.rooms != [] && AllKnown(st) ==> r.Ok?
    ensures r.Ok? ==> |r.value| == |st.rooms| &&
                      forall i :: 0 <= i < |st.rooms| ==> r.value[i].room == st.rooms[i] &&
                                                           BaseRoomFrontier(st, zero, st.rooms[i]) == Ok(r.value[i].time)
  {
    if st.bookings == [] then Err(Raised(ValueError, "No schedules found in cache"))
    else if st.rooms == [] then Err(Raised(ValueError, "No rooms found in cache."))
    else BaseFrontiers(st, zero, st.rooms)
  }

  /*
   * The frontier with fixed bookings kept in place: a fixed booking counts
   * only once the simulator has reached it ("considered"), and the empty
   * slots it left in front of fixed bookings count with their own length.
   */

  /** What counts towards a room's frontier with fixed bookings: the three kinds of ends. */
  function FixedRoomEnds(st: Store, room: Room, fixedConsidered: seq<Booking>, emptyConsidered: seq<EmptySlot>)
    : (r: Result<seq<int>>)
    ensures r.Ok? <==> (forall j :: InRoomBooking(st, room.id, j) && !st.bookings[j].fixed ==> Known(st, st.bookings[j])) &&
                       (forall j :: 0 <= j < |fixedConsidered| && fixedConsidered[j].roomId == room.id ==>
                                      Known(st, fixedConsidered[j]))
    ensures r.Ok? ==> forall e :: e in r.value <==>
              (exists j :: InRoomBooking(st, room.id, j) && !st.bookings[j].fixed && EndOf(st, st.bookings[j]) == Ok(e)) ||
              (exists j :: 0 <= j < |emptyConsidered| && emptyConsidered[j].roomId == room.id && SlotEnd(emptyConsidered[j]) == e) ||
              (exists j :: 0 <= j < |fixedConsidered| && fixedConsidered[j].roomId == room.id &&
                           EndOf(st, fixedConsidered[j]) == Ok(e))
  {
    var mobile :- Ends(st, st.bookings, (b: Booking) => !b.fixed && b.roomId == room.id);
    var fixed :- Ends(st, fixedConsidered, (b: Booking) => b.roomId == room.id);
    Ok(mobile + SlotEnds(emptyConsidered, room.id) + fixed)
  }

  /** Nothing in the room counts yet: no mobile booking, no considered empty slot, no considered fixed booking. */
  predicate NothingCounts(st: Store, room: Room, fixedConsidered: seq<Booking>, emptyConsidered: seq<EmptySlot>) {
    (forall j :: 0 <= j < |st.bookings| && st.bookings[j].roomId == room.id ==> st.bookings[j].fixed) &&
    (forall j :: 0 <= j < |emptyConsidered| ==> emptyConsidered[j].roomId != room.id) &&
    (forall j :: 0 <= j < |fixedConsidered| ==> fixedConsidered[j].roomId != room.id)
  }

  function FixedRoomFrontier(st: Store, zero: int, room: Room, fixedConsidered: seq<Booking>,
                             emptyConsidered: seq<EmptySlot>): (r: Result<int>)
    ensures r.Ok? && NothingCounts(st, room, fixedConsidered, emptyConsidered) ==> r.value == zero
    ensures r.Ok? && !NothingCounts(st, room, fixedConsidered, emptyConsidered) ==>
              var ends := FixedRoomEnds(st, room, fixedConsidered, emptyConsidered);
              ends.Ok? && r.value in ends.value && forall i :: 0 <= i < |ends.value| ==> ends.value[i] <= r.value
    ensures r.Err? ==> r.failure.Raised? && r.failure.exc == ValueError
  {
    var ends :- FixedRoomEnds(st, room, fixedConsidered, emptyConsidered);
    NothingCountsIffNoEnds(st, room, fixedConsidered, emptyConsidered);
    if ends == [] then Ok(zero) else Ok(MaxOf(ends))
  }

  /** Nothing counts in the room exactly when the room has no ends to take the latest of. */
  lemma NothingCountsIffNoEnds(st: Store, room: Room, fixedConsidered: seq<Booking>, emptyConsidered: seq<EmptySlot>)
    requires FixedRoomEnds(st, room, fixedConsidered, emptyConsidered).Ok?
    ensures NothingCounts(st, room, fixedConsidered, emptyConsidered) <==>
            FixedRoomEnds(st, room, fixedConsidered, emptyConsidered).value == []
  {
    var ends := FixedRoomEnds(st, room, fixedConsidered, emptyConsidered).value;
    if ends != [] {
      assert ends[0] in ends;
      if exists j :: InRoomBooking(st, room.id, j) && !st.bookings[j].fixed && EndOf(st, st.bookings[j]) == Ok(ends[0]) {
        var j :| InRoomBooking(st, room.id, j) && !st.bookings[j].fixed && EndOf(st, st.bookings[j]) == Ok(ends[0]);
        assert !NothingCounts(st, room, fixedConsidered, emptyConsidered);
      } else if exists j :: 0 <= j < |emptyConsidered| && emptyConsidered[j].roomId == room.id && SlotEnd(emptyConsidered[j]) == ends[0] {
        var j :| 0 <= j < |emptyConsidered| && emptyConsidered[j].roomId == room.id && SlotEnd(emptyConsidered[j]) == ends[0];
        assert !NothingCounts(st, room, fixedConsidered, emptyConsidered);
      } else {
        var j :| 0 <= j < |fixedConsidered| && fixedConsidered[j].roomId == room.id && EndOf(st, fixedConsidered[j]) == Ok(ends[0]);
        assert !NothingCounts(st, room, fixedConsidered, emptyConsidered);
      }
    }
    if !NothingCounts(st, room, fixedConsidered, emptyConsidered) {
      if exists j :: 0 <= j < |st.bookings| && st.bookings[j].roomId == room.id && !st.bookings[j].fixed {
        var j :| 0 <= j < |st.bookings| && st.bookings[j].roomId == room.id && !st.bookings[j].fixed;
        assert InRoomBooking(st, room.id, j) && Known(st, st.bookings[j]);
        assert EndOf(st, st.bookings[j]).value in ends;
      } else if exists j :: 0 <= j < |emptyConsidered| && emptyConsidered[j].roomId == room.id {
        var j :| 0 <= j < |emptyConsidered| && emptyConsidered[j].roomId == room.id;
        assert SlotEnd(emptyConsidered[j]) in ends;
      } else {
        var j :| 0 <= j < |fixedConsidered| && fixedConsidered[j].roomId == room.id;
        assert Known(st, fixedConsidered[j]);
        assert EndOf(st, fixedConsidered[j]).value in ends;
      }
    }
  }

  function FixedFrontiers(st: Store, zero: int, rooms: seq<Room>, fixedConsidered: seq<Booking>,
                          emptyConsidered: seq<EmptySlot>): (r: Result<seq<Vacancy>>)
    ensures r.Ok? ==> |r.value| == |rooms| &&
                      forall i :: 0 <= i < |rooms| ==>
                        r.value[i].room == rooms[i] &&
                        FixedRoomFrontier(st, zero, rooms[i], fixedConsidered, emptyConsidered) == Ok(r.value[i].time)
  {
    if rooms == [] then Ok([])
    else
      var t :- FixedRoomFrontier(st, zero, rooms[0], fixedConsidered, emptyConsidered);
      var rest :- FixedFrontiers(st, zero, rooms[1..], fixedConsidered, emptyConsidered);
      Ok([Vacancy(rooms[0], t)] + rest)
  }

  /** `get_next_vacancies` with fixed bookings kept in place. */
  function FixedVacancies(st: Store, zero: int, fixedConsidered: seq<Booking>, emptyConsidered: seq<EmptySlot>)
    : (r: Result<seq<Vacancy>>)
    ensures st.bookings == [] ==> r == Err(Raised(AssertionError, "No schedules found in cache."))
    ensures st.bookings != [] && st.rooms == [] ==> r == Err(Raised(AssertionError, "No rooms found in cache."))
    ensures r.Ok? ==> |r.value| == |st.rooms| &&
                      forall i :: 0 <= i < |st.rooms| ==>
                        r.value[i].room == st.rooms[i] &&
                        FixedRoomFrontier(st, zero, st.rooms[i], fixedConsidered, emptyConsidered) == Ok(r.value[i].time)
  {
    if st.bookings == [] then Err(Raised(AssertionError, "No schedules found in cache."))
    else if st.rooms == [] then Err(Raised(AssertionError, "No rooms found in cache."))
    else FixedFrontiers(st, zero, st.rooms, fixedConsidered, emptyConsidered)
  }

  /** Appending a booking that `keep` rejects leaves the selected ends as they were. */
  lemma {:induction false} EndsSkipsRejected(st: Store, bs: seq<Booking>, b: Booking, keep: Booking -> bool)
    requires !keep(b)
    ensures Ends(st, bs + [b], keep) == Ends(st, bs, keep)
  {
    if bs == [] {
      assert [b][1..] == [];
    } else {
      assert (bs + [b])[1..] == bs[1..] + [b];
      EndsSkipsRejected(st, bs[1..], b, keep);
    }
  }

  lemma {:induction false} FixedFrontiersIgnoreFixed(st: Store, zero: int, rooms: seq<Room>, fc: seq<Booking>,
                                                     ec: seq<EmptySlot>, b: Booking)
    requires b.fixed
    ensures FixedFrontiers(st.(bookings := st.bookings + [b]), zero, rooms, fc, ec) == FixedFrontiers(st, zero, rooms, fc, ec)
  {
    if rooms != [] {
      var st' := st.(bookings := st.bookings + [b]);
      EndsSkipsRejected(st, st.bookings, b, (x: Booking) => !x.fixed && x.roomId == rooms[0].id);
      assert Ends(st', st'.bookings, (x: Booking) => !x.fixed && x.roomId == rooms[0].id) ==
             Ends(st, st'.bookings, (x: Booking) => !x.fixed && x.roomId == rooms[0].id) by {
        EndsSameSurgeries(st, st', st'.bookings, (x: Booking) => !x.fixed && x.roomId == rooms[0].id);
      }
      EndsSameSurgeries(st, st', fc, (x: Booking) => x.roomId == rooms[0].id);
      assert FixedRoomEnds(st', rooms[0], fc, ec) == FixedRoomEnds(st, rooms[0], fc, ec);
      FixedFrontiersIgnoreFixed(st, zero, rooms[1..], fc, ec, b);
    }
  }

  /** Ends only read the Surgery table. */
  lemma {:induction false} EndsSameSurgeries(st: Store, st': Store, bs: seq<Booking>, keep: Booking -> bool)
    requires st'.surgeries == st.surgeries
    ensures Ends(st', bs, keep) == Ends(st, bs, keep)
  {
    if bs != [] {
      EndsSameSurgeries(st, st', bs[1..], keep);
      EndOfSameSurgeries(st, st', bs[0]);
    }
  }

  lemma EndOfSameSurgeries(st: Store, st': Store, b: Booking)
    requires st'.surgeries == st.surgeries
    ensures EndOf(st', b) == EndOf(st, b)
  {
    assert SurgeryById(st', b.surgeryId) == SurgeryById(st, b.surgeryId);
  }

  /**
   * A fixed booking the simulator has not reached yet does not move any
   * frontier: adding one to the Schedule table changes no vacancy.
   */
  lemma UnconsideredFixedIsIgnored(st: Store, zero: int, fc: seq<Booking>, ec: seq<EmptySlot>, b: Booking)
    requires b.fixed && st.bookings != []
    ensures FixedVacancies(st.(bookings := st.bookings + [b]), zero, fc, ec) == FixedVacancies(st, zero, fc, ec)
  {
    FixedFrontiersIgnoreFixed(st, zero, st.rooms, fc, ec, b);
  }

  /*
   * Choosing the next vacancy.
   */

  function VacancyKey(v: Vacancy): real {
    v.time as real
  }

  /**
   * `_get_sorted_vacancies()[0]`: the earliest vacancy, ties going to the
   * first in room-table order.
   */
  function EarliestVacancy(vacs: seq<Vacancy>): (r: Result<Vacancy>)
    ensures r.Err? <==> vacs == []
    ensures r.Err? ==> r.failure == Raised(ValueError, "No vacancies found.")
    ensures r.Ok? ==> exists i :: 0 <= i < |vacs| && vacs[i] == r.value &&
                        (forall j :: 0 <= j < |vacs| ==> r.value.time <= vacs[j].time) &&
                        (forall j :: 0 <= j < i ==> vacs[j].time > r.value.time)
  {
    if vacs == [] then Err(Raised(ValueError, "No vacancies found."))
    else
      var i := FirstMinIndex(vacs, VacancyKey);
      Ok(vacs[i])
  }

  /** `_check_duplicate_vacancy`: the run stops when the vacancy equals the previous one. */
  function CheckDuplicate(last: Option<Vacancy>, v: Vacancy): (r: Result<Vacancy>)
    ensures r.Err? <==> last == Some(v)
    ensures r.Err? ==> r.failure == Raised(ValueError, "Duplicate vacancy")
    ensures r.Ok? ==> r.value == v
  {
    if last == Some(v) then Err(Raised(ValueError, "Duplicate vacancy")) else Ok(v)
  }

  /*
   * What lies ahead in a room: `get_next_schedule` and `how_close_schedule`.
   */

  /** A row of the Schedule table or of the EmptySchedule table. */
  datatype Item = ItemBooking(booking: Booking) | ItemSlot(slot: EmptySlot)

  function ItemStart(it: Item): int {
    match it
    case ItemBooking(b) => b.start
    case ItemSlot(e) => e.start
  }

  /** 999999999 days, in seconds: how far away a past item counts. */
  const FarAway := 999999999 * 86400

  /** `how_close_schedule`: the wait until the item starts, or `FarAway` if it already started. */
  function HowClose(start: int, t: int): (d: int)
    ensures start >= t ==> d == start - t
    ensures start < t ==> d == FarAway
  {
    if start - t < 0 then FarAway else start - t
  }

  function BookingItems(bs: seq<Booking>, roomId: int): (r: seq<Item>)
    ensures forall it :: it in r <==> it.ItemBooking? && it.booking in bs && it.booking.roomId == roomId
  {
    if bs == [] then []
    else (if bs[0].roomId == roomId then [ItemBooking(bs[0])] else []) + BookingItems(bs[1..], roomId)
  }

  function SlotItems(es: seq<EmptySlot>, roomId: int): (r: seq<Item>)
    ensures forall it :: it in r <==> it.ItemSlot? && it.slot in es && it.slot.roomId == roomId
  {
    if es == [] then []
    else (if es[0].roomId == roomId then [ItemSlot(es[0])] else []) + SlotItems(es[1..], roomId)
  }

  /** The room's bookings, then the room's empty slots, in table order. */
  function RoomItems(st: Store, roomId: int): (r: seq<Item>)
    ensures forall it :: it in r <==>
              (it.ItemBooking? && it.booking in st.bookings && it.booking.roomId == roomId) ||
              (it.ItemSlot? && it.slot in st.emptySlots && it.slot.roomId == roomId)
  {
    BookingItems(st.bookings, roomId) + SlotItems(st.emptySlots, roomId)
  }

  /** The items that start at or after `t`. */
  function StartsFrom(t: int): Item -> bool {
    (it: Item) => ItemStart(it) >= t
  }

  /**
   * `get_next_schedule`: of the room's bookings and empty slots starting at
   * or after `t`, the one starting first (the first in table order among
   * equals), or None.
   */
  function NextSchedule(st: Store, roomId: int, t: int): (r: Option<Item>)
    ensures r.None? <==> forall it :: it in RoomItems(st, roomId) ==> ItemStart(it) < t
    ensures r.Some? ==> r.value in RoomItems(st, roomId) && ItemStart(r.value) >= t &&
                        forall it :: it in RoomItems(st, roomId) && ItemStart(it) >= t ==> ItemStart(r.value) <= ItemStart(it)
    ensures r.Some? ==> FirstAmongEqual(RoomItems(st, roomId), t, r.value)
  {
    var items := RoomItems(st, roomId);
    if items == [] then None
    else
      var future := Where(items, StartsFrom(t));
      if future == [] then None
      else
        var i := FirstMinIndex(future, (it: Item) => HowClose(ItemStart(it), t) as real);
        ClosestIsEarliest(items, t, i);
        Some(future[i])
  }

  /** The item closest to `t` among those starting from `t` is the earliest of them, and the first such. */
  lemma ClosestIsEarliest(items: seq<Item>, t: int, i: nat)
    requires i < |Where(items, StartsFrom(t))|
    requires var f := Where(items, StartsFrom(t));
             forall j :: 0 <= j < |f| ==> HowClose(ItemStart(f[i]), t) as real <= HowClose(ItemStart(f[j]), t) as real
    requires var f := Where(items, StartsFrom(t));
             forall j :: 0 <= j < i ==> HowClose(ItemStart(f[j]), t) as real > HowClose(ItemStart(f[i]), t) as real
    ensures var f := Where(items, StartsFrom(t));
            f[i] in items && ItemStart(f[i]) >= t &&
            (forall it :: it in items && ItemStart(it) >= t ==> ItemStart(f[i]) <= ItemStart(it)) &&
            FirstAmongEqual(items, t, f[i])
  {
    var future := Where(items, StartsFrom(t));
    assert future[i] in future;
    forall it | it in items && ItemStart(it) >= t ensures ItemStart(future[i]) <= ItemStart(it) {
      assert StartsFrom(t)(it);
      assert it in future;
      var j :| 0 <= j < |future| && future[j] == it;
    }
    forall j | 0 <= j < i ensures ItemStart(future[j]) > ItemStart(future[i]) {
      assert future[j] in future;
    }
    FirstFutureIsFirstAmongEqual(items, t, i);
  }

  /**
   * `it` sits at a position of `items` before which every item starting at
   * or after `t` starts strictly later than `it`: Python's `min` keeps the
   * first of equal keys.
   */
  predicate FirstAmongEqual(items: seq<Item>, t: int, it: Item) {
    exists k :: 0 <= k < |items| && items[k] == it &&
                forall j :: 0 <= j < k && ItemStart(items[j]) >= t ==> ItemStart(items[j]) > ItemStart(it)
  }

  lemma FirstFutureIsFirstAmongEqual(items: seq<Item>, t: int, i: nat)
    requires i < |Where(items, StartsFrom(t))|
    requires forall j :: 0 <= j < i ==> ItemStart(Where(items, StartsFrom(t))[j]) > ItemStart(Where(items, StartsFrom(t))[i])
    ensures FirstAmongEqual(items, t, Where(items, StartsFrom(t))[i])
  {
    var future := Where(items, StartsFrom(t));
    WhereIndex(items, StartsFrom(t), i);
    var k :| 0 <= k < |items| && items[k] == future[i] && Where(items[..k], StartsFrom(t)) == future[..i];
    forall j | 0 <= j < k && ItemStart(items[j]) >= t ensures ItemStart(items[j]) > ItemStart(future[i]) {
      assert items[..k][j] == items[j];
      assert items[j] in Where(items[..k], StartsFrom(t));
      assert items[j] in future[..i];
      var j' :| 0 <= j' < i && future[..i][j'] == items[j];
    }
  }

  /*
   * The two other places a start time comes from.
   */

  /**
   * `get_last_schedule` inside `_try_global_teams`: the latest end over the
   * room's bookings and the room's rows of the EmptySchedule table;
   * ValueError when the room has neither.
   */
  function LastEnd(st: Store, roomId: int): (r: Result<int>)
    ensures ((forall j :: !InRoomBooking(st, roomId, j)) &&
             (forall j :: 0 <= j < |st.emptySlots| ==> st.emptySlots[j].roomId != roomId)) ==> r.Err?
    ensures r.Ok? ==>
              ((exists j :: InRoomBooking(st, roomId, j) && EndOf(st, st.bookings[j]) == Ok(r.value)) ||
               (exists j :: 0 <= j < |st.emptySlots| && st.emptySlots[j].roomId == roomId && SlotEnd(st.emptySlots[j]) == r.value)) &&
              (forall j :: InRoomBooking(st, roomId, j) ==> EndOf(st, st.bookings[j]).Ok? && EndOf(st, st.bookings[j]).value <= r.value) &&
              (forall j :: 0 <= j < |st.emptySlots| && st.emptySlots[j].roomId == roomId ==> SlotEnd(st.emptySlots[j]) <= r.value)
    ensures r.Err? ==> r.failure.Raised? && r.failure.exc == ValueError
  {
    var ends :- Ends(st, st.bookings, (b: Booking) => b.roomId == roomId);
    var all := ends + SlotEnds(st.emptySlots, roomId);
    if all == [] then
      Err(Raised(ValueError, "max() arg is an empty sequence"))
    else
      var m := MaxOf(all);
      LastEndBounds(st, roomId, ends, all, m);
      Ok(m)
  }

  lemma LastEndBounds(st: Store, roomId: int, ends: seq<int>, all: seq<int>, m: int)
    requires Ends(st, st.bookings, (b: Booking) => b.roomId == roomId) == Ok(ends)
    requires all == ends + SlotEnds(st.emptySlots, roomId)
    requires m in all && forall i :: 0 <= i < |all| ==> all[i] <= m
    ensures forall j :: InRoomBooking(st, roomId, j) ==> EndOf(st, st.bookings[j]).Ok? && EndOf(st, st.bookings[j]).value <= m
    ensures forall j :: 0 <= j < |st.emptySlots| && st.emptySlots[j].roomId == roomId ==> SlotEnd(st.emptySlots[j]) <= m
    ensures (exists j :: InRoomBooking(st, roomId, j) && EndOf(st, st.bookings[j]) == Ok(m)) ||
            (exists j :: 0 <= j < |st.emptySlots| && st.emptySlots[j].roomId == roomId && SlotEnd(st.emptySlots[j]) == m)
  {
    if m in ends {
      var i :| 0 <= i < |st.bookings| && st.bookings[i].roomId == roomId && EndOf(st, st.bookings[i]) == Ok(m);
      assert InRoomBooking(st, roomId, i);
    } else {
      assert m in SlotEnds(st.emptySlots, roomId);
      var i :| 0 <= i < |st.emptySlots| && st.emptySlots[i].roomId == roomId && SlotEnd(st.emptySlots[i]) == m;
    }
    forall j | InRoomBooking(st, roomId, j)
      ensures EndOf(st, st.bookings[j]).Ok? && EndOf(st, st.bookings[j]).value <= m
    {
      assert EndOf(st, st.bookings[j]).value in all;
    }
    forall j | 0 <= j < |st.emptySlots| && st.emptySlots[j].roomId == roomId
      ensures SlotEnd(st.emptySlots[j]) <= m
    {
      assert SlotEnd(st.emptySlots[j]) in all;
    }
  }

  /** Every booking of the room before position `k` starts no later than booking `j`, and those before `j` strictly earlier. */
  predicate FirstLatestBelow(st: Store, roomId: int, k: int, j: int) {
    InRoomBooking(st, roomId, j) && j < k &&
    (forall m :: 0 <= m < k && InRoomBooking(st, roomId, m) ==> st.bookings[m].start <= st.bookings[j].start) &&
    (forall m :: 0 <= m < j && InRoomBooking(st, roomId, m) ==> st.bookings[m].start < st.bookings[j].start)
  }

  /** Python's `max` by start over the room's bookings: the first one with the latest start. */
  function LatestStartIndex(st: Store, roomId: int, k: nat, best: Option<nat>): (r: Option<nat>)
    requires k <= |st.bookings|
    requires best.Some? ==> FirstLatestBelow(st, roomId, k, best.value)
    requires best.None? ==> forall m :: 0 <= m < k ==> !InRoomBooking(st, roomId, m)
    ensures r.None? <==> forall m :: !InRoomBooking(st, roomId, m)
    ensures r.Some? ==> FirstLatestBelow(st, roomId, |st.bookings|, r.value)
    decreases |st.bookings| - k
  {
    if k == |st.bookings| then best
    else if st.bookings[k].roomId == roomId && (best.None? || st.bookings[k].start > st.bookings[best.value].start) then
      LatestStartIndex(st, roomId, k + 1, Some(k))
    else LatestStartIndex(st, roomId, k + 1, best)
  }

  /**
   * The frontier the room limiter restarts a room from: the end of the
   * room's booking with the latest start (the first such in table order).
   * ValueError when the room has no booking or that surgery is unknown.
   */
  function LatestStartEnd(st: Store, roomId: int): (r: Result<int>)
    ensures (forall j :: !InRoomBooking(st, roomId, j)) ==> r.Err?
    ensures r.Ok? ==> exists j :: FirstLatestBelow(st, roomId, |st.bookings|, j) && EndOf(st, st.bookings[j]) == Ok(r.value)
    ensures r.Err? ==> r.failure.Raised? && r.failure.exc == ValueError
  {
    match LatestStartIndex(st, roomId, 0, None)
    case None => Err(Raised(ValueError, "max() arg is an empty sequence"))
    case Some(j) => EndOf(st, st.bookings[j])
  }
}

=== FILE: lehmer.dfy ===
/*
 * Orders encoded as successive picks from a shrinking list: the decoder pops
 * each index in turn and keeps the leftovers at the end; the encoder records,
 * for each wanted element, its position among the choices still left.
 */
module Lehmer {
  import opened Common

  /** Python's `list.pop(i)`: the element at index `i` (negative counts from the end) and the rest, or IndexError. */
  function Pop<T>(xs: seq<T>, i: int): (r: Result<(T, seq<T>)>)
    ensures r.Ok? <==> -|xs| <= i < |xs|
    ensures r.Ok? ==> |r.value.1| == |xs| - 1 && multiset(r.value.1) + multiset{r.value.0} == multiset(xs)
    ensures r.Ok? && 0 <= i ==> r.value.0 == xs[i] && r.value.1[..i] == xs[..i] && r.value.1[i..] == xs[i + 1..]
    ensures r.Err? ==> r.failure.Raised? && r.failure.exc == IndexError
  {
    if !(-|xs| <= i < |xs|) then Err(Raised(IndexError, "pop index out of range"))
    else
      var k := if i < 0 then |xs| + i else i;
      assert xs == xs[..k] + [xs[k]] + xs[k + 1..];
      Ok((xs[k], xs[..k] + xs[k + 1..]))
  }

  /** Every index is valid for the list as it is when that index is used: it shrinks by one per pop. */
  predicate InRange(n: int, idx: seq<int>) {
    forall k :: 0 <= k < |idx| ==> -(n - k) <= idx[k] < n - k
  }

  /**
   * `order_by_indexes`: pops `idx[0]`, `idx[1]`, ... from a copy of the list
   * and appends what is left.
   */
  function OrderByIndexes<T>(xs: seq<T>, idx: seq<int>): (r: Result<seq<T>>)
    ensures r.Ok? <==> InRange(|xs|, idx)
    ensures r.Ok? ==> |r.value| == |xs| && multiset(r.value) == multiset(xs)
    ensures r.Err? ==> r.failure.Raised? && r.failure.exc == IndexError
  {
    if idx == [] then Ok(xs)
    else
      var p :- Pop(xs, idx[0]);
      InRangeStep(|xs|, idx);
      var rest :- OrderByIndexes(p.1, idx[1..]);
      Ok([p.0] + rest)
  }

  /** The indexes fit a list of `n` exactly when the first fits it and the rest fit the list one shorter. */
  lemma InRangeStep(n: int, idx: seq<int>)
    requires idx != []
    ensures InRange(n, idx) <==> -n <= idx[0] < n && InRange(n - 1, idx[1..])
  {
    assert forall k :: 1 <= k < |idx| ==> idx[1..][k - 1] == idx[k];
    if -n <= idx[0] < n && InRange(n - 1, idx[1..]) {
      forall k | 0 <= k < |idx| ensures -(n - k) <= idx[k] < n - k {
        if k > 0 {
          assert idx[k] == idx[1..][k - 1];
        }
      }
    }
  }

  /** One step of the decoder: pop the first index, then decode the rest from what is left. */
  lemma DecodeStep<T>(xs: seq<T>, idx: seq<int>)
    requires idx != [] && Pop(xs, idx[0]).Ok?
    ensures var p := Pop(xs, idx[0]).value;
            OrderByIndexes(xs, idx).Ok? == OrderByIndexes(p.1, idx[1..]).Ok? &&
            (OrderByIndexes(xs, idx).Ok? ==> OrderByIndexes(xs, idx).value == [p.0] + OrderByIndexes(p.1, idx[1..]).value)
  {
  }

  /** The genetic search's limits for the decoder: gene `k` ranges over `0 .. n - 1 - k`, and then every pop succeeds. */
  predicate WithinLimits(n: int, idx: seq<int>) {
    |idx| <= n - 1 && forall k :: 0 <= k < |idx| ==> 0 <= idx[k] <= n - 1 - k
  }

  lemma {:induction false} LimitsDecode<T>(xs: seq<T>, idx: seq<int>)
    requires WithinLimits(|xs|, idx)
    ensures OrderByIndexes(xs, idx).Ok? && |OrderByIndexes(xs, idx).value| == |xs|
  {
    assert InRange(|xs|, idx) by {
      forall k | 0 <= k < |idx| ensures -(|xs| - k) <= idx[k] < |xs| - k {
      }
    }
  }

  /** All zeros pop the head each time: the list comes back unchanged. */
  lemma {:induction false} ZerosDecodeToIdentity<T>(xs: seq<T>, idx: seq<int>)
    requires |idx| <= |xs| && forall k :: 0 <= k < |idx| ==> idx[k] == 0
    ensures OrderByIndexes(xs, idx) == Ok(xs)
  {
    if idx != [] {
      ZerosDecodeToIdentity(xs[1..], idx[1..]);
      assert Pop(xs, 0).value == (xs[0], xs[1..]);
      DecodeStep(xs, idx);
      assert xs == [xs[0]] + xs[1..];
    }
  }

  /**
   * The encoder of `Ordering.get_guess`: the position of each wanted element
   * among the choices still left (`list.index`, ValueError when absent),
   * which is then popped.
   */
  function Encode(choices: seq<int>, wanted: seq<int>): (r: Result<seq<int>>)
    ensures r.Ok? ==> |r.value| == |wanted| && forall k :: 0 <= k < |wanted| ==> 0 <= r.value[k] < |choices| - k
    ensures r.Err? ==> r.failure.Raised? && r.failure.exc == ValueError
  {
    if wanted == [] then Ok([])
    else if wanted[0] !in choices then Err(Raised(ValueError, "is not in list"))
    else
      var i := IndexOf(choices, wanted[0]);
      var rest :- Encode(choices[..i] + choices[i + 1..], wanted[1..]);
      Ok([i as int] + rest)
  }

  predicate Distinct(s: seq<int>) {
    forall i, j :: 0 <= i < j < |s| ==> s[i] != s[j]
  }

  /** Distinct wanted elements, all among the choices, always encode. */
  lemma {:induction false} EncodeDefined(choices: seq<int>, wanted: seq<int>)
    requires Distinct(wanted) && forall k :: 0 <= k < |wanted| ==> wanted[k] in choices
    ensures Encode(choices, wanted).Ok?
  {
    if wanted != [] {
      var i := IndexOf(choices, wanted[0]);
      var left := choices[..i] + choices[i + 1..];
      forall k | 0 <= k < |wanted[1..]| ensures wanted[1..][k] in left {
        var x := wanted[1..][k];
        assert x == wanted[k + 1] && x != wanted[0];
        var j :| 0 <= j < |choices| && choices[j] == x;
        if j < i {
          assert left[j] == x;
        } else {
          assert j > i && left[j - 1] == x;
        }
      }
      EncodeDefined(left, wanted[1..]);
    }
  }

  /** Decoding an encoding gives the wanted elements first, then the leftovers. */
  lemma {:induction false} DecodeEncode(choices: seq<int>, wanted: seq<int>)
    requires Encode(choices, wanted).Ok?
    ensures OrderByIndexes(choices, Encode(choices, wanted).value).Ok?
    ensures wanted <= OrderByIndexes(choices, Encode(choices, wanted).value).value
  {
    if wanted != [] {
      var i := IndexOf(choices, wanted[0]);
      var left := choices[..i] + choices[i + 1..];
      var code := Encode(choices, wanted).value;
      assert code == [i as int] + Encode(left, wanted[1..]).value;
      assert code[1..] == Encode(left, wanted[1..]).value;
      DecodeEncode(left, wanted[1..]);
      var p := Pop(choices, i);
      assert p.value.0 == wanted[0];
      assert p.value.1 == left by {
        assert p.value.1 == p.value.1[..i] + p.value.1[i..];
        assert left[..i] == choices[..i] && left[i..] == choices[i + 1..];
      }
      DecodeStep(choices, code);
    }
  }

  /** When every choice is wanted, decoding the encoding gives back exactly the wanted order. */
  lemma PermutationRoundTrip(choices: seq<int>, wanted: seq<int>)
    requires Distinct(wanted) && |wanted| == |choices| && forall k :: 0 <= k < |wanted| ==> wanted[k] in choices
    ensures Encode(choices, wanted).Ok?
    ensures OrderByIndexes(choices, Encode(choices, wanted).value) == Ok(wanted)
  {
    EncodeDefined(choices, wanted);
    DecodeEncode(choices, wanted);
    var out := OrderByIndexes(choices, Encode(choices, wanted).value).value;
    assert |out| == |wanted|;
    assert out == out[..|wanted|] == wanted;
  }
}

=== FILE: ranking.dfy ===
/*
 * The room-distribution variant: a seed that deals surgeries to rooms in
 * ratio order, the gene bounds of the distribution and of the per-room
 * orderings, the seed ordering (each room's ratio ranks, encoded as picks
 * from a shrinking list), and the score of a distribution with an ordering.
 */
module Ranking {
  import opened Common
  import Weighted
  import Lehmer
  import Search

  type Job = Weighted.Job

  /*
   * Stable ranks by duration/punishment.
   */

  predicate NoZeroPunishment(js: seq<Job>) {
    forall i :: 0 <= i < |js| ==> js[i].punishment != 0
  }

  /** The sort key, as an exact quotient. */
  function Ratio(j: Job): real
    requires j.punishment != 0
  {
    j.duration as real / j.punishment as real
  }

  /** `q` comes before `p` in a stable sort by ratio: a smaller ratio, or the same ratio and an earlier position. */
  predicate Before(js: seq<Job>, q: nat, p: nat)
    requires q < |js| && p < |js| && NoZeroPunishment(js)
  {
    Ratio(js[q]) < Ratio(js[p]) || (Ratio(js[q]) == Ratio(js[p]) && q < p)
  }

  /** How many of the first `k` positions come before `p`. */
  function CountBefore(js: seq<Job>, p: nat, k: nat): nat
    requires p < |js| && k <= |js| && NoZeroPunishment(js)
  {
    if k == 0 then 0 else CountBefore(js, p, k - 1) + (if Before(js, k - 1, p) then 1 else 0)
  }

  /** The position of `js[p]` once `js` is stably sorted by ratio. */
  function Rank(js: seq<Job>, p: nat): nat
    requires p < |js| && NoZeroPunishment(js)
  {
    CountBefore(js, p, |js|)
  }

  lemma {:induction false} CountBeforeBound(js: seq<Job>, p: nat, k: nat)
    requires p < |js| && k <= |js| && NoZeroPunishment(js)
    ensures CountBefore(js, p, k) <= k
    ensures p < k ==> CountBefore(js, p, k) <= k - 1
  {
    if k > 0 {
      CountBeforeBound(js, p, k - 1);
    }
  }

  lemma {:induction false} CountBeforeMono(js: seq<Job>, p1: nat, p2: nat, k: nat)
    requires p1 < |js| && p2 < |js| && k <= |js| && NoZeroPunishment(js)
    requires Before(js, p1, p2)
    ensures CountBefore(js, p1, k) <= CountBefore(js, p2, k)
    ensures p1 < k ==> CountBefore(js, p1, k) < CountBefore(js, p2, k)
  {
    if k > 0 {
      CountBeforeMono(js, p1, p2, k - 1);
    }
  }

  /** Ranks are positions of a permutation: below the length, distinct, and ordered as the ratios are. */
  lemma RankFacts(js: seq<Job>, p1: nat, p2: nat)
    requires p1 < |js| && p2 < |js| && NoZeroPunishment(js)
    ensures Rank(js, p1) < |js|
    ensures p1 != p2 ==> Rank(js, p1) != Rank(js, p2)
    ensures Ratio(js[p1]) < Ratio(js[p2]) ==> Rank(js, p1) < Rank(js, p2)
    ensures Ratio(js[p1]) == Ratio(js[p2]) && p1 < p2 ==> Rank(js, p1) < Rank(js, p2)
  {
    CountBeforeBound(js, p1, |js|);
    if Before(js, p1, p2) {
      CountBeforeMono(js, p1, p2, |js|);
    } else if p1 != p2 {
      CountBeforeMono(js, p2, p1, |js|);
    }
  }

  /*
   * The distribution seed and genes.
   */

  /**
   * `get_guess` of both distribution classes: the surgery of rank `r` in the
   * stable ratio order goes to room `r mod rooms`; the result is indexed by
   * the original position.
   */
  function GetGuess(js: seq<Job>, rooms: nat): (r: Result<seq<int>>)
    ensures r.Ok? <==> NoZeroPunishment(js) && (js == [] || rooms > 0)
    ensures r.Err? ==> r.failure.Raised? && r.failure.exc == ZeroDivisionError
    ensures r.Ok? ==> |r.value| == |js| &&
                      forall p :: 0 <= p < |js| ==> 0 <= r.value[p] < rooms && r.value[p] == Rank(js, p) % rooms
  {
    if exists i | 0 <= i < |js| :: js[i].punishment == 0 then Err(Raised(ZeroDivisionError, "division by zero"))
    else if js == [] then Ok([])
    else if rooms == 0 then Err(Raised(ZeroDivisionError, "integer modulo by zero"))
    else Ok(seq(|js|, p requires 0 <= p < |js| => Rank(js, p) % rooms))
  }

  /**
   * The seed deals round-robin: the first `rooms` surgeries in ratio order
   * go to rooms 0, 1, ... in that order, so no two of them share a room.
   */
  lemma GuessRoundRobin(js: seq<Job>, rooms: nat, p: nat, q: nat)
    requires GetGuess(js, rooms).Ok? && p < |js| && q < |js|
    ensures Rank(js, p) < rooms ==> GetGuess(js, rooms).value[p] == Rank(js, p)
    ensures p != q && Rank(js, p) < rooms && Rank(js, q) < rooms ==> GetGuess(js, rooms).value[p] != GetGuess(js, rooms).value[q]
  {
    RankFacts(js, p, q);
    var g := GetGuess(js, rooms).value;
    var a := Rank(js, p);
    var b := Rank(js, q);
    assert g[p] == a % rooms && g[q] == b % rooms;
    SmallMod(a, rooms);
    SmallMod(b, rooms);
  }

  /** Kept apart so that the division facts stay out of the larger proof's context. */
  lemma SmallMod(a: nat, m: nat)
    requires m > 0
    ensures a < m ==> a % m == a
  {
  }

  /** `genes` of both distribution classes: one gene per surgery, from 0 to the number of rooms. */
  function DistributingGenes(n: nat, rooms: nat): (r: seq<Search.Gene>)
    ensures |r| == n && forall i :: 0 <= i < n ==> r[i].low == 0 && r[i].high == rooms
  {
    seq(n, i => Search.Gene(0, rooms))
  }

  /** Every seed lies within the distribution genes. */
  lemma GuessWithinGenes(js: seq<Job>, rooms: nat)
    requires GetGuess(js, rooms).Ok?
    ensures var g := GetGuess(js, rooms).value;
            var genes := DistributingGenes(|js|, rooms);
            |g| == |genes| && forall p :: 0 <= p < |g| ==> genes[p].low <= g[p] <= genes[p].high
  {
  }

  /*
   * Counting positions per room.
   */

  /** How many positions in `[a, b)` the distribution sends to room `v`. */
  function CountRange(distr: seq<int>, v: int, a: nat, b: nat): nat
    requires a <= b <= |distr|
    decreases b - a
  {
    if a == b then 0 else (if distr[a] == v then 1 else 0) + CountRange(distr, v, a + 1, b)
  }

  lemma {:induction false} CountRangeSnoc(distr: seq<int>, v: int, a: nat, b: nat)
    requires a <= b < |distr|
    ensures CountRange(distr, v, a, b + 1) == CountRange(distr, v, a, b) + (if distr[b] == v then 1 else 0)
    decreases b - a
  {
    if a < b {
      CountRangeSnoc(distr, v, a + 1, b);
    }
  }

  lemma {:induction false} CountRangeSplit(distr: seq<int>, v: int, a: nat, k: nat, b: nat)
    requires a <= k <= b <= |distr|
    ensures CountRange(distr, v, a, b) == CountRange(distr, v, a, k) + CountRange(distr, v, k, b)
    decreases k - a
  {
    if a < k {
      CountRangeSplit(distr, v, a + 1, k, b);
    }
  }

  /** The later positions sent to the same room as position `k`. */
  function Later(distr: seq<int>, k: nat): nat
    requires k < |distr|
  {
    CountRange(distr, distr[k], k + 1, |distr|)
  }

  function Get(m: map<int, int>, v: int): int {
    if v in m then m[v] else 0
  }

  /**
   * `Ordering.genes`: count each room's positions, then walk the positions
   * decrementing their room's count; the remaining count bounds the gene.
   */
  method OrderingGenes(distr: seq<int>) returns (genes: seq<Search.Gene>)
    ensures |genes| == |distr|
    ensures forall k :: 0 <= k < |distr| ==> genes[k] == Search.Gene(0, Later(distr, k))
  {
    var counts: map<int, int> := map[];
    var i := 0;
    while i < |distr|
      invariant 0 <= i <= |distr|
      invariant forall v :: Get(counts, v) == CountRange(distr, v, 0, i)
    {
      forall v ensures CountRange(distr, v, 0, i + 1) == CountRange(distr, v, 0, i) + (if distr[i] == v then 1 else 0) {
        CountRangeSnoc(distr, v, 0, i);
      }
      var before := counts;
      counts := counts[distr[i] := Get(counts, distr[i]) + 1];
      assert forall v :: Get(counts, v) == Get(before, v) + (if distr[i] == v then 1 else 0);
      i := i + 1;
    }
    genes := [];
    var k := 0;
    while k < |distr|
      invariant 0 <= k <= |distr| && |genes| == k
      invariant forall v :: Get(counts, v) == CountRange(distr, v, k, |distr|)
      invariant forall j :: 0 <= j < k ==> genes[j] == Search.Gene(0, Later(distr, j))
    {
      var before := counts;
      counts := counts[distr[k] := Get(counts, distr[k]) - 1];
      assert forall v :: Get(counts, v) == Get(before, v) - (if distr[k] == v then 1 else 0);
      assert forall v :: CountRange(distr, v, k, |distr|) == (if distr[k] == v then 1 else 0) + CountRange(distr, v, k + 1, |distr|);
      genes := genes + [Search.Gene(0, counts[distr[k]])];
      k := k + 1;
    }
  }

  /*
   * The ordering seed.
   */

  /** The positions the distribution sends to room `v`, from position `a` on, in order. */
  function Members(distr: seq<int>, v: int, a: nat): (r: seq<nat>)
    requires a <= |distr|
    ensures |r| == CountRange(distr, v, a, |distr|)
    ensures forall i :: 0 <= i < |r| ==> a <= r[i] < |distr| && distr[r[i]] == v
    decreases |distr| - a
  {
    if a == |distr| then []
    else if distr[a] == v then [a] + Members(distr, v, a + 1)
    else Members(distr, v, a + 1)
  }

  /** Position `k` sits in its room's member list after the room's earlier positions. */
  lemma {:induction false} MembersAt(distr: seq<int>, v: int, a: nat, k: nat)
    requires a <= k < |distr| && distr[k] == v
    ensures CountRange(distr, v, a, k) < |Members(distr, v, a)|
    ensures Members(distr, v, a)[CountRange(distr, v, a, k)] == k
    decreases k - a
  {
    CountRangeSplit(distr, v, a, k, |distr|);
    if a < k {
      MembersAt(distr, v, a + 1, k);
    }
  }

  function RoomJobs(js: seq<Job>, distr: seq<int>, v: int): (r: seq<Job>)
    requires |distr| <= |js|
    ensures |r| == |Members(distr, v, 0)|
  {
    var ms := Members(distr, v, 0);
    seq(|ms|, i requires 0 <= i < |ms| => js[ms[i]])
  }

  predicate NoZeroAmong(js: seq<Job>, n: nat) {
    forall i :: 0 <= i < n && i < |js| ==> js[i].punishment != 0
  }

  function Range(m: nat): (r: seq<int>)
    ensures |r| == m && forall i :: 0 <= i < m ==> r[i] == i
  {
    seq(m, i => i)
  }

  /** The ratio ranks of a room's surgeries, listed in position order. */
  function RoomRanks(js: seq<Job>, distr: seq<int>, v: int): (r: seq<int>)
    requires |distr| <= |js| && NoZeroAmong(js, |distr|)
    ensures |r| == |Members(distr, v, 0)|
    ensures Lehmer.Distinct(r) && forall i :: 0 <= i < |r| ==> 0 <= r[i] < |r| && r[i] in Range(|r|)
  {
    var sub := RoomJobs(js, distr, v);
    var r := seq(|sub|, i requires 0 <= i < |sub| => Rank(sub, i) as int);
    assert forall i, j :: 0 <= i < j < |r| ==> r[i] != r[j] by {
      forall i, j | 0 <= i < j < |r| ensures r[i] != r[j] {
        RankFacts(sub, i, j);
      }
    }
    assert forall i :: 0 <= i < |r| ==> 0 <= r[i] < |r| && r[i] in Range(|r|) by {
      forall i | 0 <= i < |r| ensures 0 <= r[i] < |r| && r[i] in Range(|r|) {
        RankFacts(sub, i, i);
        assert Range(|r|)[r[i]] == r[i];
      }
    }
    r
  }

  /** A room's seed genes: its ranks encoded against the list `0 .. m-1`. */
  function RoomCodes(js: seq<Job>, distr: seq<int>, v: int): (r: seq<int>)
    requires |distr| <= |js| && NoZeroAmong(js, |distr|)
    ensures |r| == |Members(distr, v, 0)|
    ensures forall i :: 0 <= i < |r| ==> 0 <= r[i] < |r| - i
  {
    var ranks := RoomRanks(js, distr, v);
    Lehmer.EncodeDefined(Range(|ranks|), ranks);
    Lehmer.Encode(Range(|ranks|), ranks).value
  }

  /** Decoding a room's seed genes gives back its ratio ranks. */
  lemma RoomCodesDecode(js: seq<Job>, distr: seq<int>, v: int)
    requires |distr| <= |js| && NoZeroAmong(js, |distr|)
    ensures Lehmer.OrderByIndexes(Range(|Members(distr, v, 0)|), RoomCodes(js, distr, v)) == Ok(RoomRanks(js, distr, v))
  {
    var ranks := RoomRanks(js, distr, v);
    Lehmer.PermutationRoundTrip(Range(|ranks|), ranks);
  }

  /**
   * `Ordering.get_guess`: each room's surgeries are ranked by ratio; walking
   * them in position order, each rank is replaced by its index among the
   * ranks not used yet, and that index is the position's gene.
   */
  function OrderingGuess(js: seq<Job>, distr: seq<int>): (r: Result<seq<int>>)
    ensures r.Ok? <==> |distr| <= |js| && NoZeroAmong(js, |distr|)
    ensures r.Err? ==> r.failure.Raised? && (r.failure.exc == IndexError || r.failure.exc == ZeroDivisionError)
    ensures r.Ok? ==> |r.value| == |distr| && forall k :: 0 <= k < |distr| ==> 0 <= r.value[k] <= Later(distr, k)
  {
    if |distr| > |js| then Err(Raised(IndexError, "list index out of range"))
    else if exists i | 0 <= i < |distr| :: js[i].punishment == 0 then Err(Raised(ZeroDivisionError, "division by zero"))
    else
      Ok(seq(|distr|, k requires 0 <= k < |distr| => GuessAt(js, distr, k)))
  }

  function GuessAt(js: seq<Job>, distr: seq<int>, k: nat): (g: int)
    requires k < |distr| <= |js| && NoZeroAmong(js, |distr|)
    ensures 0 <= g <= Later(distr, k)
  {
    var v := distr[k];
    var i := CountRange(distr, v, 0, k);
    MembersAt(distr, v, 0, k);
    CountRangeSplit(distr, v, 0, k, |distr|);
    RoomCodes(js, distr, v)[i]
  }

  /*
   * The score of a distribution with an ordering.
   */

  type Entry = (Job, int)

  predicate SortedByKey(s: seq<Entry>) {
    forall i, j :: 0 <= i < j < |s| ==> s[i].1 <= s[j].1
  }

  /** The entries of `s` whose key is `k`, in their order in `s`. */
  function KeyRun(s: seq<Entry>, k: int): (r: seq<Entry>)
  {
    if s == [] then []
    else if s[0].1 == k then [s[0]] + KeyRun(s[1..], k)
    else KeyRun(s[1..], k)
  }

  lemma {:induction false} KeyRunMembers(s: seq<Entry>, k: int)
    ensures forall e :: e in KeyRun(s, k) <==> e in s && e.1 == k
  {
    if s != [] {
      KeyRunMembers(s[1..], k);
      assert s == [s[0]] + s[1..];
    }
  }

  lemma {:induction false} KeyRunAppend(a: seq<Entry>, b: seq<Entry>, k: int)
    ensures KeyRun(a + b, k) == KeyRun(a, k) + KeyRun(b, k)
  {
    if a == [] {
      assert a + b == b;
    } else {
      KeyRunAppend(a[1..], b, k);
      assert (a + b)[1..] == a[1..] + b;
    }
  }

  lemma {:induction false} KeyRunAbove(s: seq<Entry>, k: int)
    requires forall i :: 0 <= i < |s| ==> k < s[i].1
    ensures KeyRun(s, k) == []
  {
    if s != [] {
      KeyRunAbove(s[1..], k);
    }
  }

  lemma KeyBound(lo: int, x: Entry, s: seq<Entry>, rest: seq<Entry>)
    requires lo <= x.1 && forall i :: 0 <= i < |s| ==> lo <= s[i].1
    requires multiset(rest) == multiset(s) + multiset{x}
    ensures forall i :: 0 <= i < |rest| ==> lo <= rest[i].1
  {
    forall i | 0 <= i < |rest| ensures lo <= rest[i].1 {
      assert rest[i] in multiset(rest);
      if rest[i] != x {
        assert rest[i] in multiset(s);
      }
    }
  }

  /** Insertion after every entry whose key is not larger: equal keys keep their order. */
  function InsertByKey(x: Entry, s: seq<Entry>): (r: seq<Entry>)
    requires SortedByKey(s)
    ensures SortedByKey(r) && multiset(r) == multiset(s) + multiset{x}
  {
    if s == [] then [x]
    else if x.1 < s[0].1 then [x] + s
    else
      var rest := InsertByKey(x, s[1..]);
      InsertByKeyStep(x, s, rest);
      [s[0]] + rest
  }

  lemma InsertByKeyStep(x: Entry, s: seq<Entry>, rest: seq<Entry>)
    requires SortedByKey(s) && s != [] && s[0].1 <= x.1
    requires SortedByKey(rest) && multiset(rest) == multiset(s[1..]) + multiset{x}
    ensures SortedByKey([s[0]] + rest) && multiset([s[0]] + rest) == multiset(s) + multiset{x}
  {
    assert s == [s[0]] + s[1..];
    KeyBound(s[0].1, x, s[1..], rest);
  }

  /** Inserting `x` puts it after every entry of its key already there. */
  lemma {:induction false} InsertKeyRun(x: Entry, s: seq<Entry>, k: int)
    requires SortedByKey(s)
    ensures KeyRun(InsertByKey(x, s), k) == KeyRun(s + [x], k)
  {
    if s == [] {
      assert s + [x] == [x];
    } else if x.1 < s[0].1 {
      InsertFrontKeyRun(x, s, k);
    } else {
      var rest := InsertByKey(x, s[1..]);
      assert InsertByKey(x, s) == [s[0]] + rest;
      InsertKeyRun(x, s[1..], k);
      assert s + [x] == [s[0]] + (s[1..] + [x]);
      KeyRunAppend([s[0]], s[1..] + [x], k);
      KeyRunAppend([s[0]], rest, k);
    }
  }

  lemma InsertFrontKeyRun(x: Entry, s: seq<Entry>, k: int)
    requires SortedByKey(s) && s != [] && x.1 < s[0].1
    ensures KeyRun([x] + s, k) == KeyRun(s + [x], k)
  {
    KeyRunAppend([x], s, k);
    KeyRunAppend(s, [x], k);
    if k == x.1 {
      KeyRunAbove(s, k);
    }
  }

  lemma KeyRunsStep(x: Entry, init: seq<Entry>, sorted: seq<Entry>)
    requires SortedByKey(sorted) && forall k :: KeyRun(sorted, k) == KeyRun(init, k)
    ensures forall k :: KeyRun(InsertByKey(x, sorted), k) == KeyRun(init + [x], k)
  {
    forall k ensures KeyRun(InsertByKey(x, sorted), k) == KeyRun(init + [x], k) {
      InsertKeyRun(x, sorted, k);
      KeyRunAppend(sorted, [x], k);
      KeyRunAppend(init, [x], k);
    }
  }

  /** Python's stable `list.sort(key=lambda x: x[1])`. */
  function SortByKey(s: seq<Entry>): (r: seq<Entry>)
    ensures SortedByKey(r) && multiset(r) == multiset(s)
  {
    if s == [] then []
    else
      var init := s[..|s| - 1];
      assert s == init + [s[|s| - 1]];
      InsertByKey(s[|s| - 1], SortByKey(init))
  }

  lemma NoRunsIsEmpty(s: seq<Entry>)
    ensures (forall k :: KeyRun(s, k) == []) ==> s == []
  {
    if s != [] {
      KeyRunMembers(s, s[0].1);
      assert s[0] in KeyRun(s, s[0].1);
    }
  }

  lemma SameFirstKey(a: seq<Entry>, b: seq<Entry>)
    requires SortedByKey(a) && SortedByKey(b) && a != [] && b != []
    requires forall k :: KeyRun(a, k) == KeyRun(b, k)
    ensures a[0].1 == b[0].1
  {
    var m, n := a[0].1, b[0].1;
    KeyRunMembers(b, m);
    KeyRunMembers(a, n);
    assert a[0] in KeyRun(b, m);
    var i :| 0 <= i < |b| && b[i] == a[0];
    assert n <= m by { if i > 0 { assert b[0].1 <= b[i].1; } }
    assert b[0] in KeyRun(a, n);
    var j :| 0 <= j < |a| && a[j] == b[0];
    assert m <= n by { if j > 0 { assert a[0].1 <= a[j].1; } }
  }

  lemma SameHead(a: seq<Entry>, b: seq<Entry>)
    requires a != [] && b != [] && a[0].1 == b[0].1
    requires KeyRun(a, a[0].1) == KeyRun(b, a[0].1)
    ensures a[0] == b[0]
  {
    assert KeyRun(a, a[0].1)[0] == a[0];
    assert KeyRun(b, b[0].1)[0] == b[0];
  }

  lemma SameTailRun(a: seq<Entry>, b: seq<Entry>, k: int)
    requires a != [] && b != [] && a[0] == b[0]
    requires KeyRun(a, k) == KeyRun(b, k)
    ensures KeyRun(a[1..], k) == KeyRun(b[1..], k)
  {
    if k == a[0].1 {
      assert KeyRun(a[1..], k) == KeyRun(a, k)[1..];
      assert KeyRun(b[1..], k) == KeyRun(b, k)[1..];
    }
  }

  /** The sort is stable: the entries sharing a key keep their relative order. */
  lemma {:induction false} SortByKeyStable(s: seq<Entry>)
    ensures forall k :: KeyRun(SortByKey(s), k) == KeyRun(s, k)
  {
    if s != [] {
      var init := s[..|s| - 1];
      assert s == init + [s[|s| - 1]];
      SortByKeyStable(init);
      KeyRunsStep(s[|s| - 1], init, SortByKey(init));
    }
  }

  /** A key-sorted sequence is fixed by its runs of equal keys. */
  lemma {:induction false} KeyRunsDetermine(a: seq<Entry>, b: seq<Entry>)
    requires SortedByKey(a) && SortedByKey(b)
    requires forall k :: KeyRun(a, k) == KeyRun(b, k)
    ensures a == b
  {
    if a != [] && b != [] {
      SameFirstKey(a, b);
      SameHead(a, b);
      forall k ensures KeyRun(a[1..], k) == KeyRun(b[1..], k) {
        SameTailRun(a, b, k);
      }
      KeyRunsDetermine(a[1..], b[1..]);
      assert a == [a[0]] + a[1..] && b == [b[0]] + b[1..];
    } else {
      NoRunsIsEmpty(a);
      NoRunsIsEmpty(b);
    }
  }

  /** The stable sort is the only key-sorted order that keeps every run of equal keys. */
  lemma StableSortUnique(s: seq<Entry>, es: seq<Entry>)
    requires SortedByKey(es) && forall k :: KeyRun(es, k) == KeyRun(s, k)
    ensures es == SortByKey(s)
  {
    SortByKeyStable(s);
    KeyRunsDetermine(es, SortByKey(s));
  }

  lemma {:induction false} InsertAtEnd(x: Entry, s: seq<Entry>)
    requires SortedByKey(s) && forall i :: 0 <= i < |s| ==> s[i].1 <= x.1
    ensures InsertByKey(x, s) == s + [x]
  {
    if s != [] {
      InsertAtEnd(x, s[1..]);
      assert s == [s[0]] + s[1..];
    }
  }

  /** Entries already in key order are left as they are (the sort is stable). */
  lemma {:induction false} SortSortedIsIdentity(s: seq<Entry>)
    requires SortedByKey(s)
    ensures SortByKey(s) == s
  {
    if s != [] {
      var init := s[..|s| - 1];
      SortSortedIsIdentity(init);
      InsertAtEnd(s[|s| - 1], init);
      assert init + [s[|s| - 1]] == s;
    }
  }

  /** A room's surgeries with their order genes, in position order. */
  function RoomEntries(js: seq<Job>, distr: seq<int>, order: seq<int>, v: int): (r: seq<Entry>)
    requires |distr| <= |js| && |distr| <= |order|
    ensures |r| == |Members(distr, v, 0)|
  {
    var ms := Members(distr, v, 0);
    seq(|ms|, i requires 0 <= i < |ms| => (js[ms[i]], order[ms[i]]))
  }

  function JobsOf(s: seq<Entry>): (r: seq<Job>)
    ensures |r| == |s| && forall i :: 0 <= i < |s| ==> r[i] == s[i].0
  {
    seq(|s|, i requires 0 <= i < |s| => s[i].0)
  }

  /** The penalty of a room: its surgeries run in ascending order gene. */
  function RoomPenalty(js: seq<Job>, distr: seq<int>, order: seq<int>, v: int): (r: int)
    requires |distr| <= |js| && |distr| <= |order|
    ensures exists es :: SortedByKey(es) && multiset(es) == multiset(RoomEntries(js, distr, order, v)) &&
                         (forall k :: KeyRun(es, k) == KeyRun(RoomEntries(js, distr, order, v), k)) &&
                         r == Weighted.Total(JobsOf(es))
  {
    SortByKeyStable(RoomEntries(js, distr, order, v));
    Weighted.Total(JobsOf(SortByKey(RoomEntries(js, distr, order, v))))
  }

  /**
   * Any key-sorted order of a room that keeps its tied surgeries in
   * position order gives the room's penalty: ties cannot change the score.
   */
  lemma RoomPenaltyOfStableOrder(js: seq<Job>, distr: seq<int>, order: seq<int>, v: int, es: seq<Entry>)
    requires |distr| <= |js| && |distr| <= |order|
    requires SortedByKey(es) && forall k :: KeyRun(es, k) == KeyRun(RoomEntries(js, distr, order, v), k)
    ensures RoomPenalty(js, distr, order, v) == Weighted.Total(JobsOf(es))
  {
    StableSortUnique(RoomEntries(js, distr, order, v), es);
  }

  /** The rooms of a distribution, each once, in order of first appearance. */
  function RoomsOf(distr: seq<int>): (r: seq<int>)
    ensures forall v :: v in r <==> v in distr
    ensures Lehmer.Distinct(r)
  {
    if distr == [] then []
    else
      var init := distr[..|distr| - 1];
      var rs := RoomsOf(init);
      assert distr == init + [distr[|distr| - 1]];
      if distr[|distr| - 1] in rs then rs else rs + [distr[|distr| - 1]]
  }

  function PenaltySum(js: seq<Job>, distr: seq<int>, order: seq<int>, rooms: seq<int>): int
    requires |distr| <= |js| && |distr| <= |order|
  {
    if rooms == [] then 0
    else RoomPenalty(js, distr, order, rooms[0]) + PenaltySum(js, distr, order, rooms[1..])
  }

  /**
   * `room_fitness_func` (ordering and penalty): each room's surgeries sorted
   * by their order gene, the room penalties summed; the score is minus the
   * sum, and the best so far (None: infinity) is replaced only on a strict
   * improvement.
   */
  function RoomFitness(js: seq<Job>, distr: seq<int>, order: seq<int>, best: Option<int>): (r: Result<(int, Option<int>)>)
    ensures r.Ok? <==> |distr| <= |js| && |distr| <= |order|
    ensures r.Err? ==> r.failure == Raised(IndexError, "list index out of range")
    ensures r.Ok? ==> var total := -r.value.0;
                      (best.None? || total < best.value ==> r.value.1 == Some(total)) &&
                      (best.Some? && best.value <= total ==> r.value.1 == best)
    ensures r.Ok? && best.Some? ==> r.value.1.Some? && r.value.1.value <= best.value
    ensures r.Ok? ==> r.value.0 == -PenaltySum(js, distr, order, RoomsOf(distr))
  {
    if |distr| > |js| || |distr| > |order| then Err(Raised(IndexError, "list index out of range"))
    else
      var total := PenaltySum(js, distr, order, RoomsOf(distr));
      var best' := if best.None? || total < best.value then Some(total) else best;
      Ok((-total, best'))
  }

  /** Order genes that never decrease along the positions run every room in position order. */
  lemma NondecreasingOrderKeepsPositions(js: seq<Job>, distr: seq<int>, order: seq<int>, v: int)
    requires |distr| <= |js| && |distr| <= |order|
    requires forall i, j :: 0 <= i < j < |distr| ==> order[i] <= order[j]
    ensures RoomPenalty(js, distr, order, v) == Weighted.Total(RoomJobs(js, distr, v))
  {
    var es := RoomEntries(js, distr, order, v);
    var ms := Members(distr, v, 0);
    MembersIncreasing(distr, v, 0);
    assert SortedByKey(es);
    SortSortedIsIdentity(es);
    assert JobsOf(es) == RoomJobs(js, distr, v);
  }

  /** The penalties of the rooms `rooms` with each room run in position order. */
  function PositionPenaltySum(js: seq<Job>, distr: seq<int>, rooms: seq<int>): int
    requires |distr| <= |js|
  {
    if rooms == [] then 0
    else Weighted.Total(RoomJobs(js, distr, rooms[0])) + PositionPenaltySum(js, distr, rooms[1..])
  }

  lemma {:induction false} PenaltySumInPositionOrder(js: seq<Job>, distr: seq<int>, order: seq<int>, rooms: seq<int>)
    requires |distr| <= |js| && |distr| <= |order|
    requires forall i, j :: 0 <= i < j < |distr| ==> order[i] <= order[j]
    ensures PenaltySum(js, distr, order, rooms) == PositionPenaltySum(js, distr, rooms)
  {
    if rooms != [] {
      NondecreasingOrderKeepsPositions(js, distr, order, rooms[0]);
      PenaltySumInPositionOrder(js, distr, order, rooms[1..]);
    }
  }

  /**
   * With order genes that never decrease, the score is minus the summed
   * penalty of every room run in position order, whatever the genes' values.
   */
  lemma RoomFitnessInPositionOrder(js: seq<Job>, distr: seq<int>, order: seq<int>, best: Option<int>)
    requires |distr| <= |js| && |distr| <= |order|
    requires forall i, j :: 0 <= i < j < |distr| ==> order[i] <= order[j]
    ensures RoomFitness(js, distr, order, best).Ok?
    ensures RoomFitness(js, distr, order, best).value.0 == -PositionPenaltySum(js, distr, RoomsOf(distr))
  {
    PenaltySumInPositionOrder(js, distr, order, RoomsOf(distr));
  }

  lemma {:induction false} MembersIncreasing(distr: seq<int>, v: int, a: nat)
    requires a <= |distr|
    ensures forall i, j :: 0 <= i < j < |Members(distr, v, a)| ==> Members(distr, v, a)[i] < Members(distr, v, a)[j]
    decreases |distr| - a
  {
    if a < |distr| {
      MembersIncreasing(distr, v, a + 1);
    }
  }

  /*
   * The ordering seed against the ordering score.
   */

  /** Entry `i` of a room's member list is the room's position counted `i` within it. */
  lemma MemberCount(distr: seq<int>, v: int, i: nat)
    requires i < |Members(distr, v, 0)|
    ensures CountRange(distr, v, 0, Members(distr, v, 0)[i]) == i
  {
    var ms := Members(distr, v, 0);
    MembersAt(distr, v, 0, ms[i]);
    MembersIncreasing(distr, v, 0);
  }

  predicate RatioSorted(s: seq<Job>) {
    NoZeroPunishment(s) && forall i, j :: 0 <= i < j < |s| ==> Ratio(s[i]) <= Ratio(s[j])
  }

  /** Entries keyed by ratio rank come out of the key sort in ascending ratio. */
  lemma RankKeyedSortsByRatio(sub: seq<Job>, en: seq<Entry>, es: seq<Entry>, i: nat, j: nat)
    requires NoZeroPunishment(sub) && |en| == |sub|
    requires forall p :: 0 <= p < |en| ==> en[p] == (sub[p], Rank(sub, p) as int)
    requires SortedByKey(es) && multiset(es) == multiset(en)
    requires i <= j < |es|
    ensures es[i].0.punishment != 0 && es[j].0.punishment != 0
    ensures Ratio(es[i].0) <= Ratio(es[j].0)
  {
    assert es[i] in multiset(en) && es[j] in multiset(en);
    var p :| 0 <= p < |en| && en[p] == es[i];
    var q :| 0 <= q < |en| && en[q] == es[j];
    RankFacts(sub, q, p);
  }

  /*
   * The ordering score with the genes decoded.
   */

  /** A room's order genes, in position order. */
  function RoomGenes(distr: seq<int>, order: seq<int>, v: int): (r: seq<int>)
    requires |distr| <= |order|
    ensures |r| == |Members(distr, v, 0)|
    ensures forall i :: 0 <= i < |r| ==> r[i] == order[Members(distr, v, 0)[i]]
  {
    var ms := Members(distr, v, 0);
    seq(|ms|, i requires 0 <= i < |ms| => order[ms[i]])
  }

  /** A room's surgeries, in position order, each keyed by its slot. */
  function Slotted(sub: seq<Job>, slots: seq<int>): (r: seq<Entry>)
    requires |slots| == |sub|
    ensures |r| == |sub| && forall p :: 0 <= p < |sub| ==> r[p] == (sub[p], slots[p])
  {
    seq(|sub|, p requires 0 <= p < |sub| => (sub[p], slots[p]))
  }

  lemma JobsOfAppend(a: seq<Entry>, b: seq<Entry>)
    ensures JobsOf(a + b) == JobsOf(a) + JobsOf(b)
  {
  }

  /** Taking one entry out takes its surgery out of the surgeries. */
  lemma JobsOfRemove(b: seq<Entry>, i: nat)
    requires i < |b|
    ensures multiset(JobsOf(b)) == multiset(JobsOf(b[..i] + b[i + 1..])) + multiset{b[i].0}
  {
    var u, w := JobsOf(b[..i]), JobsOf(b[i + 1..]);
    assert b == b[..i] + ([b[i]] + b[i + 1..]);
    assert JobsOf([b[i]]) == [b[i].0];
    JobsOfAppend([b[i]], b[i + 1..]);
    JobsOfAppend(b[..i], [b[i]] + b[i + 1..]);
    JobsOfAppend(b[..i], b[i + 1..]);
  }

  /** Removing the same entry from two reorderings of each other leaves two reorderings of each other. */
  lemma RemoveMatching(a: seq<Entry>, b: seq<Entry>, i: nat)
    requires multiset(a) == multiset(b) && a != [] && i < |b| && b[i] == a[0]
    ensures multiset(a[1..]) == multiset(b[..i] + b[i + 1..])
  {
    var x, rest := a[0], b[..i] + b[i + 1..];
    assert a == [x] + a[1..];
    assert b == b[..i] + [x] + b[i + 1..];
    assert multiset(b) == multiset(b[..i]) + multiset{x} + multiset(b[i + 1..]);
    assert multiset(rest) == multiset(b[..i]) + multiset(b[i + 1..]);
    assert multiset{x} + multiset(a[1..]) == multiset{x} + multiset(rest);
    assert multiset(a[1..]) == (multiset{x} + multiset(a[1..])) - multiset{x};
    assert multiset(rest) == (multiset{x} + multiset(rest)) - multiset{x};
  }

  /** Reordering entries reorders their surgeries alike. */
  lemma {:induction false} JobsOfPermutation(a: seq<Entry>, b: seq<Entry>)
    requires multiset(a) == multiset(b)
    ensures multiset(JobsOf(a)) == multiset(JobsOf(b))
    decreases |a|
  {
    if a == [] {
      assert |b| == |multiset(b)| == 0;
    } else {
      assert a[0] in multiset(b);
      var i :| 0 <= i < |b| && b[i] == a[0];
      var rest := b[..i] + b[i + 1..];
      RemoveMatching(a, b, i);
      JobsOfPermutation(a[1..], rest);
      JobsOfMatchStep(a, b, i);
    }
  }

  /** The step of `JobsOfPermutation`: matching heads and reordered tails give reordered surgeries. */
  lemma JobsOfMatchStep(a: seq<Entry>, b: seq<Entry>, i: nat)
    requires a != [] && i < |b| && b[i] == a[0]
    requires multiset(JobsOf(a[1..])) == multiset(JobsOf(b[..i] + b[i + 1..]))
    ensures multiset(JobsOf(a)) == multiset(JobsOf(b))
  {
    JobsOfRemove(a, 0);
    assert a[..0] + a[1..] == a[1..];
    JobsOfRemove(b, i);
  }

  /**
   * A room run the way its seed is written: its genes are pop indexes into
   * the list `0 .. m-1`, so decoding them gives each surgery its slot, and
   * the room runs in slot order. A gene past the shrinking list raises
   * IndexError, as `pop` does.
   */
  function DecodedRoomOrder(js: seq<Job>, distr: seq<int>, order: seq<int>, v: int): (r: Result<seq<Job>>)
    requires |distr| <= |js| && |distr| <= |order|
    ensures r.Ok? <==> Lehmer.InRange(|Members(distr, v, 0)|, RoomGenes(distr, order, v))
    ensures r.Err? ==> r.failure.Raised? && r.failure.exc == IndexError
    ensures r.Ok? ==> multiset(r.value) == multiset(RoomJobs(js, distr, v))
  {
    var sub := RoomJobs(js, distr, v);
    var slots :- Lehmer.OrderByIndexes(Range(|sub|), RoomGenes(distr, order, v));
    var es := SortByKey(Slotted(sub, slots));
    JobsOfPermutation(es, Slotted(sub, slots));
    assert JobsOf(Slotted(sub, slots)) == sub;
    Ok(JobsOf(es))
  }

  /** The decoded penalties of the rooms `rooms`, summed. */
  function DecodedPenaltySum(js: seq<Job>, distr: seq<int>, order: seq<int>, rooms: seq<int>): (r: Result<int>)
    requires |distr| <= |js| && |distr| <= |order|
    ensures r.Ok? <==> forall i :: 0 <= i < |rooms| ==> DecodedRoomOrder(js, distr, order, rooms[i]).Ok?
    ensures r.Err? ==> r.failure.Raised? && r.failure.exc == IndexError
  {
    if rooms == [] then Ok(0)
    else
      var first :- DecodedRoomOrder(js, distr, order, rooms[0]);
      var rest :- DecodedPenaltySum(js, distr, order, rooms[1..]);
      Ok(Weighted.Total(first) + rest)
  }

  /**
   * The ordering score the seed is written for: as `room_fitness_func`,
   * but each room runs in the order its genes decode to.
   */
  function DecodedRoomFitness(js: seq<Job>, distr: seq<int>, order: seq<int>): (r: Result<int>)
    ensures r.Ok? <==> |distr| <= |js| && |distr| <= |order| &&
                       forall v :: v in distr ==> DecodedRoomOrder(js, distr, order, v).Ok?
    ensures r.Err? ==> r.failure.Raised? && r.failure.exc == IndexError
  {
    if |distr| > |js| || |distr| > |order| then Err(Raised(IndexError, "list index out of range"))
    else
      var rooms := RoomsOf(distr);
      assert (forall i :: 0 <= i < |rooms| ==> DecodedRoomOrder(js, distr, order, rooms[i]).Ok?) <==>
             (forall v :: v in distr ==> DecodedRoomOrder(js, distr, order, v).Ok?);
      var total :- DecodedPenaltySum(js, distr, order, rooms);
      Ok(-total)
  }

  /** Position `i` of a room has `m - 1 - i` later positions in the room. */
  lemma LaterOfMember(distr: seq<int>, v: int, i: nat)
    requires i < |Members(distr, v, 0)|
    ensures Later(distr, Members(distr, v, 0)[i]) == |Members(distr, v, 0)| - 1 - i
  {
    var k := Members(distr, v, 0)[i];
    MemberCount(distr, v, i);
    CountRangeSplit(distr, v, 0, k, |distr|);
  }

  /** Every individual of the ordering gene space decodes in every room. */
  lemma GenesDecode(js: seq<Job>, distr: seq<int>, order: seq<int>)
    requires |distr| <= |js| && |distr| <= |order|
    requires forall k :: 0 <= k < |distr| ==> 0 <= order[k] <= Later(distr, k)
    ensures DecodedRoomFitness(js, distr, order).Ok?
  {
    forall v | v in distr ensures DecodedRoomOrder(js, distr, order, v).Ok? {
      var m := |Members(distr, v, 0)|;
      var genes := RoomGenes(distr, order, v);
      forall i | 0 <= i < m ensures -(m - i) <= genes[i] < m - i {
        LaterOfMember(distr, v, i);
      }
    }
  }

  /**
   * Decoded, the seed `get_guess` writes runs every room in ascending
   * ratio: the genes decode to the ratio ranks, and the ranks are the slots.
   */
  lemma DecodedGuessRunsByRatio(js: seq<Job>, distr: seq<int>, v: int)
    requires OrderingGuess(js, distr).Ok?
    ensures DecodedRoomFitness(js, distr, OrderingGuess(js, distr).value).Ok?
    ensures DecodedRoomOrder(js, distr, OrderingGuess(js, distr).value, v).Ok?
    ensures RatioSorted(DecodedRoomOrder(js, distr, OrderingGuess(js, distr).value, v).value)
  {
    var g := OrderingGuess(js, distr).value;
    GenesDecode(js, distr, g);
    var sub := RoomJobs(js, distr, v);
    var ms := Members(distr, v, 0);
    assert RoomGenes(distr, g, v) == RoomCodes(js, distr, v) by {
      forall i | 0 <= i < |ms| ensures RoomGenes(distr, g, v)[i] == RoomCodes(js, distr, v)[i] {
        MemberCount(distr, v, i);
        assert g[ms[i]] == GuessAt(js, distr, ms[i]);
      }
    }
    RoomCodesDecode(js, distr, v);
    var ranks := RoomRanks(js, distr, v);
    var en := Slotted(sub, ranks);
    var es := SortByKey(en);
    assert DecodedRoomOrder(js, distr, g, v) == Ok(JobsOf(es));
    assert NoZeroPunishment(sub) by {
      forall p | 0 <= p < |sub| ensures sub[p].punishment != 0 {
        assert sub[p] == js[ms[p]];
      }
    }
    forall p | 0 <= p < |en| ensures en[p] == (sub[p], Rank(sub, p) as int) {
    }
    var jobs := JobsOf(es);
    forall i | 0 <= i < |jobs| ensures jobs[i].punishment != 0 {
      RankKeyedSortsByRatio(sub, en, es, i, i);
    }
    forall i, j | 0 <= i < j < |jobs| ensures Ratio(jobs[i]) <= Ratio(jobs[j]) {
      RankKeyedSortsByRatio(sub, en, es, i, j);
    }
  }

  /** The example room: surgeries of durations 2, 1 and 3, all of punishment 1, in one room. */
  function ExampleJobs(): seq<Job> {
    [Weighted.Job(2, 1), Weighted.Job(1, 1), Weighted.Job(3, 1)]
  }

  lemma ExampleRanks()
    ensures Members([0, 0, 0], 0, 0) == [0, 1, 2]
    ensures RoomJobs(ExampleJobs(), [0, 0, 0], 0) == ExampleJobs()
    ensures RoomRanks(ExampleJobs(), [0, 0, 0], 0) == [1, 0, 2]
  {
    var js := ExampleJobs();
    assert Members([0, 0, 0], 0, 2) == [2];
    assert Members([0, 0, 0], 0, 1) == [1, 2];
    assert RoomJobs(js, [0, 0, 0], 0) == js;
    assert Rank(js, 0) == 1 by {
      assert CountBefore(js, 0, 1) == 0;
      assert CountBefore(js, 0, 2) == 1;
    }
    assert Rank(js, 1) == 0 by {
      assert CountBefore(js, 1, 1) == 0;
      assert CountBefore(js, 1, 2) == 0;
    }
    assert Rank(js, 2) == 2 by {
      assert CountBefore(js, 2, 1) == 1;
      assert CountBefore(js, 2, 2) == 2;
    }
  }

  lemma EncodeOne(c: int)
    ensures Lehmer.Encode([c], [c]) == Ok([0])
  {
    assert IndexOf([c], c) == 0;
    assert [c][..0] + [c][1..] == [] && [c][1..] == [];
    assert Lehmer.Encode([], []) == Ok([]);
    assert [0] + [] == [0];
  }

  lemma EncodeTwo(a: int, c: int)
    requires a != c
    ensures Lehmer.Encode([a, c], [a, c]) == Ok([0, 0])
  {
    EncodeOne(c);
    assert IndexOf([a, c], a) == 0;
    assert [a, c][..0] + [a, c][1..] == [c] && [a, c][1..] == [c];
    assert [0] + [0] == [0, 0];
  }

  lemma EncodeSwapFirst(a: int, b: int, c: int)
    requires a != b && a != c && b != c
    ensures Lehmer.Encode([a, b, c], [b, a, c]) == Ok([1, 0, 0])
  {
    EncodeTwo(a, c);
    assert IndexOf([a, b, c], b) == 1 by {
      assert [a, b, c][1..] == [b, c];
    }
    assert [a, b, c][..1] + [a, b, c][2..] == [a, c] && [b, a, c][1..] == [a, c];
    assert [1] + [0, 0] == [1, 0, 0];
  }

  lemma ExampleCodes()
    ensures RoomCodes(ExampleJobs(), [0, 0, 0], 0) == [1, 0, 0]
  {
    assert RoomRanks(ExampleJobs(), [0, 0, 0], 0) == [1, 0, 2] by {
      ExampleRanks();
    }
    assert Range(3) == [0, 1, 2];
    EncodeSwapFirst(0, 1, 2);
  }

  lemma ExampleCounts()
    ensures CountRange([0, 0, 0], 0, 0, 0) == 0
    ensures CountRange([0, 0, 0], 0, 0, 1) == 1
    ensures CountRange([0, 0, 0], 0, 0, 2) == 2
  {
  }

  /** The seed `OrderingGuess` writes for the example room is [1, 0, 0]. */
  lemma SeedCodesExample()
    ensures OrderingGuess(ExampleJobs(), [0, 0, 0]) == Ok([1, 0, 0])
  {
    ExampleCodes();
    ExampleCounts();
    var g := OrderingGuess(ExampleJobs(), [0, 0, 0]).value;
    assert g[0] == 1 && g[1] == 0 && g[2] == 0;
    assert g == [1, 0, 0];
  }

  lemma ExampleEntries(order: seq<int>)
    requires |order| == 3
    ensures RoomEntries(ExampleJobs(), [0, 0, 0], order, 0) == [(ExampleJobs()[0], order[0]), (ExampleJobs()[1], order[1]), (ExampleJobs()[2], order[2])]
  {
    ExampleRanks();
  }

  /** Swapping two leading entries of different keys keeps every run of equal keys. */
  lemma KeyRunSwap(x: Entry, y: Entry, z: Entry, k: int)
    requires x.1 != y.1
    ensures KeyRun([y, x, z], k) == KeyRun([x, y, z], k)
  {
    assert [y, x, z][1..] == [x, z] && [x, z][1..] == [z];
    assert [x, y, z][1..] == [y, z] && [y, z][1..] == [z];
  }

  /** Moving a leading entry past two of other keys keeps every run of equal keys. */
  lemma KeyRunRotate(x: Entry, y: Entry, z: Entry, k: int)
    requires x.1 != y.1 && x.1 != z.1
    ensures KeyRun([y, z, x], k) == KeyRun([x, y, z], k)
  {
    assert [y, z] + [x] == [y, z, x] && [x] + [y, z] == [x, y, z];
    KeyRunAppend([y, z], [x], k);
    KeyRunAppend([x], [y, z], k);
    assert KeyRun([x], k) == (if x.1 == k then [x] else []) by {
      assert [x][1..] == [];
    }
    if k == x.1 {
      assert KeyRun([y, z], k) == [] by {
        assert [y, z][1..] == [z] && [z][1..] == [];
      }
    }
  }

  lemma SortThreeBetween(x: Entry, y: Entry, z: Entry)
    requires y.1 <= z.1 < x.1
    ensures SortByKey([x, y, z]) == [y, z, x]
  {
    forall k ensures KeyRun([y, z, x], k) == KeyRun([x, y, z], k) {
      KeyRunRotate(x, y, z, k);
    }
    StableSortUnique([x, y, z], [y, z, x]);
  }

  lemma SortThreeAbove(x: Entry, y: Entry, z: Entry)
    requires y.1 < x.1 <= z.1
    ensures SortByKey([x, y, z]) == [y, x, z]
  {
    forall k ensures KeyRun([y, x, z], k) == KeyRun([x, y, z], k) {
      KeyRunSwap(x, y, z, k);
    }
    StableSortUnique([x, y, z], [y, x, z]);
  }

  lemma JobsOfThree(a: Entry, b: Entry, c: Entry)
    ensures JobsOf([a, b, c]) == [a.0, b.0, c.0]
  {
  }

  /** The weighted total of three punishment-1 surgeries is the first duration twice plus the second once. */
  lemma TotalOfThree(a: Job, b: Job, c: Job)
    requires a.punishment == 1 && b.punishment == 1 && c.punishment == 1
    ensures Weighted.Total([a, b, c]) == 2 * a.duration + b.duration
  {
    assert [a, b, c][..2] == [a, b] && [a, b][..1] == [a] && [a][..0] == [];
    assert Weighted.SumDur([a]) == a.duration;
    assert Weighted.SumDur([a, b]) == a.duration + b.duration;
    assert Weighted.Total([a]) == 0;
    assert Weighted.Total([a, b]) == a.duration;
  }

  /** The score reads the seed [1, 0, 0] as durations 1, 3, 2. */
  lemma ExampleRunMisordered()
    ensures JobsOf(SortByKey(RoomEntries(ExampleJobs(), [0, 0, 0], [1, 0, 0], 0))) == [ExampleJobs()[1], ExampleJobs()[2], ExampleJobs()[0]]
  {
    var js := ExampleJobs();
    ExampleEntries([1, 0, 0]);
    SortThreeBetween((js[0], 1), (js[1], 0), (js[2], 0));
    JobsOfThree((js[1], 0), (js[2], 0), (js[0], 1));
  }

  /** Under the seed `OrderingGuess` writes, the example room does not run in ratio order. */
  lemma SeedMisorders()
    ensures !RatioSorted(JobsOf(SortByKey(RoomEntries(ExampleJobs(), [0, 0, 0], [1, 0, 0], 0))))
  {
    var js := ExampleJobs();
    assert !RatioSorted([js[1], js[2], js[0]]) by {
      assert js[0] == Weighted.Job(2, 1) && js[2] == Weighted.Job(3, 1);
      OutOfRatioOrder([js[1], js[2], js[0]], 1, 2);
    }
    ExampleRunMisordered();
  }

  lemma OutOfRatioOrder(s: seq<Job>, i: nat, j: nat)
    requires i < j < |s| && s[i].punishment != 0 && s[j].punishment != 0
    requires Ratio(s[j]) < Ratio(s[i])
    ensures !RatioSorted(s)
  {
  }

  /** Under the seed `OrderingGuess` writes, the example room's penalty is 5. */
  lemma SeedPenalty()
    ensures RoomPenalty(ExampleJobs(), [0, 0, 0], [1, 0, 0], 0) == 5
  {
    var js := ExampleJobs();
    ExampleRunMisordered();
    TotalOfThree(js[1], js[2], js[0]);
  }

  lemma ExampleGenes()
    ensures RoomGenes([0, 0, 0], [1, 0, 0], 0) == [1, 0, 0]
  {
    ExampleRanks();
  }

  /** Decoded against `0 .. 2`, the example seed gives the slots [1, 0, 2]. */
  lemma ExampleSlots()
    ensures Lehmer.OrderByIndexes(Range(3), [1, 0, 0]) == Ok([1, 0, 2])
  {
    ExampleRanks();
    ExampleCodes();
    RoomCodesDecode(ExampleJobs(), [0, 0, 0], 0);
  }

  /** Decoded against the room's positions, the example seed gives the slots 1, 0, 2. */
  lemma ExampleSlotted()
    ensures Lehmer.OrderByIndexes(Range(|RoomJobs(ExampleJobs(), [0, 0, 0], 0)|), RoomGenes([0, 0, 0], [1, 0, 0], 0)) == Ok([1, 0, 2])
  {
    assert |RoomJobs(ExampleJobs(), [0, 0, 0], 0)| == 3 by {
      ExampleRanks();
    }
    assert RoomGenes([0, 0, 0], [1, 0, 0], 0) == [1, 0, 0] by {
      ExampleGenes();
    }
    ExampleSlots();
  }

  /** Once a room's genes decode to `slots`, the room runs its surgeries sorted by slot. */
  lemma DecodedOrderBySlots(js: seq<Job>, distr: seq<int>, order: seq<int>, v: int, slots: seq<int>)
    requires |distr| <= |js| && |distr| <= |order|
    requires Lehmer.OrderByIndexes(Range(|RoomJobs(js, distr, v)|), RoomGenes(distr, order, v)) == Ok(slots)
    ensures |slots| == |RoomJobs(js, distr, v)|
    ensures DecodedRoomOrder(js, distr, order, v) == Ok(JobsOf(SortByKey(Slotted(RoomJobs(js, distr, v), slots))))
  {
  }

  /** Sorted by the slots 1, 0, 2, the example room runs as durations 1, 2, 3. */
  lemma ExampleSortedBySlots()
    ensures JobsOf(SortByKey(Slotted(RoomJobs(ExampleJobs(), [0, 0, 0], 0), [1, 0, 2]))) == [ExampleJobs()[1], ExampleJobs()[0], ExampleJobs()[2]]
  {
    var js := ExampleJobs();
    var x, y, z := (js[0], 1), (js[1], 0), (js[2], 2);
    assert SortByKey([x, y, z]) == [y, x, z] by {
      SortThreeAbove(x, y, z);
    }
    assert JobsOf([y, x, z]) == [js[1], js[0], js[2]] by {
      JobsOfThree(y, x, z);
    }
    assert Slotted(RoomJobs(js, [0, 0, 0], 0), [1, 0, 2]) == [x, y, z] by {
      ExampleRanks();
      assert js == [js[0], js[1], js[2]];
      SlottedThree(js[0], js[1], js[2], 1, 0, 2);
    }
  }

  lemma SlottedThree(a: Job, b: Job, c: Job, p: int, q: int, r: int)
    ensures Slotted([a, b, c], [p, q, r]) == [(a, p), (b, q), (c, r)]
  {
  }

  /** Decoded, the seed [1, 0, 0] runs the example room as durations 1, 2, 3. */
  lemma DecodedSeedOrder()
    ensures DecodedRoomOrder(ExampleJobs(), [0, 0, 0], [1, 0, 0], 0) == Ok([ExampleJobs()[1], ExampleJobs()[0], ExampleJobs()[2]])
  {
    ExampleSlotted();
    DecodedOrderBySlots(ExampleJobs(), [0, 0, 0], [1, 0, 0], 0, [1, 0, 2]);
    ExampleSortedBySlots();
  }

  /** Decoded, the seed [1, 0, 0] gives the example room the penalty 4, against 5 as written. */
  lemma DecodedSeedPenalty()
    ensures DecodedRoomOrder(ExampleJobs(), [0, 0, 0], [1, 0, 0], 0).Ok?
    ensures Weighted.Total(DecodedRoomOrder(ExampleJobs(), [0, 0, 0], [1, 0, 0], 0).value) == 4
  {
    var js := ExampleJobs();
    DecodedSeedOrder();
    TotalOfThree(js[1], js[0], js[2]);
  }

  /** A second example room: surgeries of durations 3, 1 and 2, all of punishment 1. */
  function RotatedJobs(): seq<Job> {
    [Weighted.Job(3, 1), Weighted.Job(1, 1), Weighted.Job(2, 1)]
  }

  lemma RotatedRanks()
    ensures Members([0, 0, 0], 0, 0) == [0, 1, 2]
    ensures RoomJobs(RotatedJobs(), [0, 0, 0], 0) == RotatedJobs()
    ensures RoomRanks(RotatedJobs(), [0, 0, 0], 0) == [2, 0, 1]
  {
    var js := RotatedJobs();
    ExampleRanks();
    assert RoomJobs(js, [0, 0, 0], 0) == js;
    assert Rank(js, 0) == 2 by {
      assert CountBefore(js, 0, 1) == 0;
      assert CountBefore(js, 0, 2) == 1;
    }
    assert Rank(js, 1) == 0 by {
      assert CountBefore(js, 1, 1) == 0;
      assert CountBefore(js, 1, 2) == 0;
    }
    assert Rank(js, 2) == 1 by {
      assert CountBefore(js, 2, 1) == 0;
      assert CountBefore(js, 2, 2) == 1;
    }
  }

  lemma EncodeLastFirst(a: int, b: int, c: int)
    requires a != b && a != c && b != c
    ensures Lehmer.Encode([a, b, c], [c, a, b]) == Ok([2, 0, 0])
  {
    EncodeTwo(a, b);
    assert IndexOf([a, b, c], c) == 2 by {
      assert [a, b, c][1..] == [b, c] && [b, c][1..] == [c];
    }
    assert [a, b, c][..2] + [a, b, c][3..] == [a, b] && [c, a, b][1..] == [a, b];
    assert [2] + [0, 0] == [2, 0, 0];
  }

  lemma RotatedCodes()
    ensures RoomCodes(RotatedJobs(), [0, 0, 0], 0) == [2, 0, 0]
  {
    assert RoomRanks(RotatedJobs(), [0, 0, 0], 0) == [2, 0, 1] by {
      RotatedRanks();
    }
    assert Range(3) == [0, 1, 2];
    EncodeLastFirst(0, 1, 2);
  }

  /** The seed `OrderingGuess` writes for the second example room is [2, 0, 0]. */
  lemma RotatedSeed()
    ensures OrderingGuess(RotatedJobs(), [0, 0, 0]) == Ok([2, 0, 0])
  {
    RotatedCodes();
    ExampleCounts();
    var g := OrderingGuess(RotatedJobs(), [0, 0, 0]).value;
    assert g[0] == 2 && g[1] == 0 && g[2] == 0;
    assert g == [2, 0, 0];
  }

  /** The surgeries of `sub` at the positions `xs`. */
  function Relabel(sub: seq<Job>, xs: seq<int>): (r: seq<Job>)
    requires forall i :: 0 <= i < |xs| ==> 0 <= xs[i] < |sub|
    ensures |r| == |xs| && forall i :: 0 <= i < |xs| ==> r[i] == sub[xs[i]]
  {
    seq(|xs|, i requires 0 <= i < |xs| => sub[xs[i]])
  }

  /** One pop commutes with relabelling. */
  lemma PopRelabel(sub: seq<Job>, xs: seq<int>, i: int)
    requires forall j :: 0 <= j < |xs| ==> 0 <= xs[j] < |sub|
    requires Lehmer.Pop(xs, i).Ok?
    ensures Lehmer.Pop(Relabel(sub, xs), i).Ok?
    ensures var p := Lehmer.Pop(xs, i).value;
            var q := Lehmer.Pop(Relabel(sub, xs), i).value;
            (forall j :: 0 <= j < |p.1| ==> 0 <= p.1[j] < |sub|) &&
            0 <= p.0 < |sub| && q.0 == sub[p.0] && q.1 == Relabel(sub, p.1)
  {
    var k := if i < 0 then |xs| + i else i;
    var ys := Relabel(sub, xs);
    assert Lehmer.Pop(xs, i).value == (xs[k], xs[..k] + xs[k + 1..]);
    assert Lehmer.Pop(ys, i).value == (ys[k], ys[..k] + ys[k + 1..]);
  }

  lemma RelabelCons(sub: seq<Job>, x: int, tail: seq<int>)
    requires 0 <= x < |sub| && forall i :: 0 <= i < |tail| ==> 0 <= tail[i] < |sub|
    ensures Relabel(sub, [x] + tail) == [sub[x]] + Relabel(sub, tail)
  {
  }

  /** Decoding commutes with relabelling: decoding surgeries is decoding their positions. */
  lemma {:induction false} DecodeRelabel(sub: seq<Job>, xs: seq<int>, idx: seq<int>)
    requires forall i :: 0 <= i < |xs| ==> 0 <= xs[i] < |sub|
    requires Lehmer.OrderByIndexes(xs, idx).Ok?
    ensures Lehmer.OrderByIndexes(Relabel(sub, xs), idx).Ok?
    ensures forall i :: 0 <= i < |Lehmer.OrderByIndexes(xs, idx).value| ==> 0 <= Lehmer.OrderByIndexes(xs, idx).value[i] < |sub|
    ensures Lehmer.OrderByIndexes(Relabel(sub, xs), idx).value == Relabel(sub, Lehmer.OrderByIndexes(xs, idx).value)
  {
    if idx != [] {
      var ys := Relabel(sub, xs);
      PopRelabel(sub, xs, idx[0]);
      var p := Lehmer.Pop(xs, idx[0]).value;
      var q := Lehmer.Pop(ys, idx[0]).value;
      Lehmer.DecodeStep(xs, idx);
      Lehmer.DecodeStep(ys, idx);
      DecodeRelabel(sub, p.1, idx[1..]);
      var tail := Lehmer.OrderByIndexes(p.1, idx[1..]).value;
      var whole := Lehmer.OrderByIndexes(xs, idx).value;
      assert whole == [p.0] + tail;
      assert Lehmer.OrderByIndexes(ys, idx).value == [q.0] + Relabel(sub, tail);
      RelabelCons(sub, p.0, tail);
    } else {
      assert Lehmer.OrderByIndexes(xs, idx).value == xs;
    }
  }

  /**
   * Decoding a room's seed with the decoder of `main.py` straight onto the
   * room's surgeries puts at run slot `t` the surgery whose position is the
   * rank of member `t`: the inverse of ratio order, and ratio order only when
   * the ranks are their own inverse.
   */
  lemma ListDecodeReadsRanks(js: seq<Job>, distr: seq<int>, v: int)
    requires |distr| <= |js| && NoZeroAmong(js, |distr|)
    ensures Lehmer.OrderByIndexes(RoomJobs(js, distr, v), RoomCodes(js, distr, v)).Ok?
    ensures var sub, ranks := RoomJobs(js, distr, v), RoomRanks(js, distr, v);
            forall t :: 0 <= t < |sub| ==> Lehmer.OrderByIndexes(sub, RoomCodes(js, distr, v)).value[t] == sub[ranks[t]]
  {
    var sub := RoomJobs(js, distr, v);
    var m := |sub|;
    RoomCodesDecode(js, distr, v);
    assert Relabel(sub, Range(m)) == sub;
    DecodeRelabel(sub, Range(m), RoomCodes(js, distr, v));
  }

  /** A room of three whose ranks are 2, 0, 1 is run by the decoder of `main.py` as its third, first, second surgery. */
  lemma ListDecodeRotates(js: seq<Job>, distr: seq<int>, v: int)
    requires |distr| <= |js| && NoZeroAmong(js, |distr|)
    requires |RoomJobs(js, distr, v)| == 3 && RoomRanks(js, distr, v) == [2, 0, 1]
    ensures var sub := RoomJobs(js, distr, v);
            var d := Lehmer.OrderByIndexes(sub, RoomCodes(js, distr, v));
            d.Ok? && d.value == [sub[2], sub[0], sub[1]]
  {
    ListDecodeReadsRanks(js, distr, v);
    var sub := RoomJobs(js, distr, v);
    var d := Lehmer.OrderByIndexes(sub, RoomCodes(js, distr, v)).value;
    assert d[0] == sub[2] && d[1] == sub[0] && d[2] == sub[1];
  }

  /**
   * The second example room shows it: its seed [2, 0, 0], decoded by the
   * decoder of `main.py` onto its surgeries of durations 3, 1, 2, does not
   * run them in ratio order.
   */
  lemma ListDecodeMisorders()
    ensures OrderingGuess(RotatedJobs(), [0, 0, 0]) == Ok([2, 0, 0])
    ensures RoomCodes(RotatedJobs(), [0, 0, 0], 0) == [2, 0, 0]
    ensures Lehmer.OrderByIndexes(RotatedJobs(), RoomCodes(RotatedJobs(), [0, 0, 0], 0)).Ok?
    ensures !RatioSorted(Lehmer.OrderByIndexes(RotatedJobs(), RoomCodes(RotatedJobs(), [0, 0, 0], 0)).value)
  {
    RotatedSeed();
    RotatedCodes();
    var js := RotatedJobs();
    RotatedRanks();
    ListDecodeRotates(js, [0, 0, 0], 0);
    assert !RatioSorted([js[2], js[0], js[1]]) by {
      assert js[0] == Weighted.Job(3, 1) && js[1] == Weighted.Job(1, 1);
      OutOfRatioOrder([js[2], js[0], js[1]], 1, 2);
    }
  }
}

=== FILE: repositories.dfy ===
/*
 * The generic repositories: a list of named entities with ids, lookups by id
 * and by name, and the "name - id" labels the forms show. The backend
 * repository also assigns ids from a counter as entities are added.
 */
module Repositories {
  import opened Common

  datatype Entity = Entity(name: string, id: int)

  /*
   * Decimal text of an id.
   */

  function DigitChar(d: nat): (c: char)
    requires d < 10
    ensures '0' <= c <= '9'
  {
    ['0', '1', '2', '3', '4', '5', '6', '7', '8', '9'][d]
  }

  function DigitValue(c: char): nat {
    if '0' <= c <= '9' then (c - '0') as nat else 0
  }

  predicate IsDigit(c: char) {
    '0' <= c <= '9'
  }

  /** Python's `str` of a non-negative integer. */
  function NatToString(n: nat): (s: string)
    ensures s != [] && forall i :: 0 <= i < |s| ==> IsDigit(s[i])
  {
    if n < 10 then [DigitChar(n)] else NatToString(n / 10) + [DigitChar(n % 10)]
  }

  /** Python's `str` of an integer: a minus sign, then the digits. */
  function IntToString(i: int): (s: string)
    ensures s != [] && forall k :: 0 <= k < |s| ==> s[k] != ' '
  {
    if i < 0 then "-" + NatToString(-i) else NatToString(i)
  }

  function ParseNat(s: string): nat {
    if s == [] then 0 else ParseNat(s[..|s| - 1]) * 10 + DigitValue(s[|s| - 1])
  }

  function ParseInt(s: string): int {
    if s != [] && s[0] == '-' then 0 - ParseNat(s[1..]) as int else ParseNat(s)
  }

  lemma DigitRoundTrip(d: nat)
    requires d < 10
    ensures DigitValue(DigitChar(d)) == d
  {
  }

  lemma {:induction false} NatStringRoundTrip(n: nat)
    ensures ParseNat(NatToString(n)) == n
  {
    DigitRoundTrip(n % 10);
    if n >= 10 {
      NatStringRoundTrip(n / 10);
      var s := NatToString(n);
      assert s[..|s| - 1] == NatToString(n / 10);
    }
  }

  /** Reading back the text of an integer gives the integer. */
  lemma IntStringRoundTrip(i: int)
    ensures ParseInt(IntToString(i)) == i
  {
    if i < 0 {
      NatStringRoundTrip(-i);
      assert ("-" + NatToString(-i))[1..] == NatToString(-i);
    } else {
      NatStringRoundTrip(i);
      assert IsDigit(NatToString(i)[0]);
    }
  }

  /*
   * Labels.
   */

  const Separator := " - "

  /** The label of an entity: its name, a spaced dash, its id. */
  function Label(name: string, id: int): (s: string)
    ensures |s| == |name| + 3 + |IntToString(id)|
    ensures s[..|name|] == name
  {
    name + Separator + IntToString(id)
  }

  predicate SeparatorAt(s: string, i: nat) {
    i + 3 <= |s| && s[i] == ' ' && s[i + 1] == '-' && s[i + 2] == ' '
  }

  /** The last position at or below `i` where the separator starts. */
  function LastSeparator(s: string, i: int): (r: Option<nat>)
    ensures r.Some? ==> r.value <= i && SeparatorAt(s, r.value) &&
                        forall j: nat :: r.value < j <= i ==> !SeparatorAt(s, j)
    ensures r.None? ==> forall j: nat :: j <= i ==> !SeparatorAt(s, j)
    decreases i + 1
  {
    if i < 0 then None
    else if SeparatorAt(s, i) then Some(i)
    else LastSeparator(s, i - 1)
  }

  /** Splits a label at its last separator. */
  function Unlabel(s: string): Option<(string, int)> {
    match LastSeparator(s, |s| - 3)
    case None => None
    case Some(i) => Some((s[..i], ParseInt(s[i + 3..])))
  }

  /** Every label splits back into its name and id, whatever the name holds. */
  lemma UnlabelLabel(name: string, id: int)
    ensures Unlabel(Label(name, id)) == Some((name, id))
  {
    var s := Label(name, id);
    var t := IntToString(id);
    var n := |name|;
    assert s == name + " - " + t;
    assert SeparatorAt(s, n);
    forall j: nat | n < j <= |s| - 3 ensures !SeparatorAt(s, j) {
      if j == n + 1 {
        assert s[j] == '-';
      } else if j == n + 2 {
        assert s[j + 2] == t[1];
      } else {
        assert s[j] == t[j - n - 3];
      }
    }
    var r := LastSeparator(s, |s| - 3);
    assert r == Some(n);
    assert s[n + 3..] == t;
    IntStringRoundTrip(id);
  }

  /*
   * Lookups over a list of entities (the plain repository holds just this list).
   */

  /** `get_names`. */
  function Names(es: seq<Entity>): (r: seq<string>)
    ensures |r| == |es| && forall i :: 0 <= i < |es| ==> r[i] == es[i].name
  {
    seq(|es|, i requires 0 <= i < |es| => es[i].name)
  }

  /** `get_names_and_ids` and `extract_names_with_ids`: the label of each entity, in list order. */
  function LabelsOf(es: seq<Entity>): (r: seq<string>)
    ensures |r| == |es|
    ensures forall i :: 0 <= i < |es| ==> Unlabel(r[i]) == Some((es[i].name, es[i].id))
  {
    var r := seq(|es|, i requires 0 <= i < |es| => Label(es[i].name, es[i].id));
    assert forall i :: 0 <= i < |es| ==> Unlabel(r[i]) == Some((es[i].name, es[i].id)) by {
      forall i | 0 <= i < |es| ensures Unlabel(r[i]) == Some((es[i].name, es[i].id)) {
        UnlabelLabel(es[i].name, es[i].id);
      }
    }
    r
  }

  /** The position of the first entity that `p` accepts, from position `k` on. */
  function FirstWhere(es: seq<Entity>, p: Entity -> bool, k: nat): (r: Option<nat>)
    requires k <= |es|
    ensures r.None? <==> forall i :: k <= i < |es| ==> !p(es[i])
    ensures r.Some? ==> k <= r.value < |es| && p(es[r.value]) && forall j :: k <= j < r.value ==> !p(es[j])
    decreases |es| - k
  {
    if k == |es| then None else if p(es[k]) then Some(k) else FirstWhere(es, p, k + 1)
  }

  /** `get_by_id`: the first entity with the id, or None. */
  function ById(es: seq<Entity>, id: int): (r: Option<Entity>)
    ensures r.None? <==> forall i :: 0 <= i < |es| ==> es[i].id != id
    ensures r.Some? ==> exists i :: 0 <= i < |es| && es[i] == r.value && r.value.id == id &&
                          forall j :: 0 <= j < i ==> es[j].id != id
  {
    match FirstWhere(es, (e: Entity) => e.id == id, 0)
    case None => None
    case Some(i) => Some(es[i])
  }

  /** `get_by_name`: the first entity with exactly that name, or None. */
  function ByName(es: seq<Entity>, name: string): (r: Option<Entity>)
    ensures r.None? <==> forall i :: 0 <= i < |es| ==> es[i].name != name
    ensures r.Some? ==> exists i :: 0 <= i < |es| && es[i] == r.value && r.value.name == name &&
                          forall j :: 0 <= j < i ==> es[j].name != name
  {
    match FirstWhere(es, (e: Entity) => e.name == name, 0)
    case None => None
    case Some(i) => Some(es[i])
  }

  /**
   * `get_id_by_names_with_ids`: for each given id, in order, the found
   * entity's name and that id; an id nobody has makes the attribute access
   * on None fail.
   */
  function LabelsForIds(es: seq<Entity>, ids: seq<int>): (r: Result<seq<string>>)
    ensures r.Ok? <==> forall k :: 0 <= k < |ids| ==> ById(es, ids[k]).Some?
    ensures r.Err? ==> r.failure.Raised? && r.failure.exc == AttributeError
    ensures r.Ok? ==> |r.value| == |ids| &&
                      forall k :: 0 <= k < |ids| ==> Unlabel(r.value[k]) == Some((ById(es, ids[k]).value.name, ids[k]))
  {
    if forall k :: 0 <= k < |ids| ==> ById(es, ids[k]).Some? then
      var r := seq(|ids|, k requires 0 <= k < |ids| => Label(ById(es, ids[k]).value.name, ids[k]));
      assert forall k :: 0 <= k < |ids| ==> Unlabel(r[k]) == Some((ById(es, ids[k]).value.name, ids[k])) by {
        forall k | 0 <= k < |ids| ensures Unlabel(r[k]) == Some((ById(es, ids[k]).value.name, ids[k])) {
          UnlabelLabel(ById(es, ids[k]).value.name, ids[k]);
        }
      }
      Ok(r)
    else
      Err(Raised(AttributeError, "'NoneType' object has no attribute 'name'"))
  }

  /*
   * The backend repository: ids from a counter.
   */

  datatype Repo = Repo(counter: int, items: seq<Entity>)

  /** `add`: the entity takes the counter as its id and joins the end. */
  function Add(repo: Repo, e: Entity): (r: Repo)
    ensures r.counter == repo.counter + 1 && r.items == repo.items + [e.(id := repo.counter)]
  {
    Repo(repo.counter + 1, repo.items + [e.(id := repo.counter)])
  }

  /** `add_all`: `add` for each entity in turn. */
  function AddAll(repo: Repo, es: seq<Entity>): (r: Repo)
    ensures r.counter == repo.counter + |es|
    ensures |r.items| == |repo.items| + |es| && r.items[..|repo.items|] == repo.items
    ensures forall k :: 0 <= k < |es| ==> r.items[|repo.items| + k] == es[k].(id := repo.counter + k)
    decreases |es|
  {
    if es == [] then repo
    else
      var r := AddAll(Add(repo, es[0]), es[1..]);
      assert r.items[..|repo.items| + 1] == repo.items + [es[0].(id := repo.counter)] by {
        assert r.items[..|repo.items| + 1] == r.items[..|Add(repo, es[0]).items|];
      }
      assert r.items[..|repo.items|] == r.items[..|repo.items| + 1][..|repo.items|];
      r
  }

  /** The constructor: an empty repository with the counter at 0, then `add_all`. */
  function NewRepo(es: seq<Entity>): (r: Repo)
    ensures |r.items| == |es| && r.counter == |es|
  {
    AddAll(Repo(0, []), es)
  }

  /** A fresh repository numbers its entities 0, 1, 2, ... in order. */
  lemma FreshIds(es: seq<Entity>)
    ensures forall k :: 0 <= k < |es| ==> NewRepo(es).items[k] == es[k].(id := k)
  {
    var items := NewRepo(es).items;
    forall k | 0 <= k < |es| ensures items[k] == es[k].(id := k) {
      assert items[|Repo(0, []).items| + k] == es[k].(id := Repo(0, []).counter + k);
    }
  }

  /** A fresh repository finds each entity by its position as id, and nothing for any other id. */
  lemma NewRepoIds(es: seq<Entity>, id: int)
    ensures 0 <= id < |es| ==> ById(NewRepo(es).items, id) == Some(es[id].(id := id))
    ensures !(0 <= id < |es|) ==> ById(NewRepo(es).items, id) == None
  {
    var items := NewRepo(es).items;
    FreshIds(es);
    assert forall i :: 0 <= i < |items| ==> items[i].id == i;
    ByPositionId(items, id);
  }

  /** In entities numbered by position, an id finds the entity at that position, and only an id in range finds one. */
  lemma ByPositionId(items: seq<Entity>, id: int)
    requires forall i :: 0 <= i < |items| ==> items[i].id == i
    ensures 0 <= id < |items| ==> ById(items, id) == Some(items[id])
    ensures !(0 <= id < |items|) ==> ById(items, id) == None
  {
    if 0 <= id < |items| {
      assert items[id].id == id;
      var r := ById(items, id);
      var i :| 0 <= i < |items| && items[i] == r.value && r.value.id == id;
      assert i == id;
    }
  }

  /** Asking a fresh repository for the labels of ids 0, 1, ... in order gives exactly its own label list. */
  lemma FreshLabelsAgree(es: seq<Entity>)
    ensures LabelsForIds(NewRepo(es).items, seq(|es|, k => k)) == Ok(LabelsOf(NewRepo(es).items))
  {
    var items := NewRepo(es).items;
    var ids := seq(|es|, k => k);
    FreshIds(es);
    forall k | 0 <= k < |ids| ensures ById(items, ids[k]) == Some(items[k]) {
      NewRepoIds(es, k);
    }
    var r := LabelsForIds(items, ids);
    assert r.Ok?;
    assert r.value == LabelsOf(items);
  }

  /** Adding two entities to the two-entity example leaves four, the last one added at the end. */
  lemma AddAllExample()
    ensures var repo := AddAll(NewRepo([Entity("Cirurgy A", 7), Entity("Cirurgy B", 7)]), [Entity("Cirurgy C", 7), Entity("Cirurgy D", 7)]);
            |repo.items| == 4 && repo.items[3] == Entity("Cirurgy D", 3)
  {
  }

  /** A fresh two-entity repository labels its entities with ids 0 and 1, whatever ids they came with. */
  lemma FreshPairLabels(a: Entity, b: Entity)
    ensures LabelsOf(NewRepo([a, b]).items) == [Label(a.name, 0), Label(b.name, 1)]
  {
    FreshIds([a, b]);
  }
}

=== FILE: search.dfy ===
/*
 * What the genetic search sees of the builder: which surgeries it places,
 * the bounds of each gene, and the fitness of a candidate vector.
 */
module Search {
  import opened Common
  import opened Cache
  import opened Selection
  import opened Frontier
  import opened Builder
  import opened Execution

  /*
   * The mobile surgeries.
   */

  /** The Surgery-table rows of the fixed bookings' surgeries, in booking order; ValueError on an unknown one. */
  function FixedRows(st: Store, bs: seq<Booking>): (r: Result<seq<Surgery>>)
    ensures r.Ok? <==> forall i :: 0 <= i < |bs| && bs[i].fixed ==> Known(st, bs[i])
    ensures r.Ok? ==> forall s :: s in r.value <==>
                        exists i :: 0 <= i < |bs| && bs[i].fixed && SurgeryById(st, bs[i].surgeryId) == Ok(s)
    ensures r.Err? ==> r.failure.Raised? && r.failure.exc == ValueError
  {
    if bs == [] then Ok([])
    else
      assert forall i :: 1 <= i < |bs| ==> bs[1..][i - 1] == bs[i];
      var rest :- FixedRows(st, bs[1..]);
      if bs[0].fixed then
        var s :- SurgeryById(st, bs[0].surgeryId);
        Ok([s] + rest)
      else Ok(rest)
  }

  /**
   * `get_mobile_surgeries`: the rows of the Surgery table that no fixed
   * booking holds, in table order; the run stops when there are none.
   */
  function MobileSurgeries(st: Store): (r: Result<seq<Surgery>>)
    ensures r.Ok? ==> forall s :: s in r.value <==>
                        s in st.surgeries &&
                        !exists i :: 0 <= i < |st.bookings| && st.bookings[i].fixed && SurgeryById(st, st.bookings[i].surgeryId) == Ok(s)
    ensures r.Ok? ==> r.value != [] && |r.value| <= |st.surgeries|
    ensures r.Err? ==> r.failure == Exit("No mobile surgeries found.") || r.failure.Raised?
  {
    var fixedRows :- FixedRows(st, st.bookings);
    var mobile := Where(st.surgeries, (s: Surgery) => s !in fixedRows);
    if mobile == [] then Err(Exit("No mobile surgeries found.")) else Ok(mobile)
  }

  predicate DistinctSurgeryIds(st: Store) {
    forall i, j :: 0 <= i < j < |st.surgeries| ==> st.surgeries[i].id != st.surgeries[j].id
  }

  /** With distinct surgery ids, a surgery is mobile exactly when no fixed booking names it. */
  lemma MobileMeansUnfixed(st: Store, s: Surgery)
    requires DistinctSurgeryIds(st)
    requires MobileSurgeries(st).Ok?
    ensures s in MobileSurgeries(st).value <==>
              s in st.surgeries && forall i :: 0 <= i < |st.bookings| && st.bookings[i].fixed ==> st.bookings[i].surgeryId != s.id
  {
    if s in st.surgeries {
      forall i | 0 <= i < |st.bookings| && st.bookings[i].fixed && st.bookings[i].surgeryId == s.id
        ensures SurgeryById(st, st.bookings[i].surgeryId) == Ok(s)
      {
        var r := SurgeryById(st, s.id);
        assert r.Ok?;
        var a :| 0 <= a < |st.surgeries| && st.surgeries[a] == s;
        var b :| 0 <= b < |st.surgeries| && st.surgeries[b] == r.value;
        assert a == b;
      }
    }
  }

  /** `set_solution`: the run stops when the vector does not have one gene per mobile surgery. */
  function SetSolution(mobile: seq<Surgery>, solution: seq<int>): (r: Result<seq<int>>)
    ensures r.Ok? <==> |solution| == |mobile|
    ensures r.Ok? ==> r.value == solution
    ensures r.Err? ==> r.failure.Exit?
  {
    if |solution| != |mobile| then Err(Exit("Invalid solution.")) else Ok(solution)
  }

  /*
   * The gene bounds.
   */

  datatype Gene = Gene(low: int, high: int)

  /** How many times the bound has been lowered before gene `i`: once per gene, for the first `rooms - 1` genes. */
  function Lowered(i: nat, rooms: int): (d: nat)
    ensures d <= i
  {
    if rooms - 1 <= 0 then 0 else if i < rooms - 1 then i else rooms - 1
  }

  /** The upper bound of gene `i`: the last free-team index, lowered once per gene while some room is still free. */
  function GeneHigh(i: nat, teams: int, rooms: int): int {
    teams - 1 - Lowered(i, rooms)
  }

  /**
   * `gene_space`: one gene per surgery, all with low bound 0; the high bound
   * starts at the number of teams minus one and drops by one after each of
   * the first `rooms - 1` genes.
   */
  method GeneSpace(n: nat, teams: int, rooms: int) returns (genes: seq<Gene>)
    ensures |genes| == n
    ensures forall i :: 0 <= i < n ==> genes[i] == Gene(0, GeneHigh(i, teams, rooms))
  {
    genes := [];
    var high := teams - 1;
    var decrements := rooms - 1;
    var i := 0;
    while i < n
      invariant 0 <= i <= n && |genes| == i
      invariant high == GeneHigh(i, teams, rooms)
      invariant forall k :: 0 <= k < i ==> genes[k] == Gene(0, GeneHigh(k, teams, rooms))
    {
      genes := genes + [Gene(0, high)];
      if i < decrements {
        high := high - 1;
      }
      i := i + 1;
    }
  }

  /** The bounds never rise, fall by at most one per gene, and stop falling after `rooms - 1` genes. */
  lemma GeneHighShape(i: nat, teams: int, rooms: int)
    ensures GeneHigh(0, teams, rooms) == teams - 1
    ensures GeneHigh(i + 1, teams, rooms) <= GeneHigh(i, teams, rooms) <= GeneHigh(i + 1, teams, rooms) + 1
    ensures i + 1 >= rooms - 1 ==> GeneHigh(i + 1, teams, rooms) == GeneHigh(i, teams, rooms) || i + 1 == rooms - 1
    ensures rooms >= 1 ==> GeneHigh(i, teams, rooms) >= teams - rooms
  {
  }

  /** The bounds for (rooms, teams, surgeries) = (2, 3, 4), (3, 3, 4) and (5, 10, 12). */
  lemma GeneHighExamples()
    ensures forall i :: 0 <= i < 4 ==> GeneHigh(i, 3, 2) == [2, 1, 1, 1][i]
    ensures forall i :: 0 <= i < 4 ==> GeneHigh(i, 3, 3) == [2, 1, 0, 0][i]
    ensures forall i :: 0 <= i < 12 ==> GeneHigh(i, 10, 5) == [9, 8, 7, 6, 5, 5, 5, 5, 5, 5, 5, 5][i]
  {
  }

  /** The optimizer's `gene_space`: one gene per row of the Surgery table. */
  method OptimizerGeneSpace(st: Store) returns (genes: seq<Gene>)
    ensures |genes| == |st.surgeries|
    ensures forall i :: 0 <= i < |genes| ==> genes[i].low == 0 && genes[i].high == |st.teams| - 1 - Lowered(i, |st.rooms|)
  {
    genes := GeneSpace(|st.surgeries|, |st.teams|, |st.rooms|);
  }

  /** The solver's `gene_space`: one gene per mobile surgery. */
  method SolverGeneSpace(st: Store, mobile: seq<Surgery>) returns (genes: seq<Gene>)
    ensures |genes| == |mobile|
    ensures forall i :: 0 <= i < |genes| ==> genes[i].low == 0 && genes[i].high == |st.teams| - 1 - Lowered(i, |st.rooms|)
  {
    genes := GeneSpace(|mobile|, |st.teams|, |st.rooms|);
  }

  /*
   * The fitness of a candidate vector.
   */

  datatype Score = NegInf | Finite(value: int)

  /** The plain builder: the evaluation uses no extension. */
  const Plain := Features(false, false)

  /**
   * The fitness wrapper. A fresh plain builder is made over the optimizer's
   * store (its own copy); a failure there is not caught. A Python exception
   * from the run scores minus infinity, while a stop of the run passes
   * through. A finished run scores minus its penalty, which is never
   * positive. `outcome` is what the run returned.
   */
  method Fitness(st: Store, mobile: seq<Surgery>, zero: int, solution: seq<int>, lastVacancy: Option<Vacancy>, fuel: nat)
    returns (r: Result<Score>, outcome: Result<Run>)
    ensures New(st, mobile, zero, Plain, lastVacancy).Err? ==>
              r == Err(New(st, mobile, zero, Plain, lastVacancy).failure) && outcome == Err(New(st, mobile, zero, Plain, lastVacancy).failure)
    ensures New(st, mobile, zero, Plain, lastVacancy).Ok? && outcome.Err? && outcome.failure.Raised? ==> r == Ok(NegInf)
    ensures New(st, mobile, zero, Plain, lastVacancy).Ok? && outcome.Err? && !outcome.failure.Raised? ==>
              r == Err(outcome.failure)
    ensures outcome.Ok? ==>
              r.Ok? && r.value.Finite? && r.value.value <= 0 &&
              CalculatePunishment(outcome.value.st, zero) == Ok(-r.value.value)
    ensures outcome.Ok? ==>
              var run := New(st, mobile, zero, Plain, lastVacancy).value;
              New(st, mobile, zero, Plain, lastVacancy).Ok? &&
              Grows(run.(step := 0, solution := solution), outcome.value) &&
              outcome.value.features == Plain && outcome.value.remaining == [] && st.bookings <= outcome.value.st.bookings
  {
    var init := New(st, mobile, zero, Plain, lastVacancy);
    if init.Err? {
      return Err(init.failure), Err(init.failure);
    }
    outcome := Execute(init.value, solution, fuel);
    if outcome.Err? {
      if outcome.failure.Raised? {
        return Ok(NegInf), outcome;
      }
      return Err(outcome.failure), outcome;
    }
    var p := CalculatePunishment(outcome.value.st, zero);
    return Ok(Finite(-p.value)), outcome;
  }
}

=== FILE: selection.dfy ===
/*
 * Which team the candidate vector picks, and which surgery a team takes next:
 * the eligible remaining surgery with the smallest duration/(priority or 1),
 * ties going to the first in capability-link order.
 */
module Selection {
  import opened Common
  import opened Cache

  /** `duration / (priority or 1)`, as an exact rational (a priority of 0 counts as 1). */
  function Ratio(s: Surgery): real {
    s.duration as real / (if s.priority == 0 then 1 else s.priority) as real
  }

  /**
   * The team the gene `solution[step]` designates: that position of the free
   * teams when it is in range, the last free team when it is too large, and
   * Python's wrap-around for a negative gene.
   */
  function PickTeam(solution: seq<int>, step: nat, available: seq<Team>): (r: Result<Team>)
    ensures r.Ok? <==> step < |solution| &&
                       (if solution[step] >= |available| then available != [] else -|available| <= solution[step])
    ensures r.Ok? && 0 <= solution[step] < |available| ==> r.value == available[solution[step]]
    ensures r.Ok? && solution[step] >= |available| ==> r.value == available[|available| - 1]
    ensures r.Ok? && solution[step] < 0 ==> r.value == available[|available| + solution[step]]
    ensures r.Ok? ==> r.value in available
    ensures r.Err? ==> r.failure.Raised? && r.failure.exc == IndexError
  {
    var n :- PyIndex(solution, step);
    if n >= |available| then PyIndex(available, -1) else PyIndex(available, n)
  }

  predicate InRemaining(remaining: seq<Surgery>, id: int) {
    exists i :: 0 <= i < |remaining| && remaining[i].id == id
  }

  /** The surgery already has a booking that is not fixed. */
  predicate BookedMobile(st: Store, id: int) {
    exists i :: 0 <= i < |st.bookings| && st.bookings[i].surgeryId == id && !st.bookings[i].fixed
  }

  /** With a room filter, the surgery must be allowed in that room. */
  predicate RoomAllows(st: Store, roomFilter: Option<int>, id: int) {
    roomFilter.Some? ==>
      exists i :: 0 <= i < |st.roomLinks| && st.roomLinks[i].roomId == roomFilter.value && st.roomLinks[i].surgeryId == id
  }

  predicate TeamLinked(st: Store, surgeryId: int, teamId: int) {
    exists i :: 0 <= i < |st.teamLinks| && st.teamLinks[i].surgeryId == surgeryId && st.teamLinks[i].teamId == teamId
  }

  /** A capability link whose surgery the team may take now. */
  predicate Admissible(st: Store, remaining: seq<Surgery>, teamId: int, roomFilter: Option<int>, l: TeamLink) {
    l.teamId == teamId && InRemaining(remaining, l.surgeryId) && !BookedMobile(st, l.surgeryId) &&
    RoomAllows(st, roomFilter, l.surgeryId)
  }

  /** The capability links of a team, in table order. */
  function TeamLinksOf(st: Store, teamId: int): seq<TeamLink> {
    Where(st.teamLinks, (l: TeamLink) => l.teamId == teamId)
  }

  /** The surgeries a room accepts, as capability links, in table order. */
  function RoomLinksOf(st: Store, roomId: int): seq<RoomLink> {
    Where(st.roomLinks, (l: RoomLink) => l.roomId == roomId)
  }

  /** The team's admissible links, in table order. */
  function AdmissibleLinks(st: Store, remaining: seq<Surgery>, teamId: int, roomFilter: Option<int>): seq<TeamLink> {
    Where(TeamLinksOf(st, teamId), (l: TeamLink) => Admissible(st, remaining, teamId, roomFilter, l))
  }

  /** The ratio of the surgery a link names, as the Surgery table gives it. */
  function LinkRatio(st: Store, l: TeamLink): real {
    match SurgeryById(st, l.surgeryId)
    case Ok(s) => Ratio(s)
    case Err(_) => 0.0
  }

  /** The surgery has some booking, fixed or not. */
  predicate HasBooking(st: Store, id: int) {
    exists i :: 0 <= i < |st.bookings| && st.bookings[i].surgeryId == id
  }

  /** The first booking of a surgery at or after position `k` of the Schedule table. */
  function FirstBookingFrom(st: Store, id: int, k: nat): (r: Option<Booking>)
    requires k <= |st.bookings|
    ensures r.None? <==> forall i :: k <= i < |st.bookings| ==> st.bookings[i].surgeryId != id
    ensures r.Some? ==> exists i :: k <= i < |st.bookings| && st.bookings[i] == r.value && r.value.surgeryId == id
    decreases |st.bookings| - k
  {
    if k == |st.bookings| then None
    else if st.bookings[k].surgeryId == id then Some(st.bookings[k])
    else FirstBookingFrom(st, id, k + 1)
  }

  /** The first booking of a surgery, if any: the head of its `surgery_id` lookup. */
  function FirstBookingOf(st: Store, id: int): (r: Option<Booking>)
    ensures r.None? <==> !HasBooking(st, id)
    ensures r.Some? ==> exists i :: 0 <= i < |st.bookings| && st.bookings[i] == r.value && r.value.surgeryId == id
  {
    FirstBookingFrom(st, id, 0)
  }

  /**
   * The consistency check over the remaining surgeries: one with a mobile
   * booking, or whose first booking is fixed, stops the run. Together the two
   * tests stop it for any remaining surgery with a booking at all.
   */
  function CheckRemaining(st: Store, remaining: seq<Surgery>): (r: Result<()>)
    ensures r.Ok? <==> forall i :: 0 <= i < |remaining| ==> !HasBooking(st, remaining[i].id)
    ensures r.Err? ==> r.failure.Exit?
  {
    if remaining == [] then Ok(())
    else
      var s := remaining[0];
      assert forall i :: 1 <= i < |remaining| ==> remaining[1..][i - 1] == remaining[i];
      if BookedMobile(st, s.id) then Err(Exit("this surgery is already scheduled"))
      else
        match FirstBookingOf(st, s.id)
        case Some(b) =>
          if b.fixed then Err(Exit("we can't schedule this surgery because it's fixed"))
          else
            assert BookedMobile(st, s.id);
            Err(Exit("this surgery is already scheduled"))
        case None => CheckRemaining(st, remaining[1..])
  }

  /** The Surgery-table rows the links name, in link order; ValueError on an unknown id. */
  function Candidates(st: Store, links: seq<TeamLink>): (r: Result<seq<Surgery>>)
    ensures r.Ok? <==> forall i :: 0 <= i < |links| ==> exists s :: s in st.surgeries && s.id == links[i].surgeryId
    ensures r.Ok? ==> |r.value| == |links| &&
                      forall i :: 0 <= i < |links| ==> SurgeryById(st, links[i].surgeryId) == Ok(r.value[i])
    ensures r.Err? ==> r.failure.Raised? && r.failure.exc == ValueError
  {
    if links == [] then Ok([])
    else
      assert forall i :: 1 <= i < |links| ==> links[1..][i - 1] == links[i];
      var s :- SurgeryById(st, links[0].surgeryId);
      var rest :- Candidates(st, links[1..]);
      Ok([s] + rest)
  }

  /**
   * `s` is what the selection may return: the surgery of an admissible link
   * with the least ratio among all admissible links, strictly less than that
   * of every earlier one, and itself on the team's list, still to schedule,
   * without a booking and accepted by the room.
   */
  predicate Chosen(st: Store, remaining: seq<Surgery>, teamId: int, roomFilter: Option<int>, s: Surgery) {
    var adm := AdmissibleLinks(st, remaining, teamId, roomFilter);
    (exists i :: 0 <= i < |adm| && SurgeryById(st, adm[i].surgeryId) == Ok(s) &&
       (forall j :: 0 <= j < |adm| ==> Ratio(s) <= LinkRatio(st, adm[j])) &&
       (forall j :: 0 <= j < i ==> Ratio(s) < LinkRatio(st, adm[j]))) &&
    s in st.surgeries && TeamLinked(st, s.id, teamId) && InRemaining(remaining, s.id) &&
    !HasBooking(st, s.id) && RoomAllows(st, roomFilter, s.id)
  }

  /**
   * When the selection goes through: no remaining surgery has a booking yet,
   * and every admissible link names a surgery of the Surgery table.
   */
  predicate KnownAndUnbooked(st: Store, remaining: seq<Surgery>, teamId: int, roomFilter: Option<int>) {
    var adm := AdmissibleLinks(st, remaining, teamId, roomFilter);
    (forall i :: 0 <= i < |remaining| ==> !HasBooking(st, remaining[i].id)) &&
    (forall i :: 0 <= i < |adm| ==> exists s :: s in st.surgeries && s.id == adm[i].surgeryId)
  }

  /** The selection proper, once the team is known to have capability links. */
  function Choose(st: Store, remaining: seq<Surgery>, team: Team, roomFilter: Option<int>)
    : (r: Result<Option<Surgery>>)
    ensures r.Ok? <==> KnownAndUnbooked(st, remaining, team.id, roomFilter)
    ensures r.Ok? ==> (r.value.None? <==> AdmissibleLinks(st, remaining, team.id, roomFilter) == [])
    ensures r.Ok? && r.value.Some? ==> Chosen(st, remaining, team.id, roomFilter, r.value.value)
  {
    var _ :- CheckRemaining(st, remaining);
    var adm := AdmissibleLinks(st, remaining, team.id, roomFilter);
    var cands :- Candidates(st, adm);
    if cands == [] then Ok(None)
    else
      var i := FirstMinIndex(cands, Ratio);
      ChosenIsEligible(st, remaining, team, roomFilter, adm, cands, i);
      Ok(Some(cands[i]))
  }

  /**
   * `get_next_surgery`. `roomFilter` is `Some(room id)` when the room limiter
   * is on: the team and the room must then both have capability links, and
   * only surgeries the room accepts are eligible.
   */
  function GetNextSurgery(st: Store, remaining: seq<Surgery>, team: Team, roomFilter: Option<int>)
    : (r: Result<Option<Surgery>>)
    ensures roomFilter.None? && TeamLinksOf(st, team.id) == [] ==> r == Ok(None)
    ensures roomFilter.Some? && (TeamLinksOf(st, team.id) == [] || RoomLinksOf(st, roomFilter.value) == []) ==>
              r.Err? && r.failure.Raised? && r.failure.exc == AssertionError
    ensures TeamLinksOf(st, team.id) != [] && (roomFilter.Some? ==> RoomLinksOf(st, roomFilter.value) != []) ==>
              (r.Ok? <==> KnownAndUnbooked(st, remaining, team.id, roomFilter))
    ensures r.Ok? ==> (r.value.None? <==> AdmissibleLinks(st, remaining, team.id, roomFilter) == [])
    ensures r.Ok? && r.value.Some? ==> Chosen(st, remaining, team.id, roomFilter, r.value.value)
  {
    var links := TeamLinksOf(st, team.id);
    if roomFilter.Some? && links == [] then
      Err(Raised(AssertionError, "this team didn't have any corresponding surgery"))
    else if roomFilter.Some? && RoomLinksOf(st, roomFilter.value) == [] then
      Err(Raised(AssertionError, "this room didn't have any corresponding surgery"))
    else if links == [] then
      NoLinksNoneAdmissible(st, remaining, team.id, roomFilter);
      Ok(None)
    else Choose(st, remaining, team, roomFilter)
  }

  lemma NoLinksNoneAdmissible(st: Store, remaining: seq<Surgery>, teamId: int, roomFilter: Option<int>)
    requires TeamLinksOf(st, teamId) == []
    ensures AdmissibleLinks(st, remaining, teamId, roomFilter) == []
  {
  }

  lemma ChosenIsEligible(st: Store, remaining: seq<Surgery>, team: Team, roomFilter: Option<int>,
                         adm: seq<TeamLink>, cands: seq<Surgery>, i: nat)
    requires adm == AdmissibleLinks(st, remaining, team.id, roomFilter)
    requires |cands| == |adm| && forall k :: 0 <= k < |adm| ==> SurgeryById(st, adm[k].surgeryId) == Ok(cands[k])
    requires forall k :: 0 <= k < |remaining| ==> !HasBooking(st, remaining[k].id)
    requires i < |cands|
    requires forall j :: 0 <= j < |cands| ==> Ratio(cands[i]) <= Ratio(cands[j])
    requires forall j :: 0 <= j < i ==> Ratio(cands[j]) > Ratio(cands[i])
    ensures Chosen(st, remaining, team.id, roomFilter, cands[i])
  {
    var s := cands[i];
    var l := adm[i];
    assert l in adm;
    assert l in TeamLinksOf(st, team.id);
    assert l in st.teamLinks;
    var k :| 0 <= k < |st.teamLinks| && st.teamLinks[k] == l;
    assert TeamLinked(st, s.id, team.id);
    var m :| 0 <= m < |remaining| && remaining[m].id == s.id;
    assert forall j :: 0 <= j < |adm| ==> LinkRatio(st, adm[j]) == Ratio(cands[j]);
    assert 0 <= i < |adm| && SurgeryById(st, adm[i].surgeryId) == Ok(s);
  }
}

=== FILE: weighted.dfy ===
/*
 * The single-room sequencing variant: surgeries with a duration and a
 * per-minute punishment, run back to back; each waits for the durations of
 * those before it. Also the id counter of its surgery class and the
 * numbering of its room list.
 */
module Weighted {
  import opened Common
  import Lehmer

  datatype Job = Job(duration: int, punishment: int)

  /** `get_punishment`: the punishment accrued over `t` minutes of waiting. */
  function GetPunishment(j: Job, t: int): (r: int)
    ensures t == 0 ==> r == 0
    ensures j.punishment >= 0 && t >= 0 ==> r >= 0
  {
    j.punishment * t
  }

  /** The waiting punishment is additive in the waiting time. */
  lemma PunishmentAdditive(j: Job, a: int, b: int)
    ensures GetPunishment(j, a + b) == GetPunishment(j, a) + GetPunishment(j, b)
  {
  }

  /** The total duration of a list. */
  function SumDur(js: seq<Job>): int {
    if js == [] then 0 else SumDur(js[..|js| - 1]) + js[|js| - 1].duration
  }

  lemma {:induction false} SumDurAppend(a: seq<Job>, b: seq<Job>)
    ensures SumDur(a + b) == SumDur(a) + SumDur(b)
    decreases |b|
  {
    if b != [] {
      var b' := b[..|b| - 1];
      assert (a + b)[..|a + b| - 1] == a + b';
      SumDurAppend(a, b');
    } else {
      assert a + b == a;
    }
  }

  /**
   * The reference penalty of running `js` in order: each surgery pays its
   * punishment times the total duration of those before it.
   */
  function Total(js: seq<Job>): int {
    if js == [] then 0
    else
      var init := js[..|js| - 1];
      Total(init) + GetPunishment(js[|js| - 1], SumDur(init))
  }

  /**
   * `calculate_total_punishment`: for each surgery after the first, the sum
   * of the durations before it, times its punishment.
   */
  method CalculateTotalPunishment(js: seq<Job>) returns (total: int)
    ensures total == Total(js)
    ensures |js| <= 1 ==> total == 0
  {
    total := 0;
    if js == [] {
      return;
    }
    var i := 1;
    assert js[..1] == [js[0]];
    assert Total(js[..1]) == 0 by {
      assert js[..1][..0] == [];
    }
    while i < |js|
      invariant 1 <= i <= |js|
      invariant total == Total(js[..i])
    {
      var waited := 0;
      var j := 0;
      while j < i
        invariant 0 <= j <= i
        invariant waited == SumDur(js[..j])
      {
        assert js[..j + 1][..j] == js[..j];
        waited := waited + js[j].duration;
        j := j + 1;
      }
      assert js[..i + 1][..i] == js[..i];
      total := total + GetPunishment(js[i], waited);
      i := i + 1;
    }
    assert js[..|js|] == js;
  }

  /** Appending the same tail to two lists of equal duration keeps the difference of their penalties. */
  lemma {:induction false} TotalShift(x: seq<Job>, y: seq<Job>, post: seq<Job>)
    requires SumDur(x) == SumDur(y)
    ensures Total(x + post) - Total(y + post) == Total(x) - Total(y)
    decreases |post|
  {
    if post != [] {
      var p' := post[..|post| - 1];
      var z := post[|post| - 1];
      assert (x + post)[..|x + post| - 1] == x + p' && (x + post)[|x + post| - 1] == z;
      assert (y + post)[..|y + post| - 1] == y + p' && (y + post)[|y + post| - 1] == z;
      TotalShift(x, y, p');
      SumDurAppend(x, p');
      SumDurAppend(y, p');
    } else {
      assert x + post == x && y + post == y;
    }
  }

  /**
   * The exchange argument: swapping two neighbours changes the penalty by the
   * difference of their cross products, so `a` before `b` is no worse exactly
   * when `a.duration * b.punishment <= b.duration * a.punishment` (the ratio
   * order duration/punishment, for positive punishments).
   */
  lemma Exchange(pre: seq<Job>, a: Job, b: Job, post: seq<Job>)
    ensures Total(pre + [a, b] + post) - Total(pre + [b, a] + post) == b.punishment * a.duration - a.punishment * b.duration
    ensures Total(pre + [a, b] + post) <= Total(pre + [b, a] + post) <==> a.duration * b.punishment <= b.duration * a.punishment
  {
    var s := SumDur(pre);
    TwoMore(pre, a, b);
    TwoMore(pre, b, a);
    TotalShift(pre + [a, b], pre + [b, a], post);
    CrossDifference(a.punishment, a.duration, b.punishment, b.duration, s);
  }

  /** The penalty and the duration after appending two jobs. */
  lemma TwoMore(pre: seq<Job>, a: Job, b: Job)
    ensures Total(pre + [a, b]) == Total(pre) + a.punishment * SumDur(pre) + b.punishment * (SumDur(pre) + a.duration)
    ensures SumDur(pre + [a, b]) == SumDur(pre) + a.duration + b.duration
  {
    var x := pre + [a, b];
    assert x[..|x| - 1] == pre + [a] && (pre + [a])[..|pre|] == pre;
    assert SumDur(pre + [a]) == SumDur(pre) + a.duration;
  }

  lemma CrossDifference(pa: int, da: int, pb: int, db: int, s: int)
    ensures (pa * s + pb * (s + da)) - (pb * s + pa * (s + db)) == pb * da - pa * db
    ensures pb * da - pa * db <= 0 <==> da * pb <= db * pa
  {
    assert pb * (s + da) == pb * s + pb * da;
    assert pa * (s + db) == pa * s + pa * db;
    assert da * pb == pb * da && db * pa == pa * db;
  }

  /*
   * The surgery class: typed setters and an id counter.
   */

  /** The Python values a setter can be given. */
  datatype PyValue = PyInt(i: int) | PyBool(b: bool) | PyFloat(f: real) | PyStr(s: string) | PyNone

  /** `isinstance(v, int)`: integers, and booleans (a subclass of int, worth 0 or 1). */
  function IntValue(v: PyValue, message: string): (r: Result<int>)
    ensures r.Ok? <==> v.PyInt? || v.PyBool?
    ensures v.PyInt? ==> r == Ok(v.i)
    ensures r.Err? ==> r.failure == Raised(TypeError, message)
  {
    match v
    case PyInt(i) => Ok(i)
    case PyBool(b) => Ok(if b then 1 else 0)
    case _ => Err(Raised(TypeError, message))
  }

  datatype Cirurgy = Cirurgy(job: Job, id: int)

  /** The class-level state: the id counter and every surgery created since the last reset. */
  datatype Registry = Registry(counter: int, all: seq<Cirurgy>)

  /** `reset_cirurgies`. */
  const Reset := Registry(0, [])

  /**
   * The constructor: the punishment setter, then the duration setter, then
   * the next id from the counter; the new surgery joins the class list.
   */
  function Create(reg: Registry, duration: PyValue, punishment: PyValue): (r: Result<(Cirurgy, Registry)>)
    ensures r.Ok? <==> (duration.PyInt? || duration.PyBool?) && (punishment.PyInt? || punishment.PyBool?)
    ensures !(punishment.PyInt? || punishment.PyBool?) ==> r == Err(Raised(TypeError, "Punishment must be an integer"))
    ensures (punishment.PyInt? || punishment.PyBool?) && !(duration.PyInt? || duration.PyBool?) ==>
              r == Err(Raised(TypeError, "Duration must be an integer"))
    ensures r.Ok? ==> r.value.0.id == reg.counter && r.value.1 == Registry(reg.counter + 1, reg.all + [r.value.0])
    ensures r.Ok? && duration.PyInt? && punishment.PyInt? ==> r.value.0.job == Job(duration.i, punishment.i)
  {
    var p :- IntValue(punishment, "Punishment must be an integer");
    var d :- IntValue(duration, "Duration must be an integer");
    var c := Cirurgy(Job(d, p), reg.counter);
    Ok((c, Registry(reg.counter + 1, reg.all + [c])))
  }

  /** `Cirurgy.get_by_id`: the first surgery of the class list with the id, or None. */
  function CirurgyById(reg: Registry, id: int): (r: Option<Cirurgy>)
    ensures r.None? <==> forall i :: 0 <= i < |reg.all| ==> reg.all[i].id != id
    ensures r.Some? ==> exists i :: 0 <= i < |reg.all| && reg.all[i] == r.value && r.value.id == id &&
                          forall j :: 0 <= j < i ==> reg.all[j].id != id
  {
    ByIdFrom(reg.all, id, 0)
  }

  function ByIdFrom(cs: seq<Cirurgy>, id: int, k: nat): (r: Option<Cirurgy>)
    requires k <= |cs|
    ensures r.None? <==> forall i :: k <= i < |cs| ==> cs[i].id != id
    ensures r.Some? ==> exists i :: k <= i < |cs| && cs[i] == r.value && r.value.id == id &&
                          forall j :: k <= j < i ==> cs[j].id != id
    decreases |cs| - k
  {
    if k == |cs| then None else if cs[k].id == id then Some(cs[k]) else ByIdFrom(cs, id, k + 1)
  }

  /** Since the last reset, the i-th surgery created has id i. */
  predicate Numbered(reg: Registry) {
    reg.counter == |reg.all| && forall i :: 0 <= i < |reg.all| ==> reg.all[i].id == i
  }

  lemma CreateKeepsNumbered(reg: Registry, duration: PyValue, punishment: PyValue)
    requires Numbered(reg) && Create(reg, duration, punishment).Ok?
    ensures Numbered(Create(reg, duration, punishment).value.1)
  {
  }

  /** In a numbered registry, id `i` finds the i-th surgery created, and nothing else is found. */
  lemma NumberedLookup(reg: Registry, id: int)
    requires Numbered(reg)
    ensures 0 <= id < |reg.all| ==> CirurgyById(reg, id) == Some(reg.all[id])
    ensures !(0 <= id < |reg.all|) ==> CirurgyById(reg, id) == None
  {
    if 0 <= id < |reg.all| {
      assert reg.all[id].id == id;
      var r := CirurgyById(reg, id);
      var i :| 0 <= i < |reg.all| && reg.all[i] == r.value && r.value.id == id;
    }
  }

  /*
   * The room list.
   */

  datatype Room = Room(cirurgies: seq<Cirurgy>, id: int)

  /** The `RoomList` constructor: each room's id becomes its position. */
  function NumberRooms(rooms: seq<Room>): (r: seq<Room>)
    ensures |r| == |rooms|
    ensures forall i :: 0 <= i < |rooms| ==> r[i] == rooms[i].(id := i)
  {
    seq(|rooms|, i requires 0 <= i < |rooms| => rooms[i].(id := i))
  }

  /** `RoomList.get_by_id`: the first room with the id, or ValueError. */
  function RoomById(rooms: seq<Room>, id: int): (r: Result<Room>)
    ensures r.Err? <==> forall i :: 0 <= i < |rooms| ==> rooms[i].id != id
    ensures r.Err? ==> r.failure.Raised? && r.failure.exc == ValueError
    ensures r.Ok? ==> exists i :: 0 <= i < |rooms| && rooms[i] == r.value && r.value.id == id &&
                        forall j :: 0 <= j < i ==> rooms[j].id != id
  {
    if forall i | 0 <= i < |rooms| :: rooms[i].id != id then Err(Raised(ValueError, "Room not found"))
    else
      var k := FirstRoomWith(rooms, id, 0);
      Ok(rooms[k])
  }

  function FirstRoomWith(rooms: seq<Room>, id: int, k: nat): (i: nat)
    requires k <= |rooms| && exists i :: k <= i < |rooms| && rooms[i].id == id
    ensures k <= i < |rooms| && rooms[i].id == id && forall j :: k <= j < i ==> rooms[j].id != id
    decreases |rooms| - k
  {
    if rooms[k].id == id then k else FirstRoomWith(rooms, id, k + 1)
  }

  /** After numbering, exactly the ids 0 .. n-1 are found, each at its own position. */
  lemma NumberedRoomLookup(rooms: seq<Room>, id: int)
    ensures 0 <= id < |rooms| ==> RoomById(NumberRooms(rooms), id) == Ok(rooms[id].(id := id))
    ensures !(0 <= id < |rooms|) ==> RoomById(NumberRooms(rooms), id).Err?
  {
    var n := NumberRooms(rooms);
    if 0 <= id < |rooms| {
      assert n[id].id == id;
      var r := RoomById(n, id);
      var i :| 0 <= i < |n| && n[i] == r.value && r.value.id == id;
    }
  }

  /*
   * The best order of one room.
   */

  /** The position of the first list with the least penalty, from position `k` on (strict `<` keeps the first). */
  function FirstMinFrom(perms: seq<seq<Job>>, k: nat, best: nat): (r: nat)
    requires best < |perms| && best < k <= |perms|
    requires forall j :: 0 <= j < k ==> Total(perms[best]) <= Total(perms[j])
    requires forall j :: 0 <= j < best ==> Total(perms[j]) > Total(perms[best])
    ensures r < |perms|
    ensures forall j :: 0 <= j < |perms| ==> Total(perms[r]) <= Total(perms[j])
    ensures forall j :: 0 <= j < r ==> Total(perms[j]) > Total(perms[r])
    decreases |perms| - k
  {
    if k == |perms| then best
    else if Total(perms[k]) < Total(perms[best]) then FirstMinFrom(perms, k + 1, k)
    else FirstMinFrom(perms, k + 1, best)
  }

  /**
   * `get_order_by_permutation`: over the orders in `perms` (the enumeration
   * itertools makes), the first with the least penalty, and that penalty.
   * The first order always beats the initial infinity; with no order at all
   * the closing assertion fails.
   */
  function GetOrderByPermutation(perms: seq<seq<Job>>): (r: Result<(seq<Job>, int)>)
    ensures r.Err? <==> perms == []
    ensures r.Err? ==> r.failure.Raised? && r.failure.exc == AssertionError
    ensures r.Ok? ==> r.value.0 in perms && r.value.1 == Total(r.value.0) &&
                      forall p :: p in perms ==> r.value.1 <= Total(p)
    ensures r.Ok? ==> exists i :: 0 <= i < |perms| && perms[i] == r.value.0 &&
                        forall j :: 0 <= j < i ==> Total(perms[j]) > Total(perms[i])
  {
    if perms == [] then Err(Raised(AssertionError, "best_order is None"))
    else
      var i := FirstMinFrom(perms, 1, 0);
      Ok((perms[i], Total(perms[i])))
  }

  /** When `perms` holds every reordering of `js`, the chosen order is optimal among all of them. */
  lemma PermutationSearchIsOptimal(js: seq<Job>, perms: seq<seq<Job>>, p: seq<Job>)
    requires forall q :: multiset(q) == multiset(js) ==> q in perms
    requires multiset(p) == multiset(js)
    ensures GetOrderByPermutation(perms).Ok? && GetOrderByPermutation(perms).value.1 <= Total(p)
  {
    assert p in perms;
  }

  /** The largest room the exhaustive search handles; larger rooms go to the genetic search, which is not modelled. */
  const ExhaustiveLimit := 5

  /** `get_best_order`: exhaustive search for at most five surgeries; None stands for the genetic branch. */
  function GetBestOrder(js: seq<Job>, perms: seq<seq<Job>>): (r: Option<Result<(seq<Job>, int)>>)
    ensures r.Some? <==> |js| <= ExhaustiveLimit
    ensures r.Some? ==> r.value == GetOrderByPermutation(perms)
  {
    if |js| <= ExhaustiveLimit then Some(GetOrderByPermutation(perms)) else None
  }

  /**
   * `room_fitness_func`: decode the vector against the room's surgeries and
   * score minus the penalty of the resulting order.
   */
  function RoomFitness(js: seq<Job>, solution: seq<int>): (r: Result<int>)
    ensures r.Ok? <==> Lehmer.InRange(|js|, solution)
    ensures r.Err? ==> r.failure.Raised? && r.failure.exc == IndexError
    ensures r.Ok? ==> exists order :: multiset(order) == multiset(js) && |order| == |js| && r.value == -Total(order)
    ensures r.Ok? ==> r.value == -Total(Lehmer.OrderByIndexes(js, solution).value)
  {
    var order :- Lehmer.OrderByIndexes(js, solution);
    Ok(-Total(order))
  }

  /** All-zero genes pop the head each time, so they score the surgeries in their listed order. */
  lemma ZeroGenesScoreListed(js: seq<Job>, solution: seq<int>)
    requires |solution| <= |js| && forall k :: 0 <= k < |solution| ==> solution[k] == 0
    ensures RoomFitness(js, solution).Ok? && RoomFitness(js, solution).value == -Total(js)
  {
    Lehmer.ZerosDecodeToIdentity(js, solution);
    var r := RoomFitness(js, solution);
    assert r.Ok? && r.value == -Total(Lehmer.OrderByIndexes(js, solution).value);
    assert Lehmer.OrderByIndexes(js, solution).value == js;
    assert r.value == -Total(js);
  }

  /** No genes score better than the order the exhaustive search picks. */
  lemma FitnessBoundedByOptimum(js: seq<Job>, perms: seq<seq<Job>>, solution: seq<int>)
    requires forall q :: multiset(q) == multiset(js) ==> q in perms
    requires RoomFitness(js, solution).Ok?
    ensures GetOrderByPermutation(perms).Ok?
    ensures RoomFitness(js, solution).value <= -GetOrderByPermutation(perms).value.1
  {
    var order := Lehmer.OrderByIndexes(js, solution).value;
    PermutationSearchIsOptimal(js, perms, order);
  }

  /** Punishments and durations that are not negative make every penalty non-negative. */
  lemma {:induction false} TotalNonNegative(js: seq<Job>)
    requires forall i :: 0 <= i < |js| ==> js[i].duration >= 0 && js[i].punishment >= 0
    ensures SumDur(js) >= 0 && Total(js) >= 0
  {
    if js != [] {
      TotalNonNegative(js[..|js| - 1]);
    }
  }
}
